=== FILE: README.md ===
# mini-vue core in Dafny

A model of the two sequential cores of mini-vue, a small Vue-style runtime.
Each core is a functional state machine over immutable datatypes.

- **Reactivity engine** (`effect.dfy`, `reactive.dfy`, `refs.dfy`).
  - A dependency graph from (target, key) and from each ref cell to an insertion-ordered set of effects.
  - An effect table and the two ambient slots `activeEffect` and `shouldTrack`.
  - `track`, `trigger`, `run`, `stop` and `effect`.
  - The three proxy variants (mutable, readonly, shallow readonly) as get/set functions over an id-indexed heap, with `isReactive`, `isReadonly` and `isProxy`.
  - Ref cells with change suppression, `isRef`, `unRef`, and the `proxyRefs` view.
  - The semantics are those of the built bundle (`lib/guide-mini-vue.cjs.js:76-160`). The bundle adds `shouldTrack`, the `active` guard in `run` and the membership check in `track`. The comments in `effect.dfy` say where `src/reactivity/effect.ts` differs.
- **Runtime core** (`vnode.dfy`, `component.dfy`, `host.dfy`, `renderer.dfy`).
  - Vnodes and their shape flags, slot normalisation and `renderSlots`.
  - Component instances, and `setupComponent` with the `currentInstance` slot.
  - The public instance's key resolution order.
  - `provide`/`inject` as copy-on-first-write layers chained to the parent's.
  - `emit` with its event-name to handler-key mapping.
  - The renderer: `patch` dispatch, mounting, the update path (`patchElement`, `patchChildren`, `unmountChildren`, `pathProps`) and the render effect.
  - Host calls are an emitted trace of operations. `host.dfy` gives the trace a meaning on an abstract DOM, so renderer properties can be stated both about the trace and about the DOM it produces.

Shared definitions live in `wrappers.dfy` (`Option`, `Result` with a JavaScript `TypeError`, duplicate-free sequences) and in `shared.dfy` (values, `isObject`, `hasChanged`, `extend`, `camelize`/`capitalize`/`toHandlerKey`).

Some parts are abstract inputs:

- **Effect bodies.** A `Body` is the sequence of dependency reads the body performs, plus its result.
- **`setup` functions.** A script of context operations (`provide`, `inject`, `getCurrentInstance`, writes to props, `emit`) and the value it returns.
- **Render functions.** A `RenderView` maps an instance and a render count to the subtree.
- **Recursion depth.** Renderer recursion is bounded by a fuel parameter. Running out gives `OutOfFuel`, and a JavaScript exception gives `Threw`.

Two cases where the code behaves unexpectedly are modelled as written:

- `trigger` on a (target, key) that was never tracked reads a missing map. In the model this is an `Err(TypeError)` result.
- `inject` without a current instance, or from a root instance, is an `Err` as well.

## Model

| member | source | states |
|---|---|---|
| Shared.Extend | src/shared/index.ts:1 | `Object.assign`: the result holds the target's keys plus every source's. A key takes the value of the last source that holds it. Keys no source holds keep the target's value |
| Shared.ToLower | lib/guide-mini-vue.cjs.js:556 | same length; each character lower-cased, ASCII only |
| Shared.Camelize | lib/guide-mini-vue.cjs.js:20-24 | only a `-` followed by a word character is rewritten, and each such pair becomes one character, so the result is never longer than the input and at least half its length (rounded up) |
| Shared.CamelizeWithoutDash | lib/guide-mini-vue.cjs.js:20-24 | a string without `-` is left unchanged by `camelize` |
| Shared.CamelizeJoin | lib/guide-mini-vue.cjs.js:20-24 | `-c` with `c` a word character becomes upper-case `c`, and the text before it is kept |
| Shared.Capitalize | lib/guide-mini-vue.cjs.js:17-19 | same length; only the first character is upper-cased, the rest is kept |
| Shared.ToHandlerKey | lib/guide-mini-vue.cjs.js:14-16 | `on`, then the event's first character upper-cased, then the rest of the event unchanged; a lower-case initial gives a listener key |
| Shared.EventName | lib/guide-mini-vue.cjs.js:554-556 | the key without its first two characters, each remaining character lower-cased |
| Shared.HandlerKeyRoundTrip | lib/guide-mini-vue.cjs.js:14-19 | for a lower-case event name, the handler key is a listener key whose event name is the original name |
| Effect.TrackEffects | lib/guide-mini-vue.cjs.js:131-134 | adds the active effect to the set (a set, so at most once); pushes the set onto the effect's `deps` even when already a member; nothing else changes |
| Effect.Track | lib/guide-mini-vue.cjs.js:112-130 | outside tracking the state is unchanged. Otherwise the active effect joins the (target, key) set, and its `deps` grow only if it was not yet a member. Other sets and every other effect are unchanged |
| Effect.TrackIdempotent | lib/guide-mini-vue.cjs.js:126-128 | tracking the same (target, key) twice equals tracking it once |
| Effect.TrackRefValue | lib/guide-mini-vue.cjs.js:366-370 | a ref read registers the active effect in the ref's own set only while tracking |
| Effect.RefReadRepeatsDeps | lib/guide-mini-vue.cjs.js:131-134 | reading a ref again keeps its set, but the effect's `deps` receives the set again |
| Effect.Run | lib/guide-mini-vue.cjs.js:85-94 | for a function that returns: calls it once and returns its result. An active effect becomes `activeEffect` and leaves `shouldTrack` false. A stopped effect runs with the ambient slots as they were, and with tracking off its state is untouched |
| Effect.RunThrows | lib/guide-mini-vue.cjs.js:85-93 | for a function that throws: an active effect leaves `shouldTrack` on and itself as `activeEffect`; a stopped one leaves both slots as they were |
| Effect.ThrowSkipsOnlyReset | lib/guide-mini-vue.cjs.js:89-93 | with the same reads, a throwing run differs from a returning one only in the `shouldTrack = false` it never reaches |
| Effect.RunSubscribesReads | lib/guide-mini-vue.cjs.js:85-94 | running an active effect subscribes it to every dependency its body reads and to nothing else; no membership is lost |
| Effect.ReadAfterRunDoesNotTrack | lib/guide-mini-vue.cjs.js:89-93 | after a run whose function returns, a `track` outside an effect changes nothing |
| Effect.ReadAfterThrowTracks | lib/guide-mini-vue.cjs.js:89-93 | after an active effect's function throws, tracking is still on, and a later read outside any effect joins the thrown effect's set |
| Effect.TriggerEffects | lib/guide-mini-vue.cjs.js:143-152 | one dispatch per member, in set order; the scheduler is used exactly when the effect has one, `run` otherwise |
| Effect.Trigger | lib/guide-mini-vue.cjs.js:138-142 | fails with a `TypeError` exactly when the (target, key) set was never created; otherwise dispatches the set |
| Effect.TriggerReachesSubscriber | src/reactivity/test/effect.spec.ts:32-56 | an effect that read (target, key) is called once at creation, and a later trigger reaches it through its scheduler if it has one, and through `run` otherwise, never both |
| Effect.CleanupDeps | lib/guide-mini-vue.cjs.js:105-110 | removes the effect from exactly the sets in its `deps`; every other membership stays |
| Effect.Stop | lib/guide-mini-vue.cjs.js:95-104 | the effect becomes inactive with empty `deps` and is in no set. `onStop` is called only on the first stop of an effect that has one. Other effects and memberships are unchanged |
| Effect.StopIdempotent | src/reactivity/effect.ts:15-23 | stopping twice equals stopping once |
| Effect.StoppedEffectStaysManual | src/reactivity/test/effect.spec.ts:59-75 | after `stop`, a manual run still calls the body and returns its result, subscribes nothing, and no trigger dispatches the effect |
| Effect.CreateEffect | lib/guide-mini-vue.cjs.js:153-160 | a fresh active effect with the given scheduler and `onStop`. Its body is called exactly once, it is subscribed to exactly what the body read, and it is left as `activeEffect` with tracking off |
| Reactive.Wrap | src/reactivity/reactive.ts:3-12 | a new wrapper object, distinct from the raw object and from every existing object, holding the variant and the target |
| Reactive.ProxyGet | src/reactivity/baseHandlers.ts:15-35 | the flag keys answer from the variant without reading the target. Shallow readonly returns the raw value untracked. An object value comes back as a fresh wrapper of the same variant and is not tracked. A plain value is returned and tracked on the raw target by the mutable variant only |
| Reactive.ProxySet | src/reactivity/baseHandlers.ts:37-61 | mutable: writes the value, then triggers (target, key). Readonly variants: the heap is unchanged, one warning is logged, and nothing is triggered |
| Reactive.IsReactive | src/reactivity/reactive.ts:14-16 | `TypeError` exactly for `null`/`undefined`; for a wrapper, true exactly for the mutable variant |
| Reactive.IsReadonly | src/reactivity/reactive.ts:18-20 | `TypeError` exactly for `null`/`undefined`; for a wrapper, true exactly for the readonly variants |
| Reactive.IsProxy | src/reactivity/reactive.ts:22-24 | exactly `isReactive || isReadonly` |
| Reactive.WrapFlags | src/reactivity/test/reactive.spec.ts:4-12 | a wrapper differs from its raw object and is reactive or readonly by its variant, and a proxy either way. The raw object answers false to all three |
| Reactive.WrapNotCached | src/reactivity/reactive.ts:26-28 | wrapping the same object twice gives two different wrappers |
| Reactive.WrappersShareDependencies | src/reactivity/baseHandlers.ts:30-32 | two mutable wrappers of one object track the same (raw target, key) |
| Reactive.NestedGetKeepsVariant | src/reactivity/test/readonly.spec.ts:15 | reading a nested object through a deep wrapper gives a wrapper with the same `isReactive`/`isReadonly` answers |
| Reactive.SetThenGet | src/reactivity/baseHandlers.ts:37-43 | after a mutable write, a read through any wrapper of the same target sees the value |
| Reactive.UnchangedWriteStillTriggers | src/reactivity/baseHandlers.ts:38-41 | writing the stored value leaves the heap as it was, yet still triggers |
| Reactive.ReadonlyWriteInvisible | src/reactivity/test/readonly.spec.ts:19-26 | after a readonly write every key reads as before, and exactly one warning was added |
| Refs.Convert | src/reactivity/ref.ts:35-37 | an object becomes a fresh mutable wrapper of it; anything else is kept |
| Refs.NewRef | src/reactivity/ref.ts:10-14 | a fresh cell storing the raw value and its converted value, with an empty dependency set |
| Refs.NewRefUnwraps | src/reactivity/ref.ts:39-49 | `unRef(ref(x))` is `x` for a non-object `x` |
| Refs.RefGet | src/reactivity/ref.ts:15-18 | returns `_value`, and registers the reader only while tracking |
| Refs.RefSet | src/reactivity/ref.ts:19-26 | an `Object.is`-equal value changes nothing and triggers nothing. A different value stores the raw and converted values and dispatches every member of the ref's set |
| Refs.RefSetThenGet | src/reactivity/ref.ts:15-26 | after setting a primitive, `.value` reads it, and setting it again triggers nothing |
| Refs.RefWriteReachesReader | src/reactivity/ref.ts:19-26 | an effect that read the ref is re-run by a write exactly when the value changed |
| Refs.GetProperty | src/reactivity/ref.ts:43-49 | property access throws exactly on `null`/`undefined` |
| Refs.IsRef | src/reactivity/ref.ts:43-45 | throws exactly on `null`/`undefined`; true for ref cells; `!!__v_isRef` for plain objects; false for other primitives |
| Refs.UnRef | src/reactivity/ref.ts:47-49 | `.value` for a ref, the argument itself for other primitives, and throws on `null`/`undefined` |
| Refs.ProxyRefsGet | src/reactivity/ref.ts:53-56 | throws exactly when the slot holds `null`/`undefined` (an absent key included). A ref in the slot reads as its `.value`, and a primitive is returned as stored |
| Refs.ProxyRefsSet | src/reactivity/ref.ts:57-64 | throws when the slot holds `null`/`undefined`, or holds a ref and the new value is `null`/`undefined`; a slot holding a primitive is replaced |
| Refs.ProxyRefsSetForwards | src/reactivity/ref.ts:58-61 | any value that is not a ref (a primitive, a plain object whose `__v_isRef` is falsy, a reactive wrapper) written over a ref goes into the ref: the write succeeds, the slot keeps the same ref and the ref's raw value becomes the written value; a primitive reads back unchanged through the view |
| Refs.ProxyRefsSetReplaces | src/reactivity/ref.ts:57-63 | a write that does not forward (the old value is not a ref, or the new value is a ref) replaces the slot with the new value and plans no effect runs |
| Refs.ProxyRefsSetAbsentKeyThrows | src/reactivity/ref.ts:58-59 | a write to an absent key throws, since `isRef(undefined)` dereferences it |
| Vnode.GetShapeFlag | src/runtime-core/vnode.ts:33-41 | ELEMENT exactly for string types, STATEFUL_COMPONENT exactly for object types, never both |
| Vnode.CreateVnode | src/runtime-core/vnode.ts:7-27 | type, props and children kept, `el` null. TEXT_CHILDREN exactly for string children and ARRAY_CHILDREN exactly for arrays. SLOT_CHILDREN exactly for a component with object children |
| Vnode.CreateTextVnode | src/runtime-core/vnode.ts:29-31 | type Text, empty props, the text as children, shape flag exactly TEXT_CHILDREN |
| Vnode.FlagsExclusive | src/runtime-core/vnode.ts:15-25 | never element and component, never text and array. Slot children only on components, and a component with array children carries both ARRAY_CHILDREN and SLOT_CHILDREN |
| Vnode.NormalizeSlotValue | lib/guide-mini-vue.cjs.js:264-266 | an array is kept; anything else becomes a one-element array |
| Vnode.RenderSlots | lib/guide-mini-vue.cjs.js:67-74 | `undefined` for a missing slot. A stored slot is always initSlots' wrapper, so the `typeof` test passes: a wrapper around a non-function throws a `TypeError` when called, and any other gives a Fragment of the normalised slot output |
| Component.CreateComponentInstance | src/runtime-core/component.ts:8-24 | unmounted, empty setupState, props and slots, no render, no subtree. Shares the parent's provides layer, or gets a fresh empty layer at the root. No existing instance changes |
| Component.LookupIsNearest | src/runtime-core/apiProvide.ts:17-18 | a key is found exactly when some layer on the prototype chain owns it, and the value comes from the nearest such layer |
| Component.Provide | src/runtime-core/apiProvide.ts:3-12 | no current instance: a no-op. Otherwise the key reads back from the instance's layer. While the instance still shares its parent's layer, a new layer chained to it is added; after that the instance's own layer is written in place. The parent's layer never changes |
| Component.SecondProvideDoesNotFork | src/runtime-core/apiProvide.ts:7-10 | two provides fork one layer in total |
| Component.Inject | src/runtime-core/apiProvide.ts:14-25 | throws exactly without a current instance or parent. Searches the parent's chain; when the key is missing, a falsy default gives `undefined`, a function default its call result, and any other default itself |
| Component.OwnProvideDoesNotShadowInject | src/runtime-core/apiProvide.ts:15-18 | a component's own `provide` does not change what it injects |
| Component.ChildInjectsProvided | src/runtime-core/apiProvide.ts:3-18 | a child created after its parent provides a key injects that value |
| Component.HandlerName | lib/guide-mini-vue.cjs.js:224 | `on`, then the camelized event's first character upper-cased, then the rest of the camelized event |
| Component.HandlerNameWithoutDash | lib/guide-mini-vue.cjs.js:224 | for an event without `-`, the handler name is exactly `toHandlerKey(event)` |
| Component.Emit | lib/guide-mini-vue.cjs.js:222-227 | the handler is called with the given arguments exactly when props hold a truthy function under the handler name. A falsy value calls nothing, and a truthy non-function throws |
| Component.EmitKebabEvent | lib/guide-mini-vue.cjs.js:222-225 | `emit('add-sth', ...)` calls the `onAddSth` handler |
| Component.PublicProperties | src/runtime-core/componentPublicInstance.ts:3-6 | exactly `$el` and `$slots` |
| Component.PublicGet | src/runtime-core/componentPublicInstance.ts:7-19 | throws when `setupState` is `null`; an own key of `setupState` resolves there first |
| Component.PublicGetIsLayeredLookup | src/runtime-core/componentPublicInstance.ts:7-19 | resolution equals a lookup in `$el`/`$slots` overridden by props, overridden by setupState; any other key is not found |
| Component.InitSlots | lib/guide-mini-vue.cjs.js:252-263 | slots are filled only under SLOT_CHILDREN: an object's entries are copied, and an array's entries are not callable |
| Component.SlotsRenderAsFragments | lib/guide-mini-vue.cjs.js:258-262 | composed with renderSlots: an object slot renders as a Fragment of its normalised output, a non-function entry throws, an array's index keys throw, and a missing name or non-slot children give `undefined` |
| Component.RunOps | src/runtime-core/component.ts:38-43 | a setup script keeps the runtime valid and changes no other instance |
| Component.SetupComponent | src/runtime-core/component.ts:26-61 | props, then slots, then setup. With `setup`, `currentInstance` is the instance throughout and null afterwards; `setupState` becomes an object result (`null` included) and is kept otherwise; `render` is copied. Without `setup`, nothing else happens |
| Component.SetupEmitSeesProps | src/runtime-core/component.ts:26-29 | props are initialised before setup runs, so an `emit` in setup reaches the handler in props |
| Component.SetupCannotWriteProps | src/runtime-core/component.ts:38-39 | a write to props inside setup leaves `instance.props` as initialised |
| Component.NoSetupNoRender | src/runtime-core/component.ts:35-61 | a definition without `setup` never gets `instance.render` |
| Component.NullSetupStateThrows | lib/guide-mini-vue.cjs.js:302-305 | after a setup that returns `null`, every public instance read throws |
| Host.DomPatchProp | lib/guide-mini-vue.cjs.js:553-567 | an `on[A-Z]` key adds a listener for the lower-cased rest. Any other key removes the attribute on `null`/`undefined` and sets it otherwise |
| Host.SrcMountProp | src/runtime-core/renderer.ts:66-75 | mount-only renderer: `on[A-Z]` keys become listeners, every other key `setAttribute` |
| Host.MountPropAgreesWithSource | src/runtime-core/renderer.ts:66-75 | the two agree except on `null`/`undefined`, which the bundle removes and the mount-only renderer sets |
| Host.ApplyAllConcat | lib/guide-mini-vue.cjs.js:568-577 | running two traces one after the other equals running their concatenation |
| Host.AttrsOf | lib/guide-mini-vue.cjs.js:553-567 | the attributes a props map leaves: every non-listener key whose value is neither `null` nor `undefined` |
| Renderer.MountPropOps | lib/guide-mini-vue.cjs.js:534-537 | one `patchProp(el, key, null, props[key])` per key, in key order |
| Renderer.ChangedOps | lib/guide-mini-vue.cjs.js:508-516 | every call is `patchProp(el, key, old[key], new[key])` for a key of the new props whose values differ |
| Renderer.ChangedOpsComplete | lib/guide-mini-vue.cjs.js:509-514 | every key whose value changed gets its call |
| Renderer.ChangedOpsDistinct | lib/guide-mini-vue.cjs.js:509-514 | with distinct keys, no key gets two calls |
| Renderer.RemovedOps | lib/guide-mini-vue.cjs.js:517-523 | exactly one `patchProp(el, key, undefined, undefined)` per old key the new props lack |
| Renderer.RemovedOpsDistinct | lib/guide-mini-vue.cjs.js:517-523 | the removal calls name pairwise distinct keys, so each old key the new props lack is removed exactly once |
| Renderer.PathProps | lib/guide-mini-vue.cjs.js:507-524 | the same object with `EMPTY_OBJ` gives no calls; from `EMPTY_OBJ` only the change loop runs |
| Renderer.PathPropsSameObjectIsEmpty | lib/guide-mini-vue.cjs.js:507-519 | patching an object against itself makes no call |
| Renderer.PathPropsSyncsAttributes | lib/guide-mini-vue.cjs.js:507-524 | attributes that match the old props end up as exactly the attributes of the new props |
| Renderer.PathPropsCallsOn | lib/guide-mini-vue.cjs.js:507-524 | every call `pathProps` makes is a `patchProp` on the element it was given |
| Renderer.ChangedOpsAttrs | lib/guide-mini-vue.cjs.js:508-516 | key by key, the change loop gives each changed non-listener key its new value, or removes it for `null`/`undefined`, and keeps every other attribute |
| Renderer.RemovedOpsAttrs | lib/guide-mini-vue.cjs.js:517-523 | key by key, the removal loop drops each old non-listener key that the new props lack and keeps every other attribute |
| Renderer.PatchPropsOnDom | lib/guide-mini-vue.cjs.js:476-480 | on the DOM, the props pass leaves exactly the new props' attributes and leaves the element's text and children alone |
| Renderer.MountPropsAttrs | lib/guide-mini-vue.cjs.js:534-537 | mounting props on a new element leaves exactly their attributes |
| Renderer.TextElementOnDom | lib/guide-mini-vue.cjs.js:525-539 | on the DOM, the mount calls of an element with text succeed. The new element holds the text, no children and exactly its props' attributes, and is appended last to the container |
| Renderer.UnmountOps | lib/guide-mini-vue.cjs.js:501-506 | one `remove` per old child, called with the child vnode |
| Renderer.UnmountLeavesDom | lib/guide-mini-vue.cjs.js:571-574 | removing a vnode, which has no `parentNode`, leaves the DOM unchanged |
| Renderer.Patch | lib/guide-mini-vue.cjs.js:416-441 | Text creates and appends exactly one text node. A Fragment keeps its `el` and throws without array children. Any other vnode with neither the element nor the component flag makes no calls. Type, props and flags are kept, and the state only grows |
| Renderer.MountChildren | lib/guide-mini-vue.cjs.js:540-544 | one patched child per child; nothing for no children |
| Renderer.MountArray | lib/guide-mini-vue.cjs.js:541 | only an array can be mounted; anything else throws |
| Renderer.ElementChildren | lib/guide-mini-vue.cjs.js:528-533 | text children make exactly one set-text call on the element. With the array flag but no array, the call throws |
| Renderer.MountElement | lib/guide-mini-vue.cjs.js:525-539 | the element is created first and inserted last, with its props set in key order just before the insert |
| Renderer.MountElementTextNodes | lib/guide-mini-vue.cjs.js:525-539 | an element with text-vnode children: exactly create, one created and appended text node per child in order, one call per prop, insert |
| Renderer.MountTextElement | lib/guide-mini-vue.cjs.js:525-539 | mounting an element with text children makes exactly: create, set text, one call per prop, insert |
| Renderer.PatchElement | lib/guide-mini-vue.cjs.js:474-481 | the old element is reused. To text, the calls are exactly the children calls followed by `pathProps` with absent props read as `EMPTY_OBJ` |
| Renderer.PatchChildren | lib/guide-mini-vue.cjs.js:482-500 | to text: one remove per old array child, then a set-text only if the text differs. Text to array: the first call clears the text and the result is an array, and a non-array throws. Otherwise no calls |
| Renderer.PatchTextToTextNodes | lib/guide-mini-vue.cjs.js:494-497 | text to an array of text vnodes: exactly the clearing call, then one created and appended text node per new child, in order |
| Renderer.PatchToTextOnDom | lib/guide-mini-vue.cjs.js:486-493 | to text children, the element ends with the new text; coming from an array it also has no children left |
| Renderer.MountComponent | lib/guide-mini-vue.cjs.js:445-449 | a new, mounted instance with a subtree, and the component vnode's `el` is the root `el` of that subtree. A non-object type throws |
| Renderer.RenderEffectRun | lib/guide-mini-vue.cjs.js:450-465 | without `render` it throws. Otherwise the instance ends mounted, storing this run's render output (same type, props and flags) as its subtree and adopting its `el`, and its render count goes up by one. Every other instance is unchanged |
| Renderer.RenderEffectPatchesInPlace | lib/guide-mini-vue.cjs.js:450-465 | the first run mounts a new element. The second run reuses it, and its calls are exactly the text update and the props diff |
| Renderer.RenderSecondRun | lib/guide-mini-vue.cjs.js:458-463 | a later run over a mounted element subtree reuses the stored element and stores the new render output with that element. Its calls are exactly a set-text when the text differs, then the props diff |
| Renderer.Render | lib/guide-mini-vue.cjs.js:413-415 | instances, host nodes and host calls are only added: the old instances are a prefix of the new ones, and the old trace a prefix of the new trace |
| Renderer.RenderTextElementOnDom | lib/guide-mini-vue.cjs.js:413-441 | rendering an element with text appends to the container a new element holding the text and exactly the attributes of its props |
| Renderer.MountTextChildren | lib/guide-mini-vue.cjs.js:540-544 | mounting a list of text vnodes creates and appends one text node per child, in order, and leaves the runtime unchanged |
| Renderer.TextNodesOnDom | lib/guide-mini-vue.cjs.js:438-441 | on a DOM, those calls append the new text nodes to the container in order, each holding its text, and change no other node |
| Renderer.TextFragmentOnDom | lib/guide-mini-vue.cjs.js:435-441 | rendering a Fragment of text vnodes appends one text node per child, in order, directly to the container |
| Renderer.TextToTextNodesOnDom | lib/guide-mini-vue.cjs.js:494-497 | on the DOM, the element ends with no text and exactly the new text nodes as its children, in order |
| Renderer.TextNodesElementOnDom | lib/guide-mini-vue.cjs.js:525-539 | on the DOM, the new element holds no text of its own, the text nodes as its children in order, exactly the attributes of its props, and is appended to the container |
| Renderer.RenderTextListElementOnDom | lib/guide-mini-vue.cjs.js:525-544 | rendering an element whose children are text vnodes appends one new element to the container, holding one text node per child in order and exactly the attributes of its props |

## Left out

- The DOM, `document`, `querySelector` and the runtime-dom adapter. Host calls are a trace, and `host.dfy` gives them a small abstract meaning: text, children, attributes and listeners.
- JavaScript `Proxy`/`Reflect`, `WeakMap` and prototype-inherited keys. `for..in`, `in` and `hasOwn` see own keys only, and `publicPropertiesMap[key]` does not find inherited `Object.prototype` members.
- `Object.is` corner cases (NaN, ±0): value equality is structural.
- Proxies of proxies or of refs: `ProxyGet`/`ProxySet` require a wrapper whose target is a plain object.
- Nested effects and re-entrant cascades. `trigger` returns the ordered dispatch plan instead of running the effects.
- The render effect is not connected to the dependency graph. The renderer takes each render's subtree from a `RenderView`, and a re-render is one more call of `RenderEffectRun`.
- Keyed list reconciliation does not exist in this code: array to array makes no calls.
- `console.warn`/`console.log`. A readonly write records its key as a warning.
- Non-ASCII case mapping in `toUpperCase`/`toLowerCase`.
- Slot props: a slot function's output is fixed.
- `String(children)` of arrays prints every element as `[object Object]`.
- The DOM's `append` moving a node that already has a parent, and `removeChild`: a removed vnode has no `parentNode`, so removal changes nothing.
- Renderer.Patch: recursion is bounded by fuel, and a subtree deeper than the fuel ends as `OutOfFuel`.
- Renderer.Patch: a `Threw` outcome carries no state, so the host calls made and the instances created before the throw are dropped; in the source they stay in the DOM and in the component tree.
- Component.SetupComponent: an error from `setup` returns no runtime, so the model does not show that `currentInstance` stays set to the instance, which the source clears only after `setup` returns (lib/guide-mini-vue.cjs.js:294-298).
- Renderer.Patch: `processFragment`, `processText` and `processComponent` ignore the previous vnode, and so does the model, so re-patching them mounts again.
- Refs.GetProperty: the contract does not say the result is readable again, because a ref may hold a wrapper of a wrapper, which is outside the modelled traps.
- Effect.Run: `src/reactivity/effect.ts:11-14` ignores `active` and never clears tracking. The model follows the bundle, as does `Track` (the source file creates the maps before checking for an active effect, which the model does not represent). A function that throws is not part of `Run`: `RunThrows` models that path separately, and `CreateEffect` does not model a function that throws on its first run.
- Effect.ReadAfterRunDoesNotTrack: holds only for a function that returns. After a throw, tracking stays on (`ReadAfterThrowTracks`).
- Component.OwnProvideDoesNotShadowInject: requires that the instance's layer is at or above its parent's, which every instance built by `CreateComponentInstance` and `Provide` satisfies.
- Renderer.PathPropsSyncsAttributes: props objects compared by identity are assumed to carry the content their identity stands for.
- Renderer.PatchPropsOnDom: the same identity assumption as PathPropsSyncsAttributes.
- Renderer.PatchChildren: from text to an array, the mounting of the new children is stated call by call only for text-vnode children (`PatchTextToTextNodes`); for element or component children the contract gives the clearing call and the array result.
- Renderer.MountElement: array children are stated call by call only for text-vnode children (`MountElementTextNodes`); for element or component children the contract pins the create, the props and the insert.
- `example/` apps, `createApp` and packaging.

=== FILE: component.dfy ===
/** Component instances, setup with the `currentInstance` slot, the public
    instance's key resolution, provide/inject and emit
    (src/runtime-core/component.ts, componentPublicInstance.ts, apiProvide.ts;
    bundle lib/guide-mini-vue.cjs.js:222-345). */
module Component {
  import opened Wrappers
  import opened Shared
  import opened Vnode

  type InstId = nat

  /** `instance.setupState`: `{}` at creation, or whatever object `setup`
      returned, `null` included. */
  datatype StateObj = NullState | StateFields(fields: map<string, Value>)

  /** A component instance. `provides` names a layer of the runtime's provide
      store; `el` is the component vnode's `el`; `subTree` is `None` before
      the first render. */
  datatype Instance = Instance(
    vnode: VNode,
    def: ComponentDef,
    setupState: StateObj,
    props: map<string, Value>,
    slots: map<string, SlotEntry>,
    parent: Option<InstId>,
    providesAt: nat,
    isMounted: bool,
    subTree: Option<VNode>,
    hasRender: bool,
    el: Option<HostId>)

  /** One provides object: its own keys and its prototype (`Object.create`). */
  datatype Layer = Layer(own: map<string, Value>, proto: Option<nat>)

  /** The instances created so far, the provides objects, and the ambient
      `currentInstance`. */
  datatype Runtime = Runtime(instances: seq<Instance>, layers: seq<Layer>, current: Option<InstId>)

  /** Prototypes point to older layers, so every chain ends. */
  predicate ChainOk(layers: seq<Layer>) {
    forall l :: 0 <= l < |layers| && layers[l].proto.Some? ==> layers[l].proto.value < l
  }

  predicate Valid(rt: Runtime) {
    && ChainOk(rt.layers)
    && (forall i :: 0 <= i < |rt.instances| ==>
          && (rt.instances[i].parent.Some? ==> rt.instances[i].parent.value < i)
          && rt.instances[i].providesAt < |rt.layers|)
    && (rt.current.Some? ==> rt.current.value < |rt.instances|)
  }

  function Init(): (r: Runtime)
    ensures Valid(r) && r.current == None && |r.instances| == 0
  {
    Runtime([], [], None)
  }

  /** `createComponentInstance(vnode, parent)`. */
  function CreateComponentInstance(rt: Runtime, vnode: VNode, parent: Option<InstId>): (r: (Runtime, InstId))
    requires Valid(rt) && vnode.type_.Comp?
    requires parent.Some? ==> parent.value < |rt.instances|
    ensures Valid(r.0) && r.1 == |rt.instances| && |r.0.instances| == |rt.instances| + 1
    ensures r.0.instances[..|rt.instances|] == rt.instances && r.0.current == rt.current
    ensures var inst := r.0.instances[r.1];
            && inst.vnode == vnode && inst.def == vnode.type_.def && inst.parent == parent
            && !inst.isMounted && inst.setupState == StateFields(map[])
            && inst.props == map[] && inst.slots == map[] && !inst.hasRender
            && inst.subTree == None && inst.el == vnode.el
    ensures parent.Some? ==>
              r.0.layers == rt.layers && r.0.instances[r.1].providesAt == rt.instances[parent.value].providesAt
    ensures parent.None? ==>
              r.0.layers == rt.layers + [Layer(map[], None)] && r.0.instances[r.1].providesAt == |rt.layers|
  {
    var layers := if parent.Some? then rt.layers else rt.layers + [Layer(map[], None)];
    var providesAt := if parent.Some? then rt.instances[parent.value].providesAt else |rt.layers|;
    var inst := Instance(vnode, vnode.type_.def, StateFields(map[]), map[], map[], parent,
                         providesAt, false, None, false, vnode.el);
    (rt.(instances := rt.instances + [inst], layers := layers), |rt.instances|)
  }

  // ---------------------------------------------------------------------
  // provide / inject
  // ---------------------------------------------------------------------

  /** `key in provides ? provides[key] : (not found)`, following prototypes. */
  function Lookup(layers: seq<Layer>, l: nat, key: string): Option<Value>
    requires ChainOk(layers) && l < |layers|
    decreases l
  {
    if key in layers[l].own then Some(layers[l].own[key])
    else match layers[l].proto
      case None => None
      case Some(p) => Lookup(layers, p, key)
  }

  /** The layers a lookup from `l` visits, nearest first. */
  function Chain(layers: seq<Layer>, l: nat): (r: seq<nat>)
    requires ChainOk(layers) && l < |layers|
    ensures |r| > 0 && r[0] == l
    ensures forall i :: 0 <= i < |r| ==> r[i] <= l
    decreases l
  {
    match layers[l].proto
    case None => [l]
    case Some(p) => [l] + Chain(layers, p)
  }

  /** No layer along `c` owns `key`. */
  predicate AbsentAlong(layers: seq<Layer>, c: seq<nat>, key: string)
    requires forall i :: 0 <= i < |c| ==> c[i] < |layers|
  {
    forall i :: 0 <= i < |c| ==> key !in layers[c[i]].own
  }

  /** `c[j]` is the first layer along `c` that owns `key`. */
  predicate FirstOwner(layers: seq<Layer>, c: seq<nat>, key: string, j: nat)
    requires forall i :: 0 <= i < |c| ==> c[i] < |layers|
  {
    j < |c| && key in layers[c[j]].own && AbsentAlong(layers, c[..j], key)
  }

  /** The reference reading of a lookup: the value comes from the first
      layer in the chain that owns the key, and is absent when none does. */
  lemma {:induction false} LookupIsNearest(layers: seq<Layer>, l: nat, key: string)
    requires ChainOk(layers) && l < |layers|
    ensures Lookup(layers, l, key).None? <==> AbsentAlong(layers, Chain(layers, l), key)
    ensures Lookup(layers, l, key).Some? ==>
              exists j: nat :: FirstOwner(layers, Chain(layers, l), key, j)
                && Lookup(layers, l, key).value == layers[Chain(layers, l)[j]].own[key]
    decreases l
  {
    var c := Chain(layers, l);
    if key in layers[l].own {
      assert c[0] == l && key in layers[c[0]].own;
      assert FirstOwner(layers, c, key, 0);
    } else if layers[l].proto.Some? {
      var p := layers[l].proto.value;
      LookupIsNearest(layers, p, key);
      var tail := Chain(layers, p);
      assert c == [l] + tail;
      AbsentAlongCons(layers, l, tail, key);
      if Lookup(layers, p, key).Some? {
        var j: nat :| FirstOwner(layers, tail, key, j) && Lookup(layers, p, key).value == layers[tail[j]].own[key];
        FirstOwnerCons(layers, l, tail, key, j);
      }
    } else {
      assert c == [l];
    }
  }

  lemma AbsentAlongCons(layers: seq<Layer>, l: nat, tail: seq<nat>, key: string)
    requires l < |layers| && forall i :: 0 <= i < |tail| ==> tail[i] < |layers|
    ensures AbsentAlong(layers, [l] + tail, key) <==> key !in layers[l].own && AbsentAlong(layers, tail, key)
  {
    var c := [l] + tail;
    if AbsentAlong(layers, c, key) {
      assert c[0] == l;
      forall i | 0 <= i < |tail| ensures key !in layers[tail[i]].own {
        assert c[i + 1] == tail[i];
      }
    }
  }

  lemma FirstOwnerCons(layers: seq<Layer>, l: nat, tail: seq<nat>, key: string, j: nat)
    requires l < |layers| && forall i :: 0 <= i < |tail| ==> tail[i] < |layers|
    requires key !in layers[l].own && FirstOwner(layers, tail, key, j)
    ensures FirstOwner(layers, [l] + tail, key, j + 1) && ([l] + tail)[j + 1] == tail[j]
  {
    var pre := ([l] + tail)[..j + 1];
    assert pre == [l] + tail[..j];
    forall i | 0 <= i < |pre| ensures key !in layers[pre[i]].own {
      if i > 0 { assert pre[i] == tail[..j][i - 1]; }
    }
  }

  /** A lookup only reads layers at or below its start. */
  lemma {:induction false} LookupFrame(a: seq<Layer>, b: seq<Layer>, l: nat, key: string)
    requires ChainOk(a) && ChainOk(b) && l < |a| && l < |b|
    requires forall i :: 0 <= i <= l ==> a[i] == b[i]
    ensures Lookup(a, l, key) == Lookup(b, l, key)
    decreases l
  {
    if key !in a[l].own && a[l].proto.Some? {
      LookupFrame(a, b, a[l].proto.value, key);
    }
  }

  /** Whether the current instance's next `provide` forks a layer: its
      `provides` is still the very object of its parent. */
  predicate Forks(rt: Runtime, c: InstId)
    requires Valid(rt) && c < |rt.instances|
  {
    var inst := rt.instances[c];
    inst.parent.Some? && inst.providesAt == rt.instances[inst.parent.value].providesAt
  }

  /** `provide(key, value)`. */
  function Provide(rt: Runtime, key: string, value: Value): (r: Runtime)
    requires Valid(rt)
    ensures Valid(r) && r.current == rt.current && |r.instances| == |rt.instances|
    ensures rt.current.None? ==> r == rt
    ensures rt.current.Some? ==>
              var c := rt.current.value;
              && (forall i :: 0 <= i < |rt.instances| && i != c ==> r.instances[i] == rt.instances[i])
              && r.instances[c] == rt.instances[c].(providesAt := r.instances[c].providesAt)
              && Lookup(r.layers, r.instances[c].providesAt, key) == Some(value)
              && (Forks(rt, c) ==>
                    && |r.layers| == |rt.layers| + 1 && r.layers[..|rt.layers|] == rt.layers
                    && r.instances[c].providesAt == |rt.layers|
                    && r.layers[|rt.layers|].proto == Some(rt.instances[c].providesAt))
              && (!Forks(rt, c) ==>
                    && |r.layers| == |rt.layers|
                    && r.instances[c].providesAt == rt.instances[c].providesAt
                    && forall l :: 0 <= l < |rt.layers| && l != rt.instances[c].providesAt ==> r.layers[l] == rt.layers[l])
    ensures rt.current.Some? && rt.instances[rt.current.value].parent.Some? ==>
              var p := rt.instances[rt.current.value].parent.value;
              r.layers[rt.instances[p].providesAt] == rt.layers[rt.instances[p].providesAt]
  {
    match rt.current
    case None => rt
    case Some(c) =>
      var inst := rt.instances[c];
      if Forks(rt, c) then
        var layers := rt.layers + [Layer(map[key := value], Some(inst.providesAt))];
        assert layers[..|rt.layers|] == rt.layers;
        rt.(layers := layers, instances := rt.instances[c := inst.(providesAt := |rt.layers|)])
      else
        var layer := rt.layers[inst.providesAt];
        rt.(layers := rt.layers[inst.providesAt := Layer(layer.own[key := value], layer.proto)])
  }

  /** `inject(key, default)`. With no current instance, or from a root,
      reading `instance.parent.providesAt` throws. `callResult` is what the
      default returns when it is a function and gets called. */
  function Inject(rt: Runtime, key: string, default: Value, callResult: Value): (r: Result<Value>)
    requires Valid(rt)
    ensures r.Err? <==> rt.current.None? || rt.instances[rt.current.value].parent.None?
    ensures r.Ok? ==>
              var p := rt.instances[rt.instances[rt.current.value].parent.value].providesAt;
              match Lookup(rt.layers, p, key)
              case Some(v) => r.value == v
              case None =>
                && (!Truthy(default) ==> r.value == Undefined)
                && (Truthy(default) && default.Fn? ==> r.value == callResult)
                && (Truthy(default) && !default.Fn? ==> r.value == default)
  {
    match rt.current
    case None => Err(TypeError)
    case Some(c) =>
      match rt.instances[c].parent
      case None => Err(TypeError)
      case Some(p) =>
        match Lookup(rt.layers, rt.instances[p].providesAt, key)
        case Some(v) => Ok(v)
        case None =>
          if !Truthy(default) then Ok(Undefined)
          else if default.Fn? then Ok(callResult)
          else Ok(default)
  }

  /** A component's own `provide` never shadows its own `inject`: `inject`
      reads the parent's chain, which the instance's writes do not reach
      (while the instance's layer is its parent's or newer, as during its
      setup). */
  lemma OwnProvideDoesNotShadowInject(rt: Runtime, k: string, v: Value, key: string, default: Value, callResult: Value)
    requires Valid(rt) && rt.current.Some?
    requires var inst := rt.instances[rt.current.value];
             inst.parent.Some? && inst.providesAt >= rt.instances[inst.parent.value].providesAt
    ensures Inject(Provide(rt, k, v), key, default, callResult) == Inject(rt, key, default, callResult)
  {
    var c := rt.current.value;
    var p := rt.instances[c].parent.value;
    var r := Provide(rt, k, v);
    var pl := rt.instances[p].providesAt;
    assert r.instances[p] == rt.instances[p];
    forall i | 0 <= i <= pl
      ensures r.layers[i] == rt.layers[i]
    {
      if Forks(rt, c) {
        assert r.layers[..|rt.layers|][i] == rt.layers[i];
      }
    }
    LookupFrame(r.layers, rt.layers, pl, key);
  }

  /** What a parent provides is what its children inject, unless their
      setup finds a default. */
  lemma ChildInjectsProvided(rt: Runtime, key: string, v: Value, vnode: VNode, default: Value, callResult: Value)
    requires Valid(rt) && rt.current.Some? && vnode.type_.Comp?
    ensures var parent := rt.current.value;
            var r1 := Provide(rt, key, v);
            var (r2, child) := CreateComponentInstance(r1, vnode, Some(parent));
            Inject(r2.(current := Some(child)), key, default, callResult) == Ok(v)
  {
  }

  /** The first `provide` of a child forks one layer; later ones write it
      without forking again. */
  lemma SecondProvideDoesNotFork(rt: Runtime, k1: string, v1: Value, k2: string, v2: Value)
    requires Valid(rt) && rt.current.Some? && Forks(rt, rt.current.value)
    ensures var r := Provide(Provide(rt, k1, v1), k2, v2);
            && |r.layers| == |rt.layers| + 1
            && r.layers[..|rt.layers|] == rt.layers
            && r.instances[rt.current.value].providesAt == |rt.layers|
  {
    var c := rt.current.value;
    var r1 := Provide(rt, k1, v1);
    assert r1.instances[c].providesAt == |rt.layers|;
    assert !Forks(r1, c);
    var r2 := Provide(r1, k2, v2);
    assert r2.layers[..|rt.layers|] == r1.layers[..|rt.layers|];
  }

  // ---------------------------------------------------------------------
  // emit
  // ---------------------------------------------------------------------

  /** The props key `emit` looks up for an event. */
  function HandlerName(event: string): (r: string)
    ensures |r| == |Camelize(event)| + 2 && r[..2] == "on"
    ensures |Camelize(event)| > 0 ==> r[2] == ToUpperChar(Camelize(event)[0])
    ensures forall i :: 3 <= i < |r| ==> r[i] == Camelize(event)[i - 2]
  {
    ToHandlerKey(Camelize(event))
  }

  /** Without a dash `camelize` changes nothing, so `emit` looks up the
      handler key of the event name itself. */
  lemma HandlerNameWithoutDash(event: string)
    requires '-' !in event
    ensures HandlerName(event) == ToHandlerKey(event)
  {
    CamelizeWithoutDash(event);
  }

  /** `emit(event, ...args)`: calls the handler (a function id, with the
      arguments) iff props holds a truthy value under the handler key;
      calling a truthy non-function throws. */
  function Emit(props: map<string, Value>, event: string, args: seq<Value>): (r: Result<Option<(nat, seq<Value>)>>)
    ensures var key := HandlerName(event);
            var h := if key in props then props[key] else Undefined;
            && (r == Ok(None) <==> !Truthy(h))
            && (r.Err? <==> Truthy(h) && !h.Fn?)
            && (r.Ok? && r.value.Some? ==> h == Fn(r.value.value.0) && r.value.value.1 == args)
  {
    var key := HandlerName(event);
    var h := if key in props then props[key] else Undefined;
    if !Truthy(h) then Ok(None)
    else if h.Fn? then Ok(Some((h.fid, args)))
    else Err(TypeError)
  }

  /** `emit('add-sth')` calls the `onAddSth` handler. */
  lemma EmitKebabEvent(props: map<string, Value>, f: nat, args: seq<Value>)
    requires "onAddSth" in props && props["onAddSth"] == Fn(f)
    ensures Emit(props, "add-sth", args) == Ok(Some((f, args)))
  {
    HandlerNameAddSth();
  }

  lemma CamelizeAddSth()
    ensures Camelize("add-sth") == "addSth"
  {
    CamelizeJoin("add", 's', "th");
    assert "add" + ['-', 's'] + "th" == "add-sth";
    CamelizeWithoutDash("th");
    assert ToUpperChar('s') == 'S';
  }

  lemma HandlerNameAddSth()
    ensures HandlerName("add-sth") == "onAddSth"
  {
    CamelizeAddSth();
    assert ToUpperChar('a') == 'A';
    assert Capitalize("addSth") == "AddSth";
  }

  // ---------------------------------------------------------------------
  // The public instance
  // ---------------------------------------------------------------------

  /** What a key of the public instance resolves to. */
  datatype Resolved = Found(v: Value) | ElOf(el: Option<HostId>) | SlotsOf(slots: map<string, SlotEntry>) | NotFound

  /** `publicPropertiesMap` applied to the instance. */
  function PublicProperties(inst: Instance): (r: map<string, Resolved>)
    ensures r.Keys == {"$el", "$slots"}
  {
    map["$el" := ElOf(inst.el), "$slots" := SlotsOf(inst.slots)]
  }

  function Lift(m: map<string, Value>): (r: map<string, Resolved>)
    ensures r.Keys == m.Keys && forall k :: k in m ==> r[k] == Found(m[k])
  {
    map k | k in m :: Found(m[k])
  }

  /** `PublicInstanceProxyHandlers.get`: own keys of `setupState`, then own
      keys of `props`, then `$el` and `$slots`, then `undefined`. A `null`
      setup state makes `hasOwn` throw. */
  function PublicGet(inst: Instance, key: string): (r: Result<Resolved>)
    ensures r.Err? <==> inst.setupState.NullState?
    ensures r.Ok? && key in inst.setupState.fields ==> r.value == Found(inst.setupState.fields[key])
  {
    match inst.setupState
    case NullState => Err(TypeError)
    case StateFields(f) =>
      if key in f then Ok(Found(f[key]))
      else if key in inst.props then Ok(Found(inst.props[key]))
      else if key == "$el" then Ok(ElOf(inst.el))
      else if key == "$slots" then Ok(SlotsOf(inst.slots))
      else Ok(NotFound)
  }

  /** The resolution order is `Object.assign` order: the public getters,
      overridden by props, overridden by the setup state. */
  lemma PublicGetIsLayeredLookup(inst: Instance, key: string)
    requires inst.setupState.StateFields?
    ensures var merged := Extend(PublicProperties(inst), [Lift(inst.props), Lift(inst.setupState.fields)]);
            PublicGet(inst, key) == Ok(if key in merged then merged[key] else NotFound)
  {
    var sources := [Lift(inst.props), Lift(inst.setupState.fields)];
    var merged := Extend(PublicProperties(inst), sources);
    if key in inst.setupState.fields {
      assert key in sources[1] && !InSomeFrom(sources, key, 2);
    } else if key in inst.props {
      assert key in sources[0] && !InSomeFrom(sources, key, 1);
    } else {
      assert !InSomeFrom(sources, key, 0);
    }
  }

  // ---------------------------------------------------------------------
  // Setup
  // ---------------------------------------------------------------------

  /** The decimal string of an array index, as `for ... in` yields it. */
  function IndexKey(n: nat): (r: string)
    ensures |r| > 0
    decreases n
  {
    var d := ['0', '1', '2', '3', '4', '5', '6', '7', '8', '9'];
    if n < 10 then [d[n]] else IndexKey(n / 10) + [d[n % 10]]
  }

  /** `initSlots`: only a vnode with SLOT_CHILDREN gets slots. Each own key of
      the children becomes a slot (wrapped so that calling it normalises the
      result). The keys of an array or string are its indices, whose values
      are not callable. */
  function InitSlots(vnode: VNode): (r: map<string, SlotEntry>)
    ensures !Has(vnode.shapeFlag, SLOT_CHILDREN) ==> r == map[]
    ensures Has(vnode.shapeFlag, SLOT_CHILDREN) && vnode.children.SlotObject? ==> r == vnode.children.slots
    ensures vnode.children.ArrayChildren? ==> forall k :: k in r ==> r[k] == NotCallable
  {
    if !Has(vnode.shapeFlag, SLOT_CHILDREN) then map[]
    else match vnode.children
      case SlotObject(m) => m
      case ArrayChildren(cs) => map i | 0 <= i < |cs| :: IndexKey(i) := NotCallable
      case TextChildren(s) => map i | 0 <= i < |s| :: IndexKey(i) := NotCallable
      case NoChildren => map[]
  }

  /** `renderSlots` over the slots `initSlots` installs for a component
      vnode built by `createVNode`: a named slot renders as a Fragment of its
      normalised output, a missing name renders nothing, a slot whose value
      is not a function throws when its wrapper calls it, and every indexed
      slot of array children throws. Children that are not an object give
      no slots at all. */
  lemma SlotsRenderAsFragments(vnode: VNode, name: string, propsId: nat)
    requires Built(vnode) && vnode.type_.Comp?
    ensures var r := RenderSlots(InitSlots(vnode), name, propsId);
            && (vnode.children.SlotObject? ==>
                  var m := vnode.children.slots;
                  && (name !in m ==> r == Ok(None))
                  && (name in m && m[name].NotCallable? ==> r.Err?)
                  && (name in m && m[name].SlotFunction? ==>
                        && r.Ok? && r.value.Some? && r.value.value.type_ == FragmentType
                        && r.value.value.children == ArrayChildren(NormalizeSlotValue(m[name].out))))
            && (vnode.children.ArrayChildren? ==>
                  && (forall i :: 0 <= i < |vnode.children.nodes| ==> RenderSlots(InitSlots(vnode), IndexKey(i), propsId).Err?)
                  && ((forall i :: 0 <= i < |vnode.children.nodes| ==> name != IndexKey(i)) ==> r == Ok(None)))
            && (!ChildrenIsObject(vnode.children) ==> r == Ok(None))
  {
    FlagsExclusive(vnode);
    if vnode.children.ArrayChildren? {
      var cs := vnode.children.nodes;
      var m := map i | 0 <= i < |cs| :: IndexKey(i) := NotCallable;
      assert Has(vnode.shapeFlag, SLOT_CHILDREN);
      assert InitSlots(vnode) == m;
      forall i | 0 <= i < |cs| ensures RenderSlots(m, IndexKey(i), propsId).Err? {
        assert IndexKey(i) in m;
      }
    }
  }

  /** What a setup script observed. */
  datatype Observation =
    | Injected(v: Value)
    | SawInstance(inst: Option<InstId>)
      /** The shallow-readonly props view refused a write (with a warning). */
    | PropWriteRejected(key: string)
    | Emitted(call: Option<(nat, seq<Value>)>)

  /** The instance a setup's `getCurrentInstance` calls saw. */
  predicate AllSawInstance(obs: seq<Observation>, c: InstId) {
    forall i :: 0 <= i < |obs| && obs[i].SawInstance? ==> obs[i].inst == Some(c)
  }

  /** The effect of one operation of instance `c`'s `setup`. */
  function Step(rt: Runtime, c: InstId, op: SetupOp): (r: Result<(Runtime, seq<Observation>)>)
    requires Valid(rt) && rt.current == Some(c)
    ensures r.Ok? ==>
              && Valid(r.value.0) && r.value.0.current == Some(c)
              && |r.value.0.instances| == |rt.instances|
              && r.value.0.instances[c] == rt.instances[c].(providesAt := r.value.0.instances[c].providesAt)
              && (forall i :: 0 <= i < |rt.instances| && i != c ==> r.value.0.instances[i] == rt.instances[i])
              && AllSawInstance(r.value.1, c)
    ensures op.ProvideOp? ==> r == Ok((Provide(rt, op.key, op.value), []))
    ensures op.InjectOp? ==>
              var v := Inject(rt, op.key, op.default, op.callResult);
              r == if v.Err? then Err(v.error) else Ok((rt, [Injected(v.value)]))
    ensures op.WritePropOp? ==> r == Ok((rt, [PropWriteRejected(op.key)]))
    ensures op.EmitOp? ==>
              var call := Emit(rt.instances[c].props, op.event, op.args);
              r == if call.Err? then Err(call.error) else Ok((rt, [Emitted(call.value)]))
  {
    match op
    case ProvideOp(k, v) => Ok((Provide(rt, k, v), []))
    case InjectOp(k, d, cr) =>
      var v :- Inject(rt, k, d, cr);
      Ok((rt, [Injected(v)]))
    case GetInstanceOp => Ok((rt, [SawInstance(rt.current)]))
    case WritePropOp(k, _) => Ok((rt, [PropWriteRejected(k)]))
    case EmitOp(event, args) =>
      var call :- Emit(rt.instances[c].props, event, args);
      Ok((rt, [Emitted(call)]))
  }

  /** Runs the operations of instance `c`'s `setup`, in order. The first
      exception aborts the rest. */
  function RunOps(rt: Runtime, c: InstId, ops: seq<SetupOp>): (r: Result<(Runtime, seq<Observation>)>)
    requires Valid(rt) && rt.current == Some(c)
    ensures r.Ok? ==>
              && Valid(r.value.0) && r.value.0.current == Some(c)
              && |r.value.0.instances| == |rt.instances|
              && r.value.0.instances[c] == rt.instances[c].(providesAt := r.value.0.instances[c].providesAt)
              && (forall i :: 0 <= i < |rt.instances| && i != c ==> r.value.0.instances[i] == rt.instances[i])
              && AllSawInstance(r.value.1, c)
    ensures |ops| == 1 ==> r == Step(rt, c, ops[0])
    decreases |ops|
  {
    if |ops| == 0 then Ok((rt, []))
    else
      var (rt1, ob) :- Step(rt, c, ops[0]);
      var (rt2, obs) :- RunOps(rt1, c, ops[1..]);
      assert |ops| == 1 ==> obs == [] && rt2 == rt1 && ob + obs == ob;
      assert forall i :: 0 <= i < |obs| ==> (ob + obs)[|ob| + i] == obs[i];
      Ok((rt2, ob + obs))
  }

  /** `setupComponent`: props, then slots, then `setup` with the instance as
      `currentInstance`, then `handleSetupResult`. */
  function SetupComponent(rt: Runtime, c: InstId): (r: Result<(Runtime, seq<Observation>)>)
    requires Valid(rt) && c < |rt.instances|
    ensures r.Ok? ==>
              var (rt1, obs) := r.value;
              && Valid(rt1) && |rt1.instances| == |rt.instances|
              && var before := rt.instances[c];
              var after := rt1.instances[c];
              && (forall i :: 0 <= i < |rt.instances| && i != c ==> rt1.instances[i] == rt.instances[i])
              && after.props == PropMap(before.vnode.props)
              && after.slots == InitSlots(before.vnode)
              && after.hasRender == (before.hasRender || (before.def.setup.Some? && before.def.hasRender))
              && after.isMounted == before.isMounted && after.parent == before.parent
              && after.vnode == before.vnode && after.el == before.el
              && AllSawInstance(obs, c)
    ensures r.Ok? && rt.instances[c].def.setup.Some? ==>
              && r.value.0.current == None
              && r.value.0.instances[c].setupState ==
                   match rt.instances[c].def.setup.value.result
                   case ResultObject(f) => StateFields(f)
                   case ResultNull => NullState
                   case ResultOther => rt.instances[c].setupState
    ensures rt.instances[c].def.setup.None? ==>
              && r.Ok? && r.value.1 == [] && r.value.0.current == rt.current
              && r.value.0.instances[c].setupState == rt.instances[c].setupState
  {
    var inst := rt.instances[c];
    var rt1 := rt.(instances := rt.instances[c := inst.(props := PropMap(inst.vnode.props), slots := InitSlots(inst.vnode))]);
    match inst.def.setup
    case None => Ok((rt1, []))
    case Some(script) =>
      var (rt2, obs) :- RunOps(rt1.(current := Some(c)), c, script.ops);
      var i2 := rt2.instances[c];
      var state :=
        match script.result
        case ResultObject(f) => StateFields(f)
        case ResultNull => NullState
        case ResultOther => i2.setupState;
      var i3 := i2.(setupState := state, hasRender := i2.hasRender || inst.def.hasRender);
      Ok((rt2.(current := None, instances := rt2.instances[c := i3]), obs))
  }

  /** Setup runs after props are initialised: an `emit` inside `setup`
      reaches the handler passed in the vnode's props. */
  lemma SetupEmitSeesProps(rt: Runtime, c: InstId, event: string, args: seq<Value>, f: nat)
    requires Valid(rt) && c < |rt.instances|
    requires rt.instances[c].def.setup == Some(SetupScript([EmitOp(event, args)], ResultOther))
    requires var key := HandlerName(event);
             key in PropMap(rt.instances[c].vnode.props) && PropMap(rt.instances[c].vnode.props)[key] == Fn(f)
    ensures SetupComponent(rt, c).Ok?
    ensures SetupComponent(rt, c).value.1 == [Emitted(Some((f, args)))]
  {
    var inst := rt.instances[c];
    var rt1 := rt.(instances := rt.instances[c := inst.(props := PropMap(inst.vnode.props), slots := InitSlots(inst.vnode))]).(current := Some(c));
    assert Emit(rt1.instances[c].props, event, args) == Ok(Some((f, args)));
  }

  /** Writes to the props view inside `setup` are refused: the instance's
      props are the vnode's props afterwards. */
  lemma SetupCannotWriteProps(rt: Runtime, c: InstId, key: string, v: Value)
    requires Valid(rt) && c < |rt.instances|
    requires rt.instances[c].def.setup == Some(SetupScript([WritePropOp(key, v)], ResultOther))
    ensures SetupComponent(rt, c).Ok?
    ensures SetupComponent(rt, c).value.1 == [PropWriteRejected(key)]
    ensures SetupComponent(rt, c).value.0.instances[c].props == PropMap(rt.instances[c].vnode.props)
  {
    var inst := rt.instances[c];
    var rt1 := rt.(instances := rt.instances[c := inst.(props := PropMap(inst.vnode.props), slots := InitSlots(inst.vnode))]).(current := Some(c));
    assert RunOps(rt1, c, [WritePropOp(key, v)]) == Ok((rt1, [PropWriteRejected(key)]));
  }

  /** A component without `setup` never gets `instance.render`. */
  lemma NoSetupNoRender(rt: Runtime, vnode: VNode, parent: Option<InstId>)
    requires Valid(rt) && vnode.type_.Comp? && vnode.type_.def.setup.None?
    requires parent.Some? ==> parent.value < |rt.instances|
    ensures var (rt1, c) := CreateComponentInstance(rt, vnode, parent);
            SetupComponent(rt1, c).Ok? && !SetupComponent(rt1, c).value.0.instances[c].hasRender
  {
  }

  /** A `null` setup result makes every public-instance read throw. */
  lemma NullSetupStateThrows(rt: Runtime, c: InstId, key: string)
    requires Valid(rt) && c < |rt.instances|
    requires rt.instances[c].def.setup.Some? && rt.instances[c].def.setup.value.result == ResultNull
    requires SetupComponent(rt, c).Ok?
    ensures PublicGet(SetupComponent(rt, c).value.0.instances[c], key).Err?
  {
  }
}

=== FILE: effect.dfy ===
/** The dependency graph and reactive effects, following the bundle's
    reactivity section (lib/guide-mini-vue.cjs.js:76-160).

    Differences of src/reactivity/effect.ts, which this model does NOT follow:
    its `run` (src/reactivity/effect.ts:11-14) ignores `active`, has no
    `shouldTrack` and never clears `activeEffect`; its `track` creates the
    maps and then registers whenever an active effect exists, without the
    `dep.has` check; its `cleanupEffect` does not empty `effect.deps`.

    An effect's function is abstract: one execution of it is described by a
    `Body`, the dependency sets it read (in order) and the value it returned.
    `trigger` does not execute the effects it reaches; it returns the ordered
    dispatch plan (scheduler or run), which the caller carries out. */
module Effect {
  import opened Wrappers
  import opened Shared

  type EffectId = nat

  /** A dependency set: the `Set` stored in targetMap under (target, key), or
      the `dep` set a ref cell owns. */
  datatype DepKey = KeyDep(target: nat, key: string) | RefDep(cell: nat)

  /** A `ReactiveEffect`. `deps` lists the sets it was pushed into, in order
      and possibly with repetitions. */
  datatype ReactiveEffect = ReactiveEffect(active: bool, hasScheduler: bool, hasOnStop: bool, deps: seq<DepKey>)

  /** The options object of `effect(fn, options)` as far as it matters. */
  datatype EffectOptions = EffectOptions(scheduler: bool, onStop: bool)

  /** One execution of an effect's function: the dependency reads it made,
      in order, and its return value. */
  datatype Body = Body(depReads: seq<DepKey>, result: Value)

  /** User callbacks the engine itself invokes. */
  datatype Call = FnCall(e: EffectId) | OnStopCall(e: EffectId)

  /** What `triggerEffects` does with one dependent. */
  datatype Dispatch = ViaScheduler(e: EffectId) | ViaRun(e: EffectId) {
    function Effect(): EffectId {
      match this
      case ViaScheduler(x) => x
      case ViaRun(x) => x
    }
  }

  /** The engine's global state: dependency sets (insertion-ordered), the
      effect table, and the two ambient slots `activeEffect`/`shouldTrack`. */
  datatype ReactState = ReactState(
    depSets: map<DepKey, seq<EffectId>>,
    effects: map<EffectId, ReactiveEffect>,
    nextEffect: EffectId,
    activeEffect: Option<EffectId>,
    shouldTrack: bool,
    calls: seq<Call>)

  /** The invariant every reachable state keeps: sets have no repetitions,
      every member is a known effect that recorded the set in its `deps`. */
  predicate Valid(st: ReactState) {
    && (forall e :: e in st.effects ==> e < st.nextEffect)
    && (st.activeEffect.Some? ==> st.activeEffect.value in st.effects)
    && (forall d :: d in st.depSets ==> NoDup(st.depSets[d]))
    && (forall d, e :: d in st.depSets && e in st.depSets[d] ==> e in st.effects && d in st.effects[e].deps)
  }

  function Init(): (st: ReactState)
    ensures Valid(st)
    ensures st.activeEffect.None? && !st.shouldTrack
  {
    ReactState(map[], map[], 0, None, false, [])
  }

  /** `isTracking`. */
  predicate IsTracking(st: ReactState) {
    st.activeEffect.Some? && st.shouldTrack
  }

  /** What a dependency set currently holds (an absent set reads as empty). */
  function Members(st: ReactState, d: DepKey): seq<EffectId> {
    if d in st.depSets then st.depSets[d] else []
  }

  /** `trackEffects(dep)`: adds the active effect to the set and pushes the set
      onto the effect's `deps`, even when the effect was already a member. */
  function TrackEffects(st: ReactState, d: DepKey): (r: ReactState)
    requires Valid(st) && IsTracking(st)
    ensures Valid(r)
    ensures d in r.depSets && r.depSets[d] == SetAdd(Members(st, d), st.activeEffect.value)
    ensures forall d' :: d' != d ==> Members(r, d') == Members(st, d')
    ensures r.depSets.Keys == st.depSets.Keys + {d}
    ensures r.effects.Keys == st.effects.Keys
    ensures r.effects[st.activeEffect.value].deps == st.effects[st.activeEffect.value].deps + [d]
    ensures forall e :: e in st.effects && e != st.activeEffect.value ==> r.effects[e] == st.effects[e]
    ensures forall e :: e in st.effects ==>
              r.effects[e].active == st.effects[e].active && r.effects[e].hasScheduler == st.effects[e].hasScheduler
    ensures r.activeEffect == st.activeEffect && r.shouldTrack == st.shouldTrack
    ensures r.calls == st.calls && r.nextEffect == st.nextEffect
  {
    var a := st.activeEffect.value;
    var eff := st.effects[a];
    st.(depSets := st.depSets[d := SetAdd(Members(st, d), a)],
        effects := st.effects[a := eff.(deps := eff.deps + [d])])
  }

  /** `track(target, key)`: nothing at all unless tracking; otherwise the set
      for (target, key) is created if missing and the active effect joins it
      once (the `dep.has` check). */
  function Track(st: ReactState, target: nat, key: string): (r: ReactState)
    requires Valid(st)
    ensures Valid(r)
    ensures !IsTracking(st) ==> r == st
    ensures IsTracking(st) ==>
              var d := KeyDep(target, key);
              var a := st.activeEffect.value;
              && d in r.depSets
              && r.depSets[d] == SetAdd(Members(st, d), a)
              && (a in Members(st, d) ==> r.effects == st.effects)
              && (a !in Members(st, d) ==> r.effects[a].deps == st.effects[a].deps + [d])
    ensures forall d' :: d' != KeyDep(target, key) ==> Members(r, d') == Members(st, d')
    ensures r.effects.Keys == st.effects.Keys
    ensures forall e :: e in st.effects ==>
              r.effects[e].active == st.effects[e].active && r.effects[e].hasScheduler == st.effects[e].hasScheduler
    ensures forall e :: e in st.effects && Some(e) != st.activeEffect ==> r.effects[e] == st.effects[e]
    ensures r.activeEffect == st.activeEffect && r.shouldTrack == st.shouldTrack
    ensures r.calls == st.calls && r.nextEffect == st.nextEffect
  {
    if !IsTracking(st) then st
    else
      var d := KeyDep(target, key);
      var created := st.(depSets := st.depSets[d := Members(st, d)]);
      if st.activeEffect.value in Members(st, d) then created
      else TrackEffects(created, d)
  }

  /** `trackRefValue(dep)`: a ref read joins its set only while tracking. */
  function TrackRefValue(st: ReactState, cell: nat): (r: ReactState)
    requires Valid(st)
    ensures Valid(r)
    ensures !IsTracking(st) ==> r == st
    ensures IsTracking(st) ==> r == TrackEffects(st, RefDep(cell))
  {
    if IsTracking(st) then TrackEffects(st, RefDep(cell)) else st
  }

  /** The effect table keeps its ids and every effect its flags. */
  predicate SameFlags(st: ReactState, r: ReactState) {
    && r.effects.Keys == st.effects.Keys
    && forall e :: e in st.effects ==>
         && r.effects[e].active == st.effects[e].active
         && r.effects[e].hasScheduler == st.effects[e].hasScheduler
         && r.effects[e].hasOnStop == st.effects[e].hasOnStop
  }

  /** The ambient slots, the call log and the id counter are untouched. */
  predicate SameAmbient(st: ReactState, r: ReactState) {
    r.activeEffect == st.activeEffect && r.shouldTrack == st.shouldTrack && r.calls == st.calls && r.nextEffect == st.nextEffect
  }

  /** Every membership of `st` is still present in `r`. */
  ghost predicate Grows(st: ReactState, r: ReactState) {
    forall d, e :: e in Members(st, d) ==> e in Members(r, d)
  }

  /** The only memberships `r` adds to `st` are of effect `a` in sets of `ds`. */
  ghost predicate AddsOnly(st: ReactState, r: ReactState, a: EffectId, ds: seq<DepKey>) {
    forall d, e :: e in Members(r, d) ==> e in Members(st, d) || (e == a && d in ds)
  }

  /** One read of a dependency set by a running function. */
  function ReadDep(st: ReactState, d: DepKey): (r: ReactState)
    requires Valid(st)
    ensures Valid(r)
    ensures SameFlags(st, r) && SameAmbient(st, r) && Grows(st, r)
    ensures !IsTracking(st) ==> r == st
    ensures IsTracking(st) ==> st.activeEffect.value in Members(r, d) && AddsOnly(st, r, st.activeEffect.value, [d])
  {
    match d
    case KeyDep(t, k) => Track(st, t, k)
    case RefDep(c) => TrackRefValue(st, c)
  }

  /** The reads of one execution, in order. */
  function ApplyReads(st: ReactState, ds: seq<DepKey>): (r: ReactState)
    requires Valid(st)
    ensures Valid(r)
    ensures SameFlags(st, r) && SameAmbient(st, r)
    ensures !IsTracking(st) ==> r == st
    decreases |ds|
  {
    if |ds| == 0 then st else ApplyReads(ReadDep(st, ds[0]), ds[1..])
  }

  /** Reads never drop a membership. */
  lemma {:induction false} ApplyReadsGrows(st: ReactState, ds: seq<DepKey>)
    requires Valid(st)
    ensures Grows(st, ApplyReads(st, ds))
    decreases |ds|
  {
    if |ds| > 0 {
      ApplyReadsGrows(ReadDep(st, ds[0]), ds[1..]);
    }
  }

  /** While tracking, every set read ends up holding the active effect. */
  lemma {:induction false} ApplyReadsRegisters(st: ReactState, ds: seq<DepKey>)
    requires Valid(st) && IsTracking(st)
    ensures forall d :: d in ds ==> st.activeEffect.value in Members(ApplyReads(st, ds), d)
    decreases |ds|
  {
    if |ds| > 0 {
      var s1 := ReadDep(st, ds[0]);
      ApplyReadsRegisters(s1, ds[1..]);
      ApplyReadsGrows(s1, ds[1..]);
    }
  }

  /** Nothing but the active effect joins anything, and only the sets read. */
  lemma {:induction false} ApplyReadsAddsOnly(st: ReactState, ds: seq<DepKey>)
    requires Valid(st) && IsTracking(st)
    ensures AddsOnly(st, ApplyReads(st, ds), st.activeEffect.value, ds)
    decreases |ds|
  {
    if |ds| > 0 {
      var s1 := ReadDep(st, ds[0]);
      ApplyReadsAddsOnly(s1, ds[1..]);
    }
  }

  /** `ReactiveEffect.run()`. A stopped effect just calls its function. An
      active one switches tracking on, becomes the active effect, runs, and
      switches tracking off again; `activeEffect` is left pointing at it.
      No cleanup happens before the function runs, so memberships only grow. */
  function Run(st: ReactState, e: EffectId, body: Body): (r: (ReactState, Value))
    requires Valid(st) && e in st.effects
    ensures Valid(r.0)
    ensures SameFlags(st, r.0) && r.0.nextEffect == st.nextEffect
    ensures r.1 == body.result
    ensures r.0.calls == st.calls + [FnCall(e)]
    ensures r.0.shouldTrack == (st.shouldTrack && !st.effects[e].active)
    ensures st.effects[e].active ==> r.0.activeEffect == Some(e)
    ensures !st.effects[e].active ==> r.0.activeEffect == st.activeEffect
    ensures !st.effects[e].active && !st.shouldTrack ==> r.0.depSets == st.depSets && r.0.effects == st.effects
  {
    if !st.effects[e].active then (RunStopped(st, e, body), body.result)
    else (RunActive(st, e, body), body.result)
  }

  /** `ReactiveEffect.run()` when the function throws after making the reads
      `ds`. There is no `try`/`finally`: an active effect leaves
      `shouldTrack` on and itself as `activeEffect`, and the exception
      propagates to the caller. */
  function RunThrows(st: ReactState, e: EffectId, ds: seq<DepKey>): (r: ReactState)
    requires Valid(st) && e in st.effects
    ensures Valid(r) && SameFlags(st, r) && r.nextEffect == st.nextEffect
    ensures r.calls == st.calls + [FnCall(e)]
    ensures st.effects[e].active ==> r.shouldTrack && r.activeEffect == Some(e)
    ensures !st.effects[e].active ==> r.shouldTrack == st.shouldTrack && r.activeEffect == st.activeEffect
  {
    if !st.effects[e].active then ApplyReads(st.(calls := st.calls + [FnCall(e)]), ds)
    else
      var tracking := st.(calls := st.calls + [FnCall(e)], shouldTrack := true, activeEffect := Some(e));
      ValidFrame(st, tracking);
      var after := ApplyReads(tracking, ds);
      SameFlagsFrame(st, tracking, after);
      after
  }

  /** The state after a stopped effect's function ran with the ambient slots
      as they are. */
  function RunStopped(st: ReactState, e: EffectId, body: Body): (r: ReactState)
    requires Valid(st) && e in st.effects
    ensures Valid(r) && SameFlags(st, r)
    ensures r.calls == st.calls + [FnCall(e)] && r.nextEffect == st.nextEffect
    ensures r.shouldTrack == st.shouldTrack && r.activeEffect == st.activeEffect
    ensures !st.shouldTrack ==> r.depSets == st.depSets && r.effects == st.effects
  {
    ApplyReads(st.(calls := st.calls + [FnCall(e)]), body.depReads)
  }

  /** The state after an active effect's function ran with tracking on and
      the effect as `activeEffect`; tracking is switched off afterwards. */
  function RunActive(st: ReactState, e: EffectId, body: Body): (r: ReactState)
    requires Valid(st) && e in st.effects
    ensures Valid(r) && SameFlags(st, r)
    ensures r.calls == st.calls + [FnCall(e)] && r.nextEffect == st.nextEffect
    ensures !r.shouldTrack && r.activeEffect == Some(e)
  {
    var tracking := st.(calls := st.calls + [FnCall(e)], shouldTrack := true, activeEffect := Some(e));
    ValidFrame(st, tracking);
    var after := ApplyReads(tracking, body.depReads);
    ValidFrame(after, after.(shouldTrack := false));
    SameFlagsFrame(st, tracking, after);
    after.(shouldTrack := false)
  }

  /** Emptying one dependency set keeps the state valid. */
  lemma ValidClearSet(st: ReactState, d: DepKey)
    requires Valid(st)
    ensures Valid(st.(depSets := st.depSets[d := []]))
  {
  }

  /** `Valid` does not depend on `shouldTrack` or the call log. */
  lemma ValidFrame(a: ReactState, b: ReactState)
    requires Valid(a) && b.depSets == a.depSets && b.effects == a.effects && b.nextEffect == a.nextEffect
    requires b.activeEffect.Some? ==> b.activeEffect.value in b.effects
    ensures Valid(b)
  {
  }

  lemma SameFlagsFrame(a: ReactState, b: ReactState, c: ReactState)
    requires a.effects == b.effects && SameFlags(b, c)
    ensures SameFlags(a, c)
  {
  }

  /** A run of an active effect subscribes it to exactly the sets its body
      read, on top of what it already had. */
  lemma RunSubscribesReads(st: ReactState, e: EffectId, body: Body)
    requires Valid(st) && e in st.effects && st.effects[e].active
    ensures var r := Run(st, e, body).0;
            && Grows(st, r)
            && (forall d :: d in body.depReads ==> e in Members(r, d))
            && AddsOnly(st, r, e, body.depReads)
  {
    var tracking := st.(calls := st.calls + [FnCall(e)], shouldTrack := true, activeEffect := Some(e));
    var after := ApplyReads(tracking, body.depReads);
    var r := Run(st, e, body).0;
    assert r.depSets == after.depSets;
    assert forall d :: Members(r, d) == Members(after, d);
    assert forall d :: Members(tracking, d) == Members(st, d);
    ApplyReadsGrows(tracking, body.depReads);
    ApplyReadsRegisters(tracking, body.depReads);
    ApplyReadsAddsOnly(tracking, body.depReads);
  }

  /** The `triggerEffects` plan for a set: each member in insertion order,
      through its scheduler when it has one and through `run` otherwise. */
  function TriggerEffects(st: ReactState, dep: seq<EffectId>): (r: seq<Dispatch>)
    requires forall e :: e in dep ==> e in st.effects
    ensures |r| == |dep|
    ensures forall i :: 0 <= i < |dep| ==> r[i].Effect() == dep[i]
    ensures forall i :: 0 <= i < |dep| ==> (r[i].ViaScheduler? <==> st.effects[dep[i]].hasScheduler)
  {
    seq(|dep|, i requires 0 <= i < |dep| =>
      if st.effects[dep[i]].hasScheduler then ViaScheduler(dep[i]) else ViaRun(dep[i]))
  }

  /** `trigger(target, key)`. The bundle creates targetMap entries only while
      tracking, so a (target, key) never read by a tracked effect has no set
      and `depsMap.get(key)` / `dep.forEach` throw. */
  function Trigger(st: ReactState, target: nat, key: string): (r: Result<seq<Dispatch>>)
    requires Valid(st)
    ensures r.Err? <==> KeyDep(target, key) !in st.depSets
    ensures r.Ok? ==> r.value == TriggerEffects(st, st.depSets[KeyDep(target, key)])
  {
    var d := KeyDep(target, key);
    if d !in st.depSets then Err(TypeError)
    else Ok(TriggerEffects(st, st.depSets[d]))
  }

  /** `cleanupEffect`'s loop: removes `e` from every set listed in `ds`. */
  function CleanupDeps(m: map<DepKey, seq<EffectId>>, ds: seq<DepKey>, e: EffectId): (r: map<DepKey, seq<EffectId>>)
    ensures r.Keys == m.Keys
    ensures forall d :: d in r && d in ds ==> e !in r[d]
    ensures forall d :: d in r && d !in ds ==> r[d] == m[d]
    ensures forall d, x :: d in r && x in r[d] <==> d in m && x in m[d] && (x != e || d !in ds)
    ensures forall d :: d in m && NoDup(m[d]) ==> NoDup(r[d])
    decreases |ds|
  {
    if |ds| == 0 then m
    else
      var d := ds[0];
      var m1 := if d in m then m[d := SetDelete(m[d], e)] else m;
      CleanupDeps(m1, ds[1..], e)
  }

  /** `ReactiveEffect.stop()`: the first call deactivates and calls `onStop`;
      every call removes the effect from every set it joined and empties its
      `deps` (the bundle's `effect.deps.length = 0`). */
  function Stop(st: ReactState, e: EffectId): (r: ReactState)
    requires Valid(st) && e in st.effects
    ensures Valid(r)
    ensures e in r.effects && !r.effects[e].active && r.effects[e].deps == []
    ensures r.calls == if st.effects[e].active && st.effects[e].hasOnStop then st.calls + [OnStopCall(e)] else st.calls
    ensures forall d :: d in r.depSets ==> e !in r.depSets[d]
    ensures forall d, x :: x != e ==> (x in Members(r, d) <==> x in Members(st, d))
    ensures r.effects.Keys == st.effects.Keys
    ensures forall x :: x in st.effects && x != e ==> r.effects[x] == st.effects[x]
    ensures r.activeEffect == st.activeEffect && r.shouldTrack == st.shouldTrack && r.nextEffect == st.nextEffect
  {
    var eff := st.effects[e];
    var calls := if eff.active && eff.hasOnStop then st.calls + [OnStopCall(e)] else st.calls;
    var ds := CleanupDeps(st.depSets, eff.deps, e);
    st.(depSets := ds, effects := st.effects[e := eff.(active := false, deps := [])], calls := calls)
  }

  /** A fresh active effect with no deps, under the next id; no set names it
      yet, so the invariant still holds. */
  function AddEffect(st: ReactState, options: EffectOptions): (r: ReactState)
    requires Valid(st)
    ensures Valid(r) && st.nextEffect in r.effects && st.nextEffect !in st.effects
    ensures r.effects[st.nextEffect] == ReactiveEffect(true, options.scheduler, options.onStop, [])
    ensures forall e :: e in st.effects ==> e in r.effects && r.effects[e] == st.effects[e]
    ensures r.effects.Keys == st.effects.Keys + {st.nextEffect} && r.nextEffect == st.nextEffect + 1
    ensures r.depSets == st.depSets && r.activeEffect == st.activeEffect
    ensures r.shouldTrack == st.shouldTrack && r.calls == st.calls
  {
    st.(effects := st.effects[st.nextEffect := ReactiveEffect(true, options.scheduler, options.onStop, [])],
        nextEffect := st.nextEffect + 1)
  }

  /** `effect(fn, options)`: a fresh active effect carrying the options,
      run once immediately; the runner is the new effect's id. */
  function CreateEffect(st: ReactState, options: EffectOptions, body: Body): (r: (ReactState, EffectId))
    requires Valid(st)
    ensures Valid(r.0)
    ensures r.1 !in st.effects && r.1 in r.0.effects
    ensures r.0.effects[r.1] == ReactiveEffect(true, options.scheduler, options.onStop, r.0.effects[r.1].deps)
    ensures r.0.calls == st.calls + [FnCall(r.1)]
    ensures r.0.activeEffect == Some(r.1) && !r.0.shouldTrack
    ensures Grows(st, r.0)
    ensures forall d :: d in body.depReads ==> r.1 in Members(r.0, d)
    ensures AddsOnly(st, r.0, r.1, body.depReads)
  {
    var id := st.nextEffect;
    var created := AddEffect(st, options);
    RunSubscribesReads(created, id, body);
    (Run(created, id, body).0, id)
  }

  // ---------------------------------------------------------------------
  // Properties relating several operations
  // ---------------------------------------------------------------------

  /** Reading the same key twice in one run registers once: `track` is
      idempotent. */
  lemma TrackIdempotent(st: ReactState, target: nat, key: string)
    requires Valid(st)
    ensures Track(Track(st, target, key), target, key) == Track(st, target, key)
  {
  }

  /** A ref read by an effect already subscribed leaves the set as it is but
      still pushes the set onto the effect's `deps` again (no `dep.has` check
      on the ref path). */
  lemma RefReadRepeatsDeps(st: ReactState, cell: nat)
    requires Valid(st) && IsTracking(st) && st.activeEffect.value in Members(st, RefDep(cell))
    ensures var r := TrackRefValue(st, cell);
            && r.depSets[RefDep(cell)] == st.depSets[RefDep(cell)]
            && |r.effects[st.activeEffect.value].deps| == |st.effects[st.activeEffect.value].deps| + 1
  {
  }

  /** A throwing function differs from a returning one with the same reads
      only in that `shouldTrack` is never switched off again. */
  lemma ThrowSkipsOnlyReset(st: ReactState, e: EffectId, body: Body)
    requires Valid(st) && e in st.effects && st.effects[e].active
    ensures Run(st, e, body).0 == RunThrows(st, e, body.depReads).(shouldTrack := false)
  {
  }

  /** After an active effect's function threw, tracking is still on: a read
      made outside any effect joins the thrown effect's set. */
  lemma ReadAfterThrowTracks(st: ReactState, e: EffectId, ds: seq<DepKey>, target: nat, key: string)
    requires Valid(st) && e in st.effects && st.effects[e].active
    ensures var r := RunThrows(st, e, ds);
            && IsTracking(r)
            && e in Members(Track(r, target, key), KeyDep(target, key))
  {
  }

  /** After an effect's function has returned, tracking is off again: a
      read made after the run changes nothing. */
  lemma ReadAfterRunDoesNotTrack(st: ReactState, e: EffectId, body: Body, target: nat, key: string)
    requires Valid(st) && e in st.effects && !st.shouldTrack
    ensures var r := Run(st, e, body).0;
            Track(r, target, key) == r
  {
  }

  /** The test 'scheduler': an effect that read (target, key) is reached by the
      next trigger of that key, through its scheduler when it has one and
      through `run` otherwise; creating it called its function and no
      scheduler. */
  lemma TriggerReachesSubscriber(st: ReactState, options: EffectOptions, target: nat, key: string, result: Value)
    requires Valid(st)
    ensures var (s1, e) := CreateEffect(st, options, Body([KeyDep(target, key)], result));
            var plan := Trigger(s1, target, key);
            && s1.calls == st.calls + [FnCall(e)]
            && plan.Ok?
            && (options.scheduler ==> ViaScheduler(e) in plan.value && ViaRun(e) !in plan.value)
            && (!options.scheduler ==> ViaRun(e) in plan.value && ViaScheduler(e) !in plan.value)
  {
    var (s1, e) := CreateEffect(st, options, Body([KeyDep(target, key)], result));
    assert KeyDep(target, key) in [KeyDep(target, key)];
    var dep := Members(s1, KeyDep(target, key));
    assert e in dep;
    DispatchesMember(s1, dep, e);
  }

  /** A member of the triggered set is dispatched exactly one way: through
      its scheduler when it has one, through `run` otherwise. */
  lemma DispatchesMember(st: ReactState, dep: seq<EffectId>, e: EffectId)
    requires forall x :: x in dep ==> x in st.effects
    requires e in dep
    ensures var plan := TriggerEffects(st, dep);
            && (st.effects[e].hasScheduler ==> ViaScheduler(e) in plan && ViaRun(e) !in plan)
            && (!st.effects[e].hasScheduler ==> ViaRun(e) in plan && ViaScheduler(e) !in plan)
  {
    var i :| 0 <= i < |dep| && dep[i] == e;
    var plan := TriggerEffects(st, dep);
    assert plan[i].Effect() == e;
    forall j | 0 <= j < |plan|
      ensures plan[j].Effect() == e ==> (plan[j].ViaScheduler? <==> st.effects[e].hasScheduler)
    {
    }
  }

  /** Stopping twice is the same as stopping once. */
  lemma StopIdempotent(st: ReactState, e: EffectId)
    requires Valid(st) && e in st.effects
    ensures Stop(Stop(st, e), e) == Stop(st, e)
  {
    var s1 := Stop(st, e);
    assert CleanupDeps(s1.depSets, [], e) == s1.depSets;
  }

  /** After `stop`, no trigger dispatches the effect any more, and invoking
      the runner by hand still calls the function, returns its result, and
      subscribes it to nothing. */
  lemma StoppedEffectStaysManual(st: ReactState, e: EffectId, body: Body, target: nat, key: string)
    requires Valid(st) && e in st.effects && !st.shouldTrack
    ensures var s1 := Stop(st, e);
            var (s2, v) := Run(s1, e, body);
            && v == body.result
            && s2.calls == s1.calls + [FnCall(e)]
            && s2.depSets == s1.depSets
            && var p1 := Trigger(s1, target, key);
            && var p2 := Trigger(s2, target, key);
            && (p1.Ok? ==> forall x :: x in p1.value ==> x.Effect() != e)
            && (p2.Ok? ==> forall x :: x in p2.value ==> x.Effect() != e)
  {
  }
}

=== FILE: host.dfy ===
/** The host operations the renderer emits, the DOM adapter's `patchProp`,
    and an abstract DOM that gives the operations a meaning
    (bundle lib/guide-mini-vue.cjs.js:550-577; src/runtime-core/renderer.ts:66-75). */
module Host {
  import opened Wrappers
  import opened Shared
  import opened Vnode

  /** A host node argument: `None` is a `null` element. */
  type Target = Option<HostId>

  /** One call into the host, in the order the renderer makes them. */
  datatype HostOp =
      /** `hostCreateElement(vnode.type)`, returning node `el`. */
    | CreateElement(el: HostId, tag: VType)
      /** `document.createTextNode(text)`, returning node `el`. */
    | CreateText(el: HostId, text: string)
      /** `el.textContent = text` / `hostSetElementText(el, text)`. */
    | SetText(target: Target, text: string)
    | PatchProp(target: Target, key: string, prev: Value, next: Value)
      /** `hostInsert(el, container)` / `container.append(el)`. */
    | Insert(el: HostId, container: Target)
      /** `hostRemove(child)`: the renderer passes the child vnode itself. */
    | Remove(child: VNode)

  /** An element or text node: its text content (own text only), children,
      attributes and listeners in the order they were added. */
  datatype Node = Node(text: string, kids: seq<HostId>, attrs: map<string, Value>, listeners: seq<(string, Value)>)

  type Dom = map<HostId, Node>

  /** What the DOM adapter's `patchProp` does to an element. */
  datatype DomEffect = AddListener(event: string, handler: Value) | RemoveAttribute(key: string) | SetAttribute(key: string, value: Value)

  /** `patchProp(el, key, prevProp, nextProp)` of the DOM adapter: an `on[A-Z]`
      key adds a listener for the lower-cased event (the previous listener is
      never removed); any other key removes the attribute for a `null` or
      `undefined` value and sets it otherwise. */
  function DomPatchProp(key: string, next: Value): (r: DomEffect)
    ensures IsOnKey(key) <==> r.AddListener?
    ensures r.AddListener? ==> r.event == EventName(key) && r.handler == next
    ensures r.RemoveAttribute? <==> !IsOnKey(key) && (next.Undefined? || next.Null?)
    ensures r.RemoveAttribute? ==> r.key == key
    ensures r.SetAttribute? ==> r.key == key && r.value == next
  {
    if IsOnKey(key) then AddListener(EventName(key), next)
    else if next.Undefined? || next.Null? then RemoveAttribute(key)
    else SetAttribute(key, next)
  }

  /** The mount-only renderer of src/runtime-core/renderer.ts: listeners for
      `on[A-Z]` keys, `setAttribute` for every other key. */
  function SrcMountProp(key: string, value: Value): (r: DomEffect)
    ensures IsOnKey(key) <==> r.AddListener?
    ensures r.AddListener? ==> r.event == EventName(key) && r.handler == value
    ensures !r.AddListener? ==> r == SetAttribute(key, value)
  {
    if IsOnKey(key) then AddListener(EventName(key), value) else SetAttribute(key, value)
  }

  /** The bundle's mount (`hostPatchProp(el, key, null, val)`) agrees with the
      mount-only source renderer except on `null`/`undefined` values, which
      the bundle removes instead of setting. */
  lemma MountPropAgreesWithSource(key: string, value: Value)
    ensures !value.Undefined? && !value.Null? ==> DomPatchProp(key, value) == SrcMountProp(key, value)
    ensures !IsOnKey(key) && (value.Undefined? || value.Null?) ==>
              DomPatchProp(key, value) == RemoveAttribute(key) && SrcMountProp(key, value) == SetAttribute(key, value)
  {
  }

  function ApplyEffect(n: Node, e: DomEffect): Node {
    match e
    case AddListener(ev, h) => n.(listeners := n.listeners + [(ev, h)])
    case RemoveAttribute(k) => n.(attrs := n.attrs - {k})
    case SetAttribute(k, v) => n.(attrs := n.attrs[k := v])
  }

  /** Carries out one host operation. A `null` target throws, as does a node
      that was never created. Removing passes a vnode, which has no
      `parentNode`, so it changes nothing. */
  function Apply(dom: Dom, op: HostOp): (r: Result<Dom>)
    ensures r.Ok? ==> dom.Keys <= r.value.Keys
  {
    match op
    case CreateElement(el, _) => Ok(dom[el := Node("", [], map[], [])])
    case CreateText(el, t) => Ok(dom[el := Node(t, [], map[], [])])
    case SetText(target, t) =>
      if target.None? || target.value !in dom then Err(TypeError)
      else Ok(dom[target.value := dom[target.value].(text := t, kids := [])])
    case PatchProp(target, key, _, next) =>
      if target.None? || target.value !in dom then Err(TypeError)
      else Ok(dom[target.value := ApplyEffect(dom[target.value], DomPatchProp(key, next))])
    case Insert(el, container) =>
      if container.None? || container.value !in dom then Err(TypeError)
      else Ok(dom[container.value := dom[container.value].(kids := dom[container.value].kids + [el])])
    case Remove(_) => Ok(dom)
  }

  function ApplyAll(dom: Dom, ops: seq<HostOp>): (r: Result<Dom>)
    ensures r.Ok? ==> dom.Keys <= r.value.Keys
    decreases |ops|
  {
    if |ops| == 0 then Ok(dom)
    else
      var d1 :- Apply(dom, ops[0]);
      ApplyAll(d1, ops[1..])
  }

  lemma {:induction false} ApplyAllConcat(dom: Dom, a: seq<HostOp>, b: seq<HostOp>)
    ensures ApplyAll(dom, a + b) == (var d :- ApplyAll(dom, a); ApplyAll(d, b))
    decreases |a|
  {
    if |a| > 0 {
      assert (a + b)[0] == a[0] && (a + b)[1..] == a[1..] + b;
      var d1 := Apply(dom, a[0]);
      if d1.Ok? {
        ApplyAllConcat(d1.value, a[1..], b);
      }
    } else {
      assert a + b == b;
    }
  }

  /** The attributes a props map leaves on an element: every non-listener
      key whose value is neither `null` nor `undefined`. */
  function AttrsOf(props: map<string, Value>): (r: map<string, Value>)
    ensures forall k :: k in r <==> k in props && !IsOnKey(k) && !props[k].Undefined? && !props[k].Null?
    ensures forall k :: k in r ==> r[k] == props[k]
  {
    map k | k in props && !IsOnKey(k) && !props[k].Undefined? && !props[k].Null? :: props[k]
  }
}

=== FILE: reactive.dfy ===
/** The proxy layer: `reactive`, `readonly`, `shallowReadonly`, their get/set
    traps and the flag predicates (src/reactivity/reactive.ts,
    src/reactivity/baseHandlers.ts; bundle lib/guide-mini-vue.cjs.js:162-220).

    JavaScript's `Proxy` is replaced by a heap entry `Wrapper(kind, target)`
    and explicit trap functions over a `World`: the heap, the reactivity
    engine's state and the list of readonly warnings. */
module Reactive {
  import opened Wrappers
  import opened Shared
  import Effect

  /** The three handler sets. */
  datatype ProxyKind = Mutable | Readonly | ShallowReadonly

  predicate IsReadonlyKind(k: ProxyKind) {
    k != Mutable
  }

  /** `ReactiveFlags`. */
  const IS_REACTIVE: string := "__v_isReactive"
  const IS_READONLY: string := "__v_isReadonly"

  /** A heap object: a plain object (arrays included), a proxy, or a ref cell
      (its raw value and converted `_value`; its `dep` set lives in the
      engine under `RefDep(id)`). */
  datatype HeapObj =
    | Plain(fields: map<string, Value>)
    | Wrapper(kind: ProxyKind, target: nat)
    | RefCell(raw: Value, value: Value)

  datatype World = World(heap: map<nat, HeapObj>, next: nat, rs: Effect.ReactState, warnings: seq<string>)

  /** A value of this world: an object value names an allocated object. */
  predicate ValueIn(heap: map<nat, HeapObj>, v: Value) {
    v.Obj? ==> v.id in heap
  }

  /** Every object reference a heap object holds is allocated. */
  predicate RefsIn(heap: map<nat, HeapObj>, o: HeapObj) {
    match o
    case Plain(f) => forall k :: k in f ==> ValueIn(heap, f[k])
    case Wrapper(_, t) => t in heap
    case RefCell(raw, value) => ValueIn(heap, raw) && ValueIn(heap, value)
  }

  /** Ids below `next`, a closed heap, and a valid engine state. */
  predicate Valid(w: World) {
    && (forall id :: id in w.heap ==> id < w.next)
    && (forall id :: id in w.heap ==> RefsIn(w.heap, w.heap[id]))
    && Effect.Valid(w.rs)
  }

  /** Reading an absent own key of a plain object gives `undefined`. */
  function FieldOf(fields: map<string, Value>, key: string): Value {
    if key in fields then fields[key] else Undefined
  }

  /** A wrapper whose target is a plain object: the proxies whose traps the
      model covers. */
  predicate IsPlainWrapper(w: World, p: nat) {
    && p in w.heap && w.heap[p].Wrapper?
    && w.heap[p].target in w.heap && w.heap[w.heap[p].target].Plain?
  }

  /** Replacing an allocated object by one whose references are allocated
      keeps the world valid. */
  lemma ValidUpdate(w: World, id: nat, o: HeapObj)
    requires Valid(w) && id in w.heap && RefsIn(w.heap, o)
    ensures Valid(w.(heap := w.heap[id := o]))
  {
    var h := w.heap[id := o];
    assert h.Keys == w.heap.Keys;
    forall x | x in h ensures RefsIn(h, h[x]) {
      assert forall v :: ValueIn(h, v) == ValueIn(w.heap, v);
    }
  }

  /** Allocates a fresh heap object. */
  function Alloc(w: World, o: HeapObj): (r: (World, nat))
    requires Valid(w) && RefsIn(w.heap, o)
    ensures Valid(r.0)
    ensures r.1 !in w.heap && r.0.heap == w.heap[r.1 := o]
    ensures r.0.rs == w.rs && r.0.warnings == w.warnings && r.0.next > w.next
  {
    (w.(heap := w.heap[w.next := o], next := w.next + 1), w.next)
  }

  /** `createActiveObject(raw, handlers)`: a new proxy every time, with no
      cache; the raw object itself is not touched. */
  function Wrap(w: World, kind: ProxyKind, raw: nat): (r: (World, nat))
    requires Valid(w) && raw in w.heap
    ensures Valid(r.0)
    ensures r.1 != raw
    ensures r.1 !in w.heap
    ensures r.0.heap == w.heap[r.1 := Wrapper(kind, raw)]
    ensures r.0.rs == w.rs && r.0.warnings == w.warnings
  {
    Alloc(w, Wrapper(kind, raw))
  }

  /** The get trap of `createGetter(isReadonly, shallow)`. */
  function ProxyGet(w: World, p: nat, key: string): (r: (World, Value))
    requires Valid(w) && IsPlainWrapper(w, p)
    ensures Valid(r.0)
    ensures r.0.warnings == w.warnings
    ensures forall id :: id in w.heap ==> id in r.0.heap && r.0.heap[id] == w.heap[id]
    // the flag keys answer from the handler alone
    ensures key == IS_REACTIVE ==> r == (w, Bool(!IsReadonlyKind(w.heap[p].kind)))
    ensures key == IS_READONLY ==> r == (w, Bool(IsReadonlyKind(w.heap[p].kind)))
    ensures key != IS_REACTIVE && key != IS_READONLY ==>
              var kind := w.heap[p].kind;
              var t := w.heap[p].target;
              var stored := FieldOf(w.heap[t].fields, key);
              // shallow: the raw stored value, nothing tracked
              && (kind == ShallowReadonly ==> r == (w, stored))
              // nested object: a fresh wrapper of the same depth, nothing tracked
              && (kind != ShallowReadonly && IsObject(stored) ==>
                    && r.1.Obj? && r.1.id !in w.heap && r.1.id in r.0.heap && r.1 != stored
                    && r.0.heap[r.1.id] == Wrapper(kind, stored.id)
                    && r.0.rs == w.rs)
              // plain value: tracked on the raw target by the mutable variant only
              && (!IsObject(stored) ==> r.1 == stored && r.0.heap == w.heap)
              && (kind == Mutable && !IsObject(stored) ==> r.0.rs == Effect.Track(w.rs, t, key))
              && (kind == Readonly ==> r.0.rs == w.rs)
  {
    var kind := w.heap[p].kind;
    var t := w.heap[p].target;
    var ro := IsReadonlyKind(kind);
    if key == IS_REACTIVE then (w, Bool(!ro))
    else if key == IS_READONLY then (w, Bool(ro))
    else
      var stored := FieldOf(w.heap[t].fields, key);
      if kind == ShallowReadonly then (w, stored)
      else if IsObject(stored) then
        var (w1, q) := Wrap(w, if ro then Readonly else Mutable, stored.id);
        (w1, Obj(q))
      else if !ro then (w.(rs := Effect.Track(w.rs, t, key)), stored)
      else (w, stored)
  }

  /** The outcome of a set trap: the new world (the write happens before
      `trigger` can throw) and either the trigger plan or the exception. */
  datatype SetResult = SetResult(world: World, plan: Result<seq<Effect.Dispatch>>)

  /** The set traps: the mutable one writes and then triggers the raw target's
      key, whether or not the value changed; the readonly ones leave the target
      alone, warn once and report success. */
  function ProxySet(w: World, p: nat, key: string, v: Value): (r: SetResult)
    requires Valid(w) && IsPlainWrapper(w, p) && ValueIn(w.heap, v)
    ensures Valid(r.world)
    ensures r.world.rs == w.rs && r.world.next == w.next
    ensures var t := w.heap[p].target;
            if w.heap[p].kind == Mutable then
              && r.world.heap == w.heap[t := Plain(w.heap[t].fields[key := v])]
              && r.world.warnings == w.warnings
              && r.plan == Effect.Trigger(w.rs, t, key)
            else
              && r.world.heap == w.heap
              && r.world.warnings == w.warnings + [key]
              && r.plan == Ok([])
  {
    var t := w.heap[p].target;
    if w.heap[p].kind == Mutable then
      var w1 := w.(heap := w.heap[t := Plain(w.heap[t].fields[key := v])]);
      SetResult(w1, Effect.Trigger(w1.rs, t, key))
    else
      SetResult(w.(warnings := w.warnings + [key]), Ok([]))
  }

  /** `isReactive(v)`: `!!v.__v_isReactive`. A wrapper answers from its
      handler; a plain object from an own key of that name; a property read on
      `null`/`undefined` throws. */
  function IsReactive(w: World, v: Value): (r: Result<bool>)
    requires v.Obj? ==> v.id in w.heap
    ensures r.Err? <==> v.Undefined? || v.Null?
    ensures v.Obj? && w.heap[v.id].Wrapper? ==> r == Ok(w.heap[v.id].kind == Mutable)
    ensures r.Ok? && r.value ==> v.Obj?
  {
    match v
    case Undefined => Err(TypeError)
    case Null => Err(TypeError)
    case Obj(id) =>
      (match w.heap[id]
       case Plain(f) => Ok(Truthy(FieldOf(f, IS_REACTIVE)))
       case Wrapper(kind, _) => Ok(kind == Mutable)
       case RefCell(_, _) => Ok(false))
    case _ => Ok(false)
  }

  /** `isReadonly(v)`: `!!v.__v_isReadonly`. */
  function IsReadonly(w: World, v: Value): (r: Result<bool>)
    requires v.Obj? ==> v.id in w.heap
    ensures r.Err? <==> v.Undefined? || v.Null?
    ensures v.Obj? && w.heap[v.id].Wrapper? ==> r == Ok(IsReadonlyKind(w.heap[v.id].kind))
    ensures r.Ok? && r.value ==> v.Obj?
  {
    match v
    case Undefined => Err(TypeError)
    case Null => Err(TypeError)
    case Obj(id) =>
      (match w.heap[id]
       case Plain(f) => Ok(Truthy(FieldOf(f, IS_READONLY)))
       case Wrapper(kind, _) => Ok(IsReadonlyKind(kind))
       case RefCell(_, _) => Ok(false))
    case _ => Ok(false)
  }

  /** `isProxy(v)`: `isReactive(v) || isReadonly(v)`. */
  function IsProxy(w: World, v: Value): (r: Result<bool>)
    requires v.Obj? ==> v.id in w.heap
    ensures r.Err? <==> IsReactive(w, v).Err?
    ensures r.Ok? ==> (r.value <==> IsReactive(w, v).value || IsReadonly(w, v).value)
  {
    var reactive :- IsReactive(w, v);
    if reactive then Ok(true) else IsReadonly(w, v)
  }

  // ---------------------------------------------------------------------
  // Properties
  // ---------------------------------------------------------------------

  /** A plain object that does not carry the flag keys itself. */
  predicate IsUnflaggedPlain(w: World, id: nat) {
    id in w.heap && w.heap[id].Plain? && IS_REACTIVE !in w.heap[id].fields && IS_READONLY !in w.heap[id].fields
  }

  /** The tests 'test reactive' and 'should make nested values readonly':
      each wrap is a new value distinct from its raw object; the flags tell
      the variant; the raw object answers false to all three predicates. */
  lemma WrapFlags(w: World, kind: ProxyKind, raw: nat)
    requires Valid(w) && IsUnflaggedPlain(w, raw)
    ensures var (w1, q) := Wrap(w, kind, raw);
            && Obj(q) != Obj(raw)
            && IsReactive(w1, Obj(q)) == Ok(kind == Mutable)
            && IsReadonly(w1, Obj(q)) == Ok(kind != Mutable)
            && IsProxy(w1, Obj(q)) == Ok(true)
            && IsReactive(w1, Obj(raw)) == Ok(false)
            && IsReadonly(w1, Obj(raw)) == Ok(false)
            && IsProxy(w1, Obj(raw)) == Ok(false)
  {
  }

  /** Wrapping the same object twice gives two different wrappers. */
  lemma WrapNotCached(w: World, kind: ProxyKind, raw: nat)
    requires Valid(w) && raw in w.heap
    ensures var (w1, p1) := Wrap(w, kind, raw);
            var (w2, p2) := Wrap(w1, kind, raw);
            p1 != p2 && w2.heap[p1] == w2.heap[p2]
  {
  }

  /** Two mutable wrappers of one raw object share its dependency sets: a
      read through either tracks the same (target, key). */
  lemma WrappersShareDependencies(w: World, p1: nat, p2: nat, key: string)
    requires Valid(w) && IsPlainWrapper(w, p1) && IsPlainWrapper(w, p2)
    requires w.heap[p1] == Wrapper(Mutable, w.heap[p1].target) && w.heap[p2] == Wrapper(Mutable, w.heap[p1].target)
    requires key != IS_REACTIVE && key != IS_READONLY
    requires !IsObject(FieldOf(w.heap[w.heap[p1].target].fields, key))
    ensures ProxyGet(w, p1, key) == ProxyGet(w, p2, key)
  {
  }

  /** The test 'nested reactive': an object read through a wrapper comes back
      wrapped in the same variant, so the predicates hold of it too. */
  lemma NestedGetKeepsVariant(w: World, p: nat, key: string)
    requires Valid(w) && IsPlainWrapper(w, p) && w.heap[p].kind != ShallowReadonly
    requires key != IS_REACTIVE && key != IS_READONLY
    requires IsObject(FieldOf(w.heap[w.heap[p].target].fields, key))
    ensures var (w1, v) := ProxyGet(w, p, key);
            && IsReactive(w1, v) == IsReactive(w, Obj(p))
            && IsReadonly(w1, v) == IsReadonly(w, Obj(p))
  {
  }

  /** A mutable write is seen by the next read through any wrapper of the
      same object. */
  lemma SetThenGet(w: World, p: nat, q: nat, key: string, v: Value)
    requires Valid(w) && IsPlainWrapper(w, p) && IsPlainWrapper(w, q)
    requires w.heap[p].kind == Mutable && w.heap[q].target == w.heap[p].target
    requires key != IS_REACTIVE && key != IS_READONLY && !IsObject(v)
    ensures var w1 := ProxySet(w, p, key, v).world;
            IsPlainWrapper(w1, q) && ProxyGet(w1, q, key).1 == v
  {
  }

  /** A mutable write triggers even when it stores the value already there. */
  lemma UnchangedWriteStillTriggers(w: World, p: nat, key: string)
    requires Valid(w) && IsPlainWrapper(w, p) && w.heap[p].kind == Mutable
    requires key in w.heap[w.heap[p].target].fields
    ensures var r := ProxySet(w, p, key, w.heap[w.heap[p].target].fields[key]);
            r.world.heap == w.heap && r.plan == Effect.Trigger(w.rs, w.heap[p].target, key)
  {
    var t := w.heap[p].target;
    var f := w.heap[t].fields;
    assert f[key := f[key]] == f;
    assert w.heap[t := Plain(f)] == w.heap;
  }

  /** Readonly immutability: after a rejected write every read through the
      wrapper answers exactly as before, and one warning was recorded. */
  lemma ReadonlyWriteInvisible(w: World, p: nat, key: string, v: Value, probe: string)
    requires Valid(w) && IsPlainWrapper(w, p) && IsReadonlyKind(w.heap[p].kind) && ValueIn(w.heap, v)
    ensures var r := ProxySet(w, p, key, v);
            && IsPlainWrapper(r.world, p)
            && ProxyGet(r.world, p, probe).1 == ProxyGet(w, p, probe).1
            && |r.world.warnings| == |w.warnings| + 1
  {
  }
}

=== FILE: refs.dfy ===
/** Ref cells, `isRef`, `unRef` and the `proxyRefs` view
    (src/reactivity/ref.ts; bundle lib/guide-mini-vue.cjs.js:346-398). */
module Refs {
  import opened Wrappers
  import opened Shared
  import Effect
  import opened Reactive

  /** The own key every ref carries. */
  const IS_REF: string := "__v_isRef"

  /** A value whose property reads the model covers: not a proxy of a proxy
      or of a ref cell. */
  predicate Readable(w: World, v: Value) {
    v.Obj? ==> v.id in w.heap && (w.heap[v.id].Wrapper? ==> IsPlainWrapper(w, v.id))
  }

  /** The heap only grows: allocated objects may change, never disappear. */
  predicate Extends(w: World, r: World) {
    forall id :: id in w.heap ==> id in r.heap
  }

  /** The heap grows and every old object keeps its kind (and a wrapper its
      target): what keeps a readable value readable. */
  predicate Keeps(w: World, r: World) {
    && Extends(w, r)
    && forall id :: id in w.heap ==>
         && (w.heap[id].Plain? <==> r.heap[id].Plain?)
         && (w.heap[id].RefCell? <==> r.heap[id].RefCell?)
         && (w.heap[id].Wrapper? ==> r.heap[id] == w.heap[id])
  }

  /** A ref cell whose `_value` is its raw value whenever that is not an
      object: what `ref` and the `value` setter establish. */
  predicate ConsistentCell(w: World, id: nat) {
    && id in w.heap && w.heap[id].RefCell?
    && (!IsObject(w.heap[id].raw) ==> w.heap[id].value == w.heap[id].raw)
  }

  /** `convert`: an object becomes a fresh reactive wrapper of it; anything
      else is kept. */
  function Convert(w: World, raw: Value): (r: (World, Value))
    requires Valid(w) && ValueIn(w.heap, raw)
    ensures Valid(r.0) && ValueIn(r.0.heap, r.1) && Keeps(w, r.0)
    ensures r.0.rs == w.rs && r.0.warnings == w.warnings
    ensures !IsObject(raw) ==> r == (w, raw)
    ensures IsObject(raw) ==>
              && r.1.Obj? && r.1.id !in w.heap && r.1 != raw
              && r.0.heap == w.heap[r.1.id := Wrapper(Mutable, raw.id)]
  {
    if IsObject(raw) then
      var (w1, p) := Wrap(w, Mutable, raw.id);
      (w1, Obj(p))
    else (w, raw)
  }

  /** `ref(raw)`: a new cell holding `raw` and `convert(raw)`, with its own
      empty dependency set. */
  function NewRef(w: World, raw: Value): (r: (World, Value))
    requires Valid(w) && ValueIn(w.heap, raw)
    ensures Valid(r.0) && Keeps(w, r.0)
    ensures r.1.Obj? && r.1.id !in w.heap && r.1.id in r.0.heap
    ensures r.0.heap[r.1.id].RefCell? && r.0.heap[r.1.id].raw == raw
    ensures !IsObject(raw) ==> r.0.heap[r.1.id].value == raw
    ensures IsObject(raw) ==>
              var conv := r.0.heap[r.1.id].value;
              conv.Obj? && conv.id in r.0.heap && r.0.heap[conv.id] == Wrapper(Mutable, raw.id)
    ensures Effect.Members(r.0.rs, Effect.RefDep(r.1.id)) == []
    ensures ConsistentCell(r.0, r.1.id)
    ensures r.0.warnings == w.warnings
  {
    var (w1, cell) := Alloc(w, RefCell(raw, Undefined));
    var (w2, conv) := Convert(w1, raw);
    var rs := w2.rs.(depSets := w2.rs.depSets[Effect.RefDep(cell) := []]);
    Effect.ValidClearSet(w2.rs, Effect.RefDep(cell));
    ValidUpdate(w2, cell, RefCell(raw, conv));
    (w2.(heap := w2.heap[cell := RefCell(raw, conv)], rs := rs), Obj(cell))
  }

  /** The `value` getter: subscribes the active effect while tracking. */
  function RefGet(w: World, cell: nat): (r: (World, Value))
    requires Valid(w) && cell in w.heap && w.heap[cell].RefCell?
    ensures Valid(r.0)
    ensures r.1 == w.heap[cell].value
    ensures r.0.heap == w.heap && r.0.next == w.next && r.0.warnings == w.warnings
    ensures r.0.rs == Effect.TrackRefValue(w.rs, cell)
  {
    (w.(rs := Effect.TrackRefValue(w.rs, cell)), w.heap[cell].value)
  }

  /** The `value` setter: a value `Object.is`-equal to the stored raw value
      changes nothing; any other is stored raw and converted, and every
      subscriber of the cell is dispatched in order. */
  function RefSet(w: World, cell: nat, v: Value): (r: (World, seq<Effect.Dispatch>))
    requires Valid(w) && cell in w.heap && w.heap[cell].RefCell? && ValueIn(w.heap, v)
    ensures Valid(r.0) && Keeps(w, r.0)
    ensures !HasChanged(w.heap[cell].raw, v) ==> r == (w, [])
    ensures HasChanged(w.heap[cell].raw, v) ==>
              && r.0.heap[cell].RefCell?
              && r.0.heap[cell].raw == v
              && (!IsObject(v) ==> r.0.heap[cell].value == v)
              && r.0.rs == w.rs
              && r.1 == Effect.TriggerEffects(w.rs, Effect.Members(w.rs, Effect.RefDep(cell)))
    ensures ConsistentCell(w, cell) ==> ConsistentCell(r.0, cell)
    ensures r.0.warnings == w.warnings
  {
    if !HasChanged(w.heap[cell].raw, v) then (w, [])
    else
      var (w1, conv) := Convert(w, v);
      (w1.(heap := w1.heap[cell := RefCell(v, conv)]),
       Effect.TriggerEffects(w.rs, Effect.Members(w.rs, Effect.RefDep(cell))))
  }

  /** A JavaScript property read `v[key]` on the values the model covers. */
  function GetProperty(w: World, v: Value, key: string): (r: Result<(World, Value)>)
    requires Valid(w) && Readable(w, v)
    ensures r.Err? <==> v.Undefined? || v.Null?
    ensures r.Ok? ==> Valid(r.value.0) && Keeps(w, r.value.0)
    ensures r.Ok? ==> r.value.0.warnings == w.warnings
  {
    match v
    case Undefined => Err(TypeError)
    case Null => Err(TypeError)
    case Obj(id) =>
      (match w.heap[id]
       case Plain(f) =>
         Ok((w, FieldOf(f, key)))
       case Wrapper(_, _) => Ok(ProxyGet(w, id, key))
       case RefCell(raw, value) =>
         if key == IS_REF then Ok((w, Bool(true)))
         else if key == "value" then Ok(RefGet(w, id))
         else if key == "_value" then Ok((w, value))
         else if key == "_rawValue" then Ok((w, raw))
         else Ok((w, Undefined)))
    case _ => Ok((w, Undefined))
  }

  /** `isRef(v)`: `!!v.__v_isRef`; throws on `null` and `undefined`. */
  function IsRef(w: World, v: Value): (r: Result<(World, bool)>)
    requires Valid(w) && Readable(w, v)
    ensures r.Err? <==> v.Undefined? || v.Null?
    ensures r.Ok? ==> Valid(r.value.0) && Keeps(w, r.value.0) && r.value.0.warnings == w.warnings
    ensures v.Obj? && w.heap[v.id].RefCell? ==> r == Ok((w, true))
    ensures v.Obj? && w.heap[v.id].Plain? ==> r == Ok((w, Truthy(FieldOf(w.heap[v.id].fields, IS_REF))))
    ensures !v.Obj? && !v.Undefined? && !v.Null? ==> r == Ok((w, false))
    ensures r.Ok? ==> forall id :: id in w.heap ==> r.value.0.heap[id] == w.heap[id]
  {
    var (w1, x) :- GetProperty(w, v, IS_REF);
    Ok((w1, Truthy(x)))
  }

  /** `unRef(v)`: `v.value` for a ref, `v` itself otherwise. */
  function UnRef(w: World, v: Value): (r: Result<(World, Value)>)
    requires Valid(w) && Readable(w, v)
    ensures r.Err? <==> v.Undefined? || v.Null?
    ensures r.Ok? ==> Valid(r.value.0) && Keeps(w, r.value.0)
    ensures v.Obj? && w.heap[v.id].RefCell? ==> r == Ok(RefGet(w, v.id))
    ensures !v.Obj? && !v.Undefined? && !v.Null? ==> r == Ok((w, v))
  {
    var (w1, isRef) :- IsRef(w, v);
    if isRef then
      assert Readable(w1, v);
      GetProperty(w1, v, "value")
    else Ok((w1, v))
  }

  /** The `proxyRefs` get trap on a plain target: the stored value,
      unwrapped. */
  function ProxyRefsGet(w: World, target: nat, key: string): (r: Result<(World, Value)>)
    requires Valid(w) && target in w.heap && w.heap[target].Plain?
    requires Readable(w, FieldOf(w.heap[target].fields, key))
    ensures var stored := FieldOf(w.heap[target].fields, key);
            && (r.Err? <==> stored.Undefined? || stored.Null?)
            && (stored.Obj? && w.heap[stored.id].RefCell? ==>
                  r.Ok? && r.value.1 == w.heap[stored.id].value && r.value.0.heap == w.heap)
            && (!stored.Obj? && !stored.Undefined? && !stored.Null? ==> r == Ok((w, stored)))
  {
    UnRef(w, FieldOf(w.heap[target].fields, key))
  }

  /** The `proxyRefs` set trap on a plain target. When the slot holds a ref
      and the new value is not one, the value is forwarded into the ref's
      `value` (the slot keeps the ref); any other write replaces the slot.
      `isRef` on the new value is only evaluated when the old one is a ref,
      and `isRef` of an absent (undefined) slot throws. */
  function ProxyRefsSet(w: World, target: nat, key: string, v: Value): (r: Result<SetResult>)
    requires Valid(w) && target in w.heap && w.heap[target].Plain?
    requires Readable(w, FieldOf(w.heap[target].fields, key)) && Readable(w, v)
    ensures r.Ok? ==> Valid(r.value.world)
    ensures var prev := FieldOf(w.heap[target].fields, key);
            && ((prev.Undefined? || prev.Null?) ==> r.Err?)
            && (prev.Obj? && w.heap[prev.id].RefCell? && (v.Undefined? || v.Null?) ==> r.Err?)
            && (!prev.Obj? && !prev.Undefined? && !prev.Null? ==>
                  r == Ok(SetResult(WriteField(w, target, key, v), Ok([]))))
  {
    var prev := FieldOf(w.heap[target].fields, key);
    var (w1, oldIsRef) :- IsRef(w, prev);
    if oldIsRef then
      assert Readable(w1, v);
      var (w2, newIsRef) :- IsRef(w1, v);
      if !newIsRef then
        assert Readable(w2, prev) && Readable(w2, v);
        Ok(SetValue(w2, prev.id, v))
      else Ok(SetResult(WriteField(w2, target, key, v), Ok([])))
    else Ok(SetResult(WriteField(w1, target, key, v), Ok([])))
  }

  /** `Reflect.set` on a plain object. */
  function WriteField(w: World, target: nat, key: string, v: Value): (r: World)
    requires Valid(w) && target in w.heap && w.heap[target].Plain? && ValueIn(w.heap, v)
    ensures Valid(r) && Keeps(w, r)
    ensures r.heap == w.heap[target := Plain(w.heap[target].fields[key := v])]
    ensures r.rs == w.rs && r.warnings == w.warnings
  {
    w.(heap := w.heap[target := Plain(w.heap[target].fields[key := v])])
  }

  /** `obj.value = v` on an object `isRef` accepted: the ref setter for a
      cell, the set trap for a proxy, a plain write otherwise. */
  function SetValue(w: World, id: nat, v: Value): (r: SetResult)
    requires Valid(w) && Readable(w, Obj(id)) && ValueIn(w.heap, v)
    ensures Valid(r.world)
  {
    match w.heap[id]
    case RefCell(_, _) =>
      var (w1, plan) := RefSet(w, id, v);
      SetResult(w1, Ok(plan))
    case Wrapper(_, _) => ProxySet(w, id, "value", v)
    case Plain(_) => SetResult(WriteField(w, id, "value", v), Ok([]))
  }

  // ---------------------------------------------------------------------
  // Properties
  // ---------------------------------------------------------------------

  /** A ref's `value` reads back what it was created with (for non-objects)
      or a reactive wrapper of it (for objects). */
  lemma NewRefUnwraps(w: World, raw: Value)
    requires Valid(w) && ValueIn(w.heap, raw) && !IsObject(raw)
    ensures var (w1, r) := NewRef(w, raw);
            Readable(w1, r) && UnRef(w1, r).Ok? && UnRef(w1, r).value.1 == raw
  {
  }

  /** Writing a ref and reading it back gives the written value; writing the
      stored raw value again dispatches nothing. */
  lemma RefSetThenGet(w: World, cell: nat, v: Value)
    requires Valid(w) && ConsistentCell(w, cell) && ValueIn(w.heap, v) && !IsObject(v)
    ensures var (w1, _) := RefSet(w, cell, v);
            && cell in w1.heap && w1.heap[cell].RefCell?
            && RefGet(w1, cell).1 == v
            && RefSet(w1, cell, v).1 == []
  {
  }

  /** End to end: an effect that read a ref is dispatched by the next write
      of a different value, and not by a write of the same value. */
  lemma RefWriteReachesReader(w: World, cell: nat, v: Value, result: Value)
    requires Valid(w) && cell in w.heap && w.heap[cell].RefCell? && ValueIn(w.heap, v)
    ensures var (rs1, e) := Effect.CreateEffect(w.rs, Effect.EffectOptions(false, false), Effect.Body([Effect.RefDep(cell)], result));
            var w1 := w.(rs := rs1);
            && Valid(w1)
            && (HasChanged(w.heap[cell].raw, v) ==> Effect.ViaRun(e) in RefSet(w1, cell, v).1)
            && (!HasChanged(w.heap[cell].raw, v) ==> RefSet(w1, cell, v).1 == [])
  {
    var (rs1, e) := Effect.CreateEffect(w.rs, Effect.EffectOptions(false, false), Effect.Body([Effect.RefDep(cell)], result));
    assert Effect.RefDep(cell) in [Effect.RefDep(cell)];
    var dep := Effect.Members(rs1, Effect.RefDep(cell));
    assert e in dep;
    var i :| 0 <= i < |dep| && dep[i] == e;
    assert Effect.TriggerEffects(rs1, dep)[i] == Effect.ViaRun(e);
  }

  /** Forwarding: writing a value that is not a ref through `proxyRefs` onto
      a slot that holds a ref keeps the ref in the slot and stores the value
      into the ref. For a primitive value the next read through the view
      returns the written value; an object comes back reactive-wrapped. */
  lemma ProxyRefsSetForwards(w: World, target: nat, key: string, v: Value)
    requires Valid(w) && target in w.heap && w.heap[target].Plain?
    requires var prev := FieldOf(w.heap[target].fields, key);
             prev.Obj? && ConsistentCell(w, prev.id)
    requires Readable(w, v) && !v.Undefined? && !v.Null? && !IsRef(w, v).value.1
    ensures var r := ProxyRefsSet(w, target, key, v);
            var cell := FieldOf(w.heap[target].fields, key).id;
            && r.Ok?
            && r.value.world.heap[target] == w.heap[target]
            && r.value.world.heap[cell].RefCell? && r.value.world.heap[cell].raw == v
    ensures !v.Obj? ==>
              var r := ProxyRefsSet(w, target, key, v);
              && Readable(r.value.world, FieldOf(r.value.world.heap[target].fields, key))
              && ProxyRefsGet(r.value.world, target, key).Ok?
              && ProxyRefsGet(r.value.world, target, key).value.1 == v
  {
    var cell := FieldOf(w.heap[target].fields, key).id;
    var w2 := ProxyRefsSetForwardsTo(w, target, key, v);
    RefSetFrame(w2, cell, v, target);
    var w3 := RefSet(w2, cell, v).0;
    assert SetValue(w2, cell, v).world == w3;
    assert ConsistentCell(w3, cell) && w3.heap[cell].raw == v;
  }

  /** The forwarding branch of the `proxyRefs` set trap, as a `SetValue` on
      the world the `isRef(v)` read left, which differs from `w` only in
      objects `w` does not hold. */
  lemma ProxyRefsSetForwardsTo(w: World, target: nat, key: string, v: Value) returns (w2: World)
    requires Valid(w) && target in w.heap && w.heap[target].Plain?
    requires var prev := FieldOf(w.heap[target].fields, key);
             prev.Obj? && ConsistentCell(w, prev.id)
    requires Readable(w, v) && !v.Undefined? && !v.Null? && !IsRef(w, v).value.1
    ensures var cell := FieldOf(w.heap[target].fields, key).id;
            && Valid(w2) && target in w2.heap && cell in w2.heap
            && w2.heap[target] == w.heap[target] && w2.heap[cell] == w.heap[cell]
            && ValueIn(w2.heap, v)
            && ProxyRefsSet(w, target, key, v) == Ok(SetValue(w2, cell, v))
  {
    w2 := IsRef(w, v).value.0;
  }

  /** `RefSet` writes only its own cell among the objects already allocated. */
  lemma RefSetFrame(w: World, cell: nat, v: Value, id: nat)
    requires Valid(w) && cell in w.heap && w.heap[cell].RefCell? && ValueIn(w.heap, v)
    requires id in w.heap && id != cell
    ensures RefSet(w, cell, v).0.heap[id] == w.heap[id]
  {
    if HasChanged(w.heap[cell].raw, v) {
      var (w1, conv) := Convert(w, v);
      assert w1.heap[id] == w.heap[id];
    }
  }

  /** A write through `proxyRefs` replaces the slot whenever it does not
      forward: the slot does not hold a ref, or the written value is a ref
      itself. Nothing is triggered. */
  lemma ProxyRefsSetReplaces(w: World, target: nat, key: string, v: Value)
    requires Valid(w) && target in w.heap && w.heap[target].Plain?
    requires var prev := FieldOf(w.heap[target].fields, key);
             && Readable(w, prev) && Readable(w, v) && !prev.Undefined? && !prev.Null?
             && var (w1, oldIsRef) := IsRef(w, prev).value;
                oldIsRef ==> !v.Undefined? && !v.Null? && IsRef(w1, v).value.1
    ensures var r := ProxyRefsSet(w, target, key, v);
            && r.Ok? && r.value.plan == Ok([])
            && r.value.world.heap[target] == Plain(w.heap[target].fields[key := v])
  {
  }

  /** A write through `proxyRefs` onto an absent key throws: `isRef` reads a
      property of `undefined`. */
  lemma ProxyRefsSetAbsentKeyThrows(w: World, target: nat, key: string, v: Value)
    requires Valid(w) && target in w.heap && w.heap[target].Plain? && key !in w.heap[target].fields
    requires Readable(w, v)
    ensures ProxyRefsSet(w, target, key, v).Err?
  {
  }
}

=== FILE: renderer.dfy ===
/** The renderer of the bundle (lib/guide-mini-vue.cjs.js:411-548): `patch`
    dispatch, mounting, the element update path (`patchElement`,
    `patchChildren`, `unmountChildren`, `pathProps`) and the render effect.
    Host calls are recorded as a trace of operations. The mount-only
    renderer of src/runtime-core/renderer.ts is the `n1 == None` case. */
module Renderer {
  import opened Wrappers
  import opened Shared
  import opened Vnode
  import Component
  import opened Host

  /** How a render ends: with a value, with a JavaScript exception, or by
      running out of the recursion bound that stands in for the depth of
      the component tree. */
  datatype Outcome<+T> = Done(value: T) | Threw | OutOfFuel {
    predicate IsFailure() {
      !Done?
    }

    function PropagateFailure<U>(): Outcome<U>
      requires !Done?
    {
      if Threw? then Threw else OutOfFuel
    }

    function Extract(): T
      requires Done?
    {
      value
    }
  }

  function FromResult<T>(r: Result<T>): (o: Outcome<T>)
    ensures r.Ok? <==> o.Done?
    ensures r.Ok? ==> o.value == r.value
    ensures r.Err? ==> o.Threw?
  {
    if r.Ok? then Done(r.value) else Threw
  }

  /** The subtree `instance.render` returns on its n-th call. */
  type RenderView = (Component.InstId, nat) -> VNode

  /** The instances and provides, the next host node id, the host calls so
      far, and how often each instance has rendered. */
  datatype RState = RState(rt: Component.Runtime, nextHost: HostId, trace: seq<HostOp>, renders: map<Component.InstId, nat>)

  predicate Valid(s: RState) {
    Component.Valid(s.rt)
  }

  /** What rendering does to the state: instances and host nodes are only
      added, and host calls only appended. */
  predicate Grows(s: RState, r: RState) {
    && Valid(r)
    && s.rt.instances <= r.rt.instances
    && s.nextHost <= r.nextHost
    && s.trace <= r.trace
  }

  /** What a run of the render effect of `c` does to the state: as `Grows`,
      except that instance `c` itself gets a new subtree and `el` and is
      marked mounted, and nothing else about it changes. */
  predicate GrowsAt(s: RState, r: RState, c: Component.InstId)
    requires c < |s.rt.instances|
  {
    && Valid(r)
    && |s.rt.instances| <= |r.rt.instances|
    && (forall i :: 0 <= i < |s.rt.instances| && i != c ==> r.rt.instances[i] == s.rt.instances[i])
    && r.rt.instances[c] == s.rt.instances[c].(subTree := r.rt.instances[c].subTree, el := r.rt.instances[c].el, isMounted := true)
    && s.nextHost <= r.nextHost
    && s.trace <= r.trace
  }

  /** Instances kept index by index form a prefix. */
  lemma KeptIsPrefix(a: seq<Component.Instance>, b: seq<Component.Instance>)
    requires |a| <= |b| && forall i :: 0 <= i < |a| ==> b[i] == a[i]
    ensures a <= b
  {
    assert a == b[..|a|];
  }

  /** The host calls made between two states. */
  function Delta(s: RState, r: RState): seq<HostOp>
    requires s.trace <= r.trace
  {
    r.trace[|s.trace|..]
  }

  lemma DeltaAppend(s: RState, m: RState, r: RState)
    requires s.trace <= m.trace <= r.trace
    ensures Delta(s, r) == Delta(s, m) + Delta(m, r)
  {
  }

  /** `String(children)` for the values children can take. */
  function TextOf(c: Children): string {
    match c
    case NoChildren => "undefined"
    case TextChildren(t) => t
    case ArrayChildren(cs) => Join(|cs|)
    case SlotObject(_) => "[object Object]"
  }

  /** `String` of an array of `n` objects. */
  function Join(n: nat): string {
    if n == 0 then ""
    else if n == 1 then "[object Object]"
    else Join(n - 1) + ",[object Object]"
  }

  /** `props[key]` (undefined when absent). */
  function PropGet(p: Props, key: string): Value {
    if key in PropMap(p) then PropMap(p)[key] else Undefined
  }

  /** `oldProps !== newProps`: props objects are compared by identity. */
  predicate SameObject(a: Props, b: Props) {
    if a.PropsObj? && b.PropsObj? then a.id == b.id else a == b
  }

  /** Mounting props: `hostPatchProp(el, key, null, val)` per key, in order. */
  function MountPropOps(el: Target, keys: seq<string>, p: Props): (r: seq<HostOp>)
    ensures |r| == |keys|
    ensures forall i :: 0 <= i < |keys| ==> r[i] == PatchProp(el, keys[i], Null, PropGet(p, keys[i]))
    decreases |keys|
  {
    if |keys| == 0 then []
    else [PatchProp(el, keys[0], Null, PropGet(p, keys[0]))] + MountPropOps(el, keys[1..], p)
  }

  /** A `patchProp` call on `el` for a key of `keys` whose value differs
      between the old and the new props, carrying both values. */
  predicate IsChangeCall(op: HostOp, el: Target, oldP: Props, newP: Props, keys: seq<string>) {
    && op.PatchProp? && op.target == el && op.key in keys
    && op.prev == PropGet(oldP, op.key) && op.next == PropGet(newP, op.key)
    && op.prev != op.next
  }

  /** The first loop of `pathProps`: a call per key whose value changed. */
  function ChangedOps(el: Target, oldP: Props, newP: Props, keys: seq<string>): (r: seq<HostOp>)
    ensures forall i :: 0 <= i < |r| ==> IsChangeCall(r[i], el, oldP, newP, keys)
    decreases |keys|
  {
    if |keys| == 0 then []
    else
      var k := keys[0];
      var rest := ChangedOps(el, oldP, newP, keys[1..]);
      ChangeCallsWiden(rest, el, oldP, newP, keys);
      if PropGet(oldP, k) != PropGet(newP, k) then
        var op := PatchProp(el, k, PropGet(oldP, k), PropGet(newP, k));
        ChangeCallsCons(op, rest, el, oldP, newP, keys);
        [op] + rest
      else rest
  }

  lemma ChangeCallsCons(op: HostOp, rest: seq<HostOp>, el: Target, oldP: Props, newP: Props, keys: seq<string>)
    requires IsChangeCall(op, el, oldP, newP, keys)
    requires forall i :: 0 <= i < |rest| ==> IsChangeCall(rest[i], el, oldP, newP, keys)
    ensures forall i :: 0 <= i < |[op] + rest| ==> IsChangeCall(([op] + rest)[i], el, oldP, newP, keys)
  {
    forall i | 0 <= i < |[op] + rest| ensures IsChangeCall(([op] + rest)[i], el, oldP, newP, keys) {
      if i > 0 {
        assert ([op] + rest)[i] == rest[i - 1];
      }
    }
  }

  /** Change calls for the keys after the first are change calls for all. */
  lemma ChangeCallsWiden(ops: seq<HostOp>, el: Target, oldP: Props, newP: Props, keys: seq<string>)
    requires |keys| > 0 && forall i :: 0 <= i < |ops| ==> IsChangeCall(ops[i], el, oldP, newP, keys[1..])
    ensures forall i :: 0 <= i < |ops| ==> IsChangeCall(ops[i], el, oldP, newP, keys)
  {
    assert forall x :: x in keys[1..] ==> x in keys;
  }

  /** Every changed key gets its call. */
  lemma {:induction false} ChangedOpsComplete(el: Target, oldP: Props, newP: Props, keys: seq<string>)
    ensures forall k :: k in keys && PropGet(oldP, k) != PropGet(newP, k) ==>
              PatchProp(el, k, PropGet(oldP, k), PropGet(newP, k)) in ChangedOps(el, oldP, newP, keys)
    decreases |keys|
  {
    if |keys| > 0 {
      var k := keys[0];
      var tail := keys[1..];
      ChangedOpsComplete(el, oldP, newP, tail);
      assert keys == [k] + tail;
    }
  }

  /** The key a host call is about, if any. */
  function KeyOf(op: HostOp): Option<string> {
    if op.PatchProp? then Some(op.key) else None
  }

  /** No two calls in `ops` are about the same key. */
  predicate DistinctKeys(ops: seq<HostOp>) {
    forall i, j :: 0 <= i < j < |ops| ==> KeyOf(ops[i]) != KeyOf(ops[j])
  }

  /** With distinct keys, no key gets two calls. */
  lemma {:induction false} ChangedOpsDistinct(el: Target, oldP: Props, newP: Props, keys: seq<string>)
    requires NoDup(keys)
    ensures DistinctKeys(ChangedOps(el, oldP, newP, keys))
    decreases |keys|
  {
    if |keys| > 0 {
      var k := keys[0];
      var tail := keys[1..];
      assert k !in tail && NoDup(tail) by {
        assert forall j :: 0 <= j < |tail| ==> tail[j] == keys[j + 1];
      }
      ChangedOpsDistinct(el, oldP, newP, tail);
      ChangedOpsUnfold(el, oldP, newP, keys);
      var rest := ChangedOps(el, oldP, newP, tail);
      if PropGet(oldP, k) != PropGet(newP, k) {
        forall m | 0 <= m < |rest| ensures KeyOf(rest[m]) != Some(k) {
          assert IsChangeCall(rest[m], el, oldP, newP, tail);
        }
        DistinctCons(PatchProp(el, k, PropGet(oldP, k), PropGet(newP, k)), rest);
      }
    }
  }

  lemma DistinctCons(op: HostOp, rest: seq<HostOp>)
    requires DistinctKeys(rest)
    requires forall m :: 0 <= m < |rest| ==> KeyOf(rest[m]) != KeyOf(op)
    ensures DistinctKeys([op] + rest)
  {
    var r := [op] + rest;
    forall i, j | 0 <= i < j < |r| ensures KeyOf(r[i]) != KeyOf(r[j]) {
      assert r[j] == rest[j - 1];
      if i > 0 {
        assert r[i] == rest[i - 1];
      }
    }
  }

  /** The second loop of `pathProps`: a removal call per old key that the
      new props lack. */
  function RemovedOps(el: Target, keys: seq<string>, newP: Props): (r: seq<HostOp>)
    ensures forall i :: 0 <= i < |r| ==> IsRemoveCall(r[i], el, keys, newP)
    ensures forall k :: k in keys && k !in PropMap(newP) ==> PatchProp(el, k, Undefined, Undefined) in r
    decreases |keys|
  {
    if |keys| == 0 then []
    else
      var k := keys[0];
      var rest := RemovedOps(el, keys[1..], newP);
      assert forall x :: x in keys[1..] ==> x in keys;
      assert forall x :: x in keys ==> x == k || x in keys[1..];
      if k !in PropMap(newP) then
        var op := PatchProp(el, k, Undefined, Undefined);
        RemoveCallsCons(op, rest, el, keys, newP);
        [op] + rest
      else rest
  }

  /** A removal call: `patchProp(el, key, undefined, undefined)` for a key of
      `keys` that the new props lack. */
  predicate IsRemoveCall(op: HostOp, el: Target, keys: seq<string>, newP: Props) {
    && op.PatchProp? && op.target == el && op.key in keys && op.key !in PropMap(newP)
    && op.prev == Undefined && op.next == Undefined
  }

  lemma RemoveCallsCons(op: HostOp, rest: seq<HostOp>, el: Target, keys: seq<string>, newP: Props)
    requires IsRemoveCall(op, el, keys, newP)
    requires forall i :: 0 <= i < |rest| ==> IsRemoveCall(rest[i], el, keys, newP)
    ensures forall i :: 0 <= i < |[op] + rest| ==> IsRemoveCall(([op] + rest)[i], el, keys, newP)
    ensures forall x :: x in rest ==> x in [op] + rest
    ensures op in [op] + rest
  {
    forall i | 0 <= i < |[op] + rest| ensures IsRemoveCall(([op] + rest)[i], el, keys, newP) {
      if i > 0 {
        assert ([op] + rest)[i] == rest[i - 1];
      }
    }
  }

  /** With distinct old keys, no key gets two removal calls: together with
      the contract of `RemovedOps`, exactly one call per old key that the
      new props lack. */
  lemma {:induction false} RemovedOpsDistinct(el: Target, keys: seq<string>, newP: Props)
    requires NoDup(keys)
    ensures DistinctKeys(RemovedOps(el, keys, newP))
    decreases |keys|
  {
    if |keys| > 0 {
      var k := keys[0];
      var tail := keys[1..];
      assert k !in tail && NoDup(tail) by {
        assert forall j :: 0 <= j < |tail| ==> tail[j] == keys[j + 1];
      }
      RemovedOpsDistinct(el, tail, newP);
      RemovedOpsUnfold(el, keys, newP);
      var rest := RemovedOps(el, tail, newP);
      if k !in PropMap(newP) {
        forall m | 0 <= m < |rest| ensures KeyOf(rest[m]) != Some(k) {
          assert IsRemoveCall(rest[m], el, tail, newP);
        }
        DistinctCons(PatchProp(el, k, Undefined, Undefined), rest);
      }
    }
  }

  /** `pathProps(el, oldProps, newProps)`: the change loop is skipped for the
      very same object, the removal loop for `EMPTY_OBJ`. */
  function PathProps(el: Target, oldP: Props, newP: Props): (r: seq<HostOp>)
    ensures SameObject(oldP, newP) && oldP.EmptyObj? ==> r == []
    ensures !SameObject(oldP, newP) && oldP.EmptyObj? ==> r == ChangedOps(el, oldP, newP, PropKeys(newP))
  {
    (if !SameObject(oldP, newP) then ChangedOps(el, oldP, newP, PropKeys(newP)) else [])
    + (if !oldP.EmptyObj? then RemovedOps(el, PropKeys(oldP), newP) else [])
  }

  /** `unmountChildren(c1)`: `hostRemove` with each old child vnode. */
  function UnmountOps(c: Children): (r: seq<HostOp>)
    ensures c.ArrayChildren? ==> |r| == |c.nodes| && forall i :: 0 <= i < |r| ==> r[i] == Remove(c.nodes[i])
    ensures !c.ArrayChildren? ==> r == []
  {
    if c.ArrayChildren? then seq(|c.nodes|, i requires 0 <= i < |c.nodes| => Remove(c.nodes[i])) else []
  }

  // ---------------------------------------------------------------------
  // patch and its helpers
  // ---------------------------------------------------------------------

  /** `patch(n1, n2, container, parentComponent)`: Fragment and Text by type,
      then ELEMENT, then STATEFUL_COMPONENT by shape flag; anything else is
      ignored. Returns `n2` with `el` (and its children's) filled in. */
  function Patch(fuel: nat, s: RState, n1: Option<VNode>, n2: VNode, container: Target,
                 parent: Option<Component.InstId>, view: RenderView): (r: Outcome<(RState, VNode)>)
    requires Valid(s) && (parent.Some? ==> parent.value < |s.rt.instances|)
    ensures r.Done? ==> Grows(s, r.value.0)
    ensures r.Done? ==> r.value.1.type_ == n2.type_ && r.value.1.props == n2.props && r.value.1.shapeFlag == n2.shapeFlag
    ensures r.Done? && n2.type_.TextType? ==>
              && r.value.0.nextHost == s.nextHost + 1 && r.value.1.el == Some(s.nextHost)
              && Delta(s, r.value.0) == [CreateText(s.nextHost, TextOf(n2.children)), Insert(s.nextHost, container)]
    ensures n2.type_.FragmentType? && !n2.children.ArrayChildren? && fuel > 0 ==> r.Threw?
    ensures r.Done? && n2.type_.FragmentType? ==> r.value.1.el == n2.el
    ensures (&& fuel > 0 && !n2.type_.FragmentType? && !n2.type_.TextType?
             && !Has(n2.shapeFlag, ELEMENT) && !Has(n2.shapeFlag, STATEFUL_COMPONENT)) ==> r == Done((s, n2))
    decreases fuel, 0, 0
  {
    if fuel == 0 then OutOfFuel
    else match n2.type_
      case FragmentType =>
        if !n2.children.ArrayChildren? then Threw
        else
          var (s1, cs) :- MountChildren(fuel - 1, s, n2.children.nodes, container, parent, view);
          Done((s1, n2.(children := ArrayChildren(cs))))
      case TextType =>
        var el := s.nextHost;
        Done((s.(nextHost := el + 1, trace := s.trace + [CreateText(el, TextOf(n2.children)), Insert(el, container)]),
              n2.(el := Some(el))))
      case _ =>
        if Has(n2.shapeFlag, ELEMENT) then
          if n1.None? then MountElement(fuel - 1, s, n2, container, parent, view)
          else PatchElement(fuel - 1, s, n1.value, n2, parent, view)
        else if Has(n2.shapeFlag, STATEFUL_COMPONENT) then MountComponent(fuel - 1, s, n2, container, parent, view)
        else Done((s, n2))
  }

  /** `mountChildren`: each child is patched from nothing, in order. */
  function MountChildren(fuel: nat, s: RState, cs: seq<VNode>, container: Target,
                         parent: Option<Component.InstId>, view: RenderView): (r: Outcome<(RState, seq<VNode>)>)
    requires Valid(s) && (parent.Some? ==> parent.value < |s.rt.instances|)
    ensures r.Done? ==> Grows(s, r.value.0) && |r.value.1| == |cs|
    ensures |cs| == 0 ==> r == Done((s, []))
    decreases fuel, 1, |cs|
  {
    if |cs| == 0 then Done((s, []))
    else
      var (s1, c0) :- Patch(fuel, s, None, cs[0], container, parent, view);
      var (s2, rest) :- MountChildren(fuel, s1, cs[1..], container, parent, view);
      Done((s2, [c0] + rest))
  }

  /** `mountChildren` on a children value: only an array has `forEach`. */
  function MountArray(fuel: nat, s: RState, c: Children, container: Target,
                      parent: Option<Component.InstId>, view: RenderView): (r: Outcome<(RState, Children)>)
    requires Valid(s) && (parent.Some? ==> parent.value < |s.rt.instances|)
    ensures r.Done? ==> Grows(s, r.value.0) && r.value.1.ArrayChildren?
    ensures !c.ArrayChildren? ==> r.Threw?
    decreases fuel, 2, 0
  {
    if !c.ArrayChildren? then Threw
    else
      var (s1, cs) :- MountChildren(fuel, s, c.nodes, container, parent, view);
      Done((s1, ArrayChildren(cs)))
  }

  /** The host calls of mounting an element `el` for `n2`: created first,
      inserted last, and its props set in key order just before the insert. */
  predicate MountShape(d: seq<HostOp>, el: HostId, n2: VNode, container: Target) {
    && |d| >= 2 + |PropKeys(n2.props)|
    && d[0] == CreateElement(el, n2.type_)
    && d[|d| - 1] == Insert(el, container)
    && d[|d| - 1 - |PropKeys(n2.props)|..|d| - 1] == MountPropOps(Some(el), PropKeys(n2.props), n2.props)
  }

  /** The last element of `h + p + [x]`, and the slice holding `p`. */
  lemma SplitLast(h: seq<HostOp>, p: seq<HostOp>, x: HostOp)
    ensures var d := h + p + [x];
            && |d| == |h| + |p| + 1 && d[|d| - 1] == x && d[|h|..|d| - 1] == p
            && (|h| > 0 ==> d[0] == h[0])
  {
    var d := h + p + [x];
    assert d[|h|..|d| - 1] == p by {
      assert forall i :: 0 <= i < |p| ==> d[|h| + i] == p[i];
    }
  }

  /** A trace that starts with the creation call and ends with the props and
      the insert has the mount shape. */
  lemma MountShapeOf(head: seq<HostOp>, el: HostId, n2: VNode, container: Target)
    requires |head| > 0 && head[0] == CreateElement(el, n2.type_)
    ensures MountShape(head + MountPropOps(Some(el), PropKeys(n2.props), n2.props) + [Insert(el, container)], el, n2, container)
  {
    SplitLast(head, MountPropOps(Some(el), PropKeys(n2.props), n2.props), Insert(el, container));
  }

  /** Whatever the children step appended after the creation call, the
      finished trace of `mountElement` has the mount shape. */
  lemma MountTraceOf(t: seq<HostOp>, t2: seq<HostOp>, el: HostId, n2: VNode, container: Target)
    requires t + [CreateElement(el, n2.type_)] <= t2
    ensures var t3 := t2 + MountPropOps(Some(el), PropKeys(n2.props), n2.props) + [Insert(el, container)];
            t <= t3 && MountShape(t3[|t|..], el, n2, container)
  {
    var props := MountPropOps(Some(el), PropKeys(n2.props), n2.props);
    var head := t2[|t|..];
    assert head[0] == t2[|t|] == CreateElement(el, n2.type_);
    var t3 := t2 + props + [Insert(el, container)];
    assert t2 == t + head;
    assert t3 == t + (head + props + [Insert(el, container)]);
    MountShapeOf(head, el, n2, container);
  }

  /** The children step of `mountElement`: text children become the text of
      `el`, array children are mounted into it, anything else is skipped. */
  function ElementChildren(fuel: nat, s: RState, n2: VNode, el: HostId,
                           parent: Option<Component.InstId>, view: RenderView): (r: Outcome<(RState, Children)>)
    requires Valid(s) && (parent.Some? ==> parent.value < |s.rt.instances|)
    ensures r.Done? ==> Grows(s, r.value.0)
    ensures Has(n2.shapeFlag, TEXT_CHILDREN) ==>
              r == Done((s.(trace := s.trace + [SetText(Some(el), TextOf(n2.children))]), n2.children))
    ensures !Has(n2.shapeFlag, TEXT_CHILDREN) && Has(n2.shapeFlag, ARRAY_CHILDREN) && !n2.children.ArrayChildren? ==>
              r.Threw?
    decreases fuel, 3, 0
  {
    if Has(n2.shapeFlag, TEXT_CHILDREN) then
      Done((s.(trace := s.trace + [SetText(Some(el), TextOf(n2.children))]), n2.children))
    else if Has(n2.shapeFlag, ARRAY_CHILDREN) then MountArray(fuel, s, n2.children, Some(el), parent, view)
    else Done((s, n2.children))
  }

  /** `mountElement`: create the element, fill in its text or mount its
      children into it, set its props in key order, and only then insert it
      into the container. */
  function MountElement(fuel: nat, s: RState, n2: VNode, container: Target,
                        parent: Option<Component.InstId>, view: RenderView): (r: Outcome<(RState, VNode)>)
    requires Valid(s) && (parent.Some? ==> parent.value < |s.rt.instances|)
    ensures r.Done? ==>
              && Grows(s, r.value.0) && r.value.1.el == Some(s.nextHost)
              && r.value.1.type_ == n2.type_ && r.value.1.props == n2.props && r.value.1.shapeFlag == n2.shapeFlag
              && MountShape(Delta(s, r.value.0), s.nextHost, n2, container)
    decreases fuel, 4, 0
  {
    var el := s.nextHost;
    var s1 := s.(nextHost := el + 1, trace := s.trace + [CreateElement(el, n2.type_)]);
    var ch := ElementChildren(fuel, s1, n2, el, parent, view);
    if !ch.Done? then ch.PropagateFailure()
    else
      var s2 := ch.value.0;
      var s3 := s2.(trace := s2.trace + MountPropOps(Some(el), PropKeys(n2.props), n2.props) + [Insert(el, container)]);
      MountTraceOf(s.trace, s2.trace, el, n2, container);
      Done((s3, n2.(el := Some(el), children := ch.value.1)))
  }

  /** An element with text children is mounted by exactly: create, set its
      text, set each prop in key order, insert. */
  lemma MountTextElement(fuel: nat, s: RState, n2: VNode, container: Target,
                         parent: Option<Component.InstId>, view: RenderView)
    requires Valid(s) && (parent.Some? ==> parent.value < |s.rt.instances|)
    requires Has(n2.shapeFlag, TEXT_CHILDREN)
    ensures var r := MountElement(fuel, s, n2, container, parent, view);
            && r.Done?
            && r.value.0.rt == s.rt && r.value.0.renders == s.renders && r.value.0.nextHost == s.nextHost + 1
            && r.value.1 == n2.(el := Some(s.nextHost))
            && Delta(s, r.value.0) ==
                 [CreateElement(s.nextHost, n2.type_), SetText(Some(s.nextHost), TextOf(n2.children))]
                 + MountPropOps(Some(s.nextHost), PropKeys(n2.props), n2.props)
                 + [Insert(s.nextHost, container)]
  {
    MountTextElementResult(fuel, s, n2, container, parent, view);
    TextMountTrace(s, n2, container);
  }

  lemma TextMountTrace(s: RState, n2: VNode, container: Target)
    ensures s.trace <= TextMount(s, n2, container).trace
    ensures Delta(s, TextMount(s, n2, container)) ==
              [CreateElement(s.nextHost, n2.type_), SetText(Some(s.nextHost), TextOf(n2.children))]
              + MountPropOps(Some(s.nextHost), PropKeys(n2.props), n2.props)
              + [Insert(s.nextHost, container)]
  {
    var el := s.nextHost;
    var props := MountPropOps(Some(el), PropKeys(n2.props), n2.props);
    var d := [CreateElement(el, n2.type_), SetText(Some(el), TextOf(n2.children))] + props + [Insert(el, container)];
    assert TextMount(s, n2, container).trace == s.trace + d;
  }

  /** The state after mounting an element with text children. */
  function TextMount(s: RState, n2: VNode, container: Target): RState {
    var el := s.nextHost;
    s.(nextHost := el + 1,
       trace := s.trace + [CreateElement(el, n2.type_)] + [SetText(Some(el), TextOf(n2.children))]
                + MountPropOps(Some(el), PropKeys(n2.props), n2.props) + [Insert(el, container)])
  }

  lemma MountTextElementResult(fuel: nat, s: RState, n2: VNode, container: Target,
                               parent: Option<Component.InstId>, view: RenderView)
    requires Valid(s) && (parent.Some? ==> parent.value < |s.rt.instances|)
    requires Has(n2.shapeFlag, TEXT_CHILDREN)
    ensures MountElement(fuel, s, n2, container, parent, view) == Done((TextMount(s, n2, container), n2.(el := Some(s.nextHost))))
  {
    var el := s.nextHost;
    var s1 := s.(nextHost := el + 1, trace := s.trace + [CreateElement(el, n2.type_)]);
    var s2 := s1.(trace := s1.trace + [SetText(Some(el), TextOf(n2.children))]);
    assert ElementChildren(fuel, s1, n2, el, parent, view) == Done((s2, n2.children));
  }

  /** `patchElement`: reuse the old element, patch children, then props
      (absent props count as `EMPTY_OBJ`). */
  function PatchElement(fuel: nat, s: RState, n1: VNode, n2: VNode,
                        parent: Option<Component.InstId>, view: RenderView): (r: Outcome<(RState, VNode)>)
    requires Valid(s) && (parent.Some? ==> parent.value < |s.rt.instances|)
    ensures r.Done? ==>
              && Grows(s, r.value.0) && r.value.1.el == n1.el
              && r.value.1.type_ == n2.type_ && r.value.1.props == n2.props && r.value.1.shapeFlag == n2.shapeFlag
    ensures Has(n2.shapeFlag, TEXT_CHILDREN) ==>
              && r.Done?
              && Delta(s, r.value.0) ==
                   (if Has(n1.shapeFlag, ARRAY_CHILDREN) then UnmountOps(n1.children) else [])
                   + (if n1.children != n2.children then [SetText(n1.el, TextOf(n2.children))] else [])
                   + PathProps(n1.el, OrEmpty(n1.props), OrEmpty(n2.props))
    decreases fuel, 4, 0
  {
    var el := n1.el;
    var pc := PatchChildren(fuel, s, n1, n2, el, parent, view);
    if !pc.Done? then pc.PropagateFailure()
    else
      var s1 := pc.value.0;
      var pp := PathProps(el, OrEmpty(n1.props), OrEmpty(n2.props));
      var s2 := s1.(trace := s1.trace + pp);
      assert Delta(s, s2) == Delta(s, s1) + pp by {
        DeltaAppend(s, s1, s2);
      }
      Done((s2, n2.(el := el, children := pc.value.1)))
  }

  /** `props ?? EMPTY_OBJ`. */
  function OrEmpty(p: Props): (r: Props)
    ensures r.NoProps? == false
    ensures p.PropsObj? ==> r == p
  {
    if p.NoProps? then EmptyObj else p
  }

  /** `patchChildren`: to text, remove old array children and set the text
      when it differs; from text to anything else, clear the text and mount
      the new children; array to array does nothing. */
  function PatchChildren(fuel: nat, s: RState, n1: VNode, n2: VNode, container: Target,
                         parent: Option<Component.InstId>, view: RenderView): (r: Outcome<(RState, Children)>)
    requires Valid(s) && (parent.Some? ==> parent.value < |s.rt.instances|)
    ensures r.Done? ==> Grows(s, r.value.0)
    ensures Has(n2.shapeFlag, TEXT_CHILDREN) ==>
              && r.Done? && r.value.1 == n2.children && r.value.0.nextHost == s.nextHost
              && Delta(s, r.value.0) ==
                   (if Has(n1.shapeFlag, ARRAY_CHILDREN) then UnmountOps(n1.children) else [])
                   + (if n1.children != n2.children then [SetText(container, TextOf(n2.children))] else [])
    ensures !Has(n2.shapeFlag, TEXT_CHILDREN) && Has(n1.shapeFlag, TEXT_CHILDREN) && r.Done? ==>
              && |Delta(s, r.value.0)| > 0 && Delta(s, r.value.0)[0] == SetText(container, "")
              && r.value.1.ArrayChildren?
    ensures !Has(n2.shapeFlag, TEXT_CHILDREN) && Has(n1.shapeFlag, TEXT_CHILDREN) && !n2.children.ArrayChildren? ==>
              r.Threw?
    ensures !Has(n2.shapeFlag, TEXT_CHILDREN) && !Has(n1.shapeFlag, TEXT_CHILDREN) ==>
              r == Done((s, n2.children))
    decreases fuel, 3, 0
  {
    if Has(n2.shapeFlag, TEXT_CHILDREN) then
      var removes := if Has(n1.shapeFlag, ARRAY_CHILDREN) then UnmountOps(n1.children) else [];
      var setText := if n1.children != n2.children then [SetText(container, TextOf(n2.children))] else [];
      var s1 := s.(trace := s.trace + removes + setText);
      assert Delta(s, s1) == removes + setText;
      Done((s1, n2.children))
    else if Has(n1.shapeFlag, TEXT_CHILDREN) then
      var s1 := s.(trace := s.trace + [SetText(container, "")]);
      var r := MountArray(fuel, s1, n2.children, container, parent, view);
      if r.Done? then
        assert Delta(s, r.value.0) == [SetText(container, "")] + Delta(s1, r.value.0);
        r
      else r
    else Done((s, n2.children))
  }

  /** `mountComponent`: create the instance under its parent, set it up, and
      run its render effect once. The component vnode's `el` is the root
      `el` of the rendered subtree. */
  function MountComponent(fuel: nat, s: RState, n2: VNode, container: Target,
                          parent: Option<Component.InstId>, view: RenderView): (r: Outcome<(RState, VNode)>)
    requires Valid(s) && (parent.Some? ==> parent.value < |s.rt.instances|)
    ensures r.Done? ==>
              var (s1, n) := r.value;
              && Grows(s, s1) && |s1.rt.instances| > |s.rt.instances|
              && var inst := s1.rt.instances[|s.rt.instances|];
              && inst.isMounted && inst.subTree.Some?
              && n == n2.(el := inst.subTree.value.el)
    ensures !n2.type_.Comp? ==> r.Threw?
    decreases fuel, 3, 0
  {
    if !n2.type_.Comp? then Threw
    else
      var (rt1, c) := Component.CreateComponentInstance(s.rt, n2, parent);
      var (rt2, _) :- FromResult(Component.SetupComponent(rt1, c));
      var s3 :- RenderEffectRun(fuel, s.(rt := rt2), c, container, view);
      MountKeepsInstances(s.rt.instances, rt1.instances, rt2.instances, s3.rt.instances, c);
      Done((s3, n2.(el := s3.rt.instances[c].el)))
  }

  /** Creating, setting up and rendering instance `c` leaves the instances
      before it as they were. */
  lemma MountKeepsInstances(s0: seq<Component.Instance>, s1: seq<Component.Instance>, s2: seq<Component.Instance>,
                            s3: seq<Component.Instance>, c: nat)
    requires c == |s0| && |s1| == c + 1 && s1[..c] == s0
    requires |s2| == |s1| && forall i :: 0 <= i < |s1| && i != c ==> s2[i] == s1[i]
    requires |s2| <= |s3| && forall i :: 0 <= i < |s2| && i != c ==> s3[i] == s2[i]
    ensures s0 <= s3
  {
    forall i | 0 <= i < |s0| ensures s3[i] == s0[i] {
      assert s1[i] == s1[..c][i];
    }
    KeptIsPrefix(s0, s3);
  }

  /** One run of the render effect of instance `c`: render, then patch the
      previous subtree (none on the first run) against the new one, store
      the new subtree, make the vnode's `el` follow it, and mark the
      instance mounted. Without `instance.render` the call throws. */
  function RenderEffectRun(fuel: nat, s: RState, c: Component.InstId, container: Target, view: RenderView): (r: Outcome<RState>)
    requires Valid(s) && c < |s.rt.instances|
    ensures r.Done? ==>
              && GrowsAt(s, r.value, c)
              && var inst := r.value.rt.instances[c];
              && inst.isMounted && inst.subTree.Some? && inst.el == inst.subTree.value.el
              && c in r.value.renders && r.value.renders[c] == RenderCount(s, c) + 1
    ensures r.Done? ==>
              var tree := r.value.rt.instances[c].subTree.value;
              var v := view(c, RenderCount(s, c));
              tree.type_ == v.type_ && tree.props == v.props && tree.shapeFlag == v.shapeFlag
    ensures !s.rt.instances[c].hasRender ==> r.Threw?
    decreases fuel, 2, 0
  {
    var inst := s.rt.instances[c];
    if !inst.hasRender then Threw
    else
      var k := RenderCount(s, c);
      var s1 := s.(renders := s.renders[c := k + 1]);
      var prev := if inst.isMounted then inst.subTree else None;
      var (s2, tree) :- Patch(fuel, s1, prev, view(c, k), container, Some(c), view);
      var i2 := s2.rt.instances[c];
      var i3 := i2.(subTree := Some(tree), el := tree.el, isMounted := true);
      Done(s2.(rt := s2.rt.(instances := s2.rt.instances[c := i3]), renders := s2.renders[c := k + 1]))
  }

  /** How many times instance `c` has rendered. */
  function RenderCount(s: RState, c: Component.InstId): nat {
    if c in s.renders then s.renders[c] else 0
  }

  /** `render(vnode, container)`: always a mount, `patch(null, vnode)`. */
  function Render(fuel: nat, s: RState, vnode: VNode, container: Target, view: RenderView): (r: Outcome<(RState, VNode)>)
    requires Valid(s)
    ensures r.Done? ==> Grows(s, r.value.0)
  {
    Patch(fuel, s, None, vnode, container, None, view)
  }

  // ---------------------------------------------------------------------
  // What the host calls do to the DOM
  // ---------------------------------------------------------------------

  /** An attribute lookup: its value, or absent. */
  function At(a: map<string, Value>, k: string): Option<Value> {
    if k in a then Some(a[k]) else None
  }

  lemma AtExtensional(a: map<string, Value>, b: map<string, Value>)
    requires forall k :: At(a, k) == At(b, k)
    ensures a == b
  {
    assert forall k :: k in a <==> k in b by {
      forall k ensures k in a <==> k in b {
        assert At(a, k).Some? <==> At(b, k).Some?;
      }
    }
    forall k | k in a ensures a[k] == b[k] {
      assert At(a, k) == At(b, k);
    }
  }

  /** The attribute a prop value leaves: none for `null` or `undefined`. */
  function Want(v: Value): Option<Value> {
    if v.Undefined? || v.Null? then None else Some(v)
  }

  /** The attributes a props argument leaves, key by key. */
  lemma AttrsOfAt(p: Props, k: string)
    ensures At(AttrsOf(PropMap(p)), k) == if IsOnKey(k) then None else Want(PropGet(p, k))
  {
  }

  /** The attributes after the DOM adapter handles one host call. */
  function AttrStep(a: map<string, Value>, op: HostOp): (r: map<string, Value>)
    ensures forall k :: At(r, k) ==
              if op.PatchProp? && op.key == k && !IsOnKey(k) then Want(op.next) else At(a, k)
  {
    if op.PatchProp? then ApplyEffect(Node("", [], a, []), DomPatchProp(op.key, op.next)).attrs else a
  }

  function FoldAttrs(a: map<string, Value>, ops: seq<HostOp>): map<string, Value>
    decreases |ops|
  {
    if |ops| == 0 then a else FoldAttrs(AttrStep(a, ops[0]), ops[1..])
  }

  lemma {:induction false} FoldAttrsConcat(a: map<string, Value>, x: seq<HostOp>, y: seq<HostOp>)
    ensures FoldAttrs(a, x + y) == FoldAttrs(FoldAttrs(a, x), y)
    decreases |x|
  {
    if |x| == 0 {
      assert x + y == y;
    } else {
      assert (x + y)[0] == x[0] && (x + y)[1..] == x[1..] + y;
      FoldAttrsConcat(AttrStep(a, x[0]), x[1..], y);
    }
  }

  /** Host calls that only patch props of `el`. */
  predicate PropCallsOn(ops: seq<HostOp>, el: HostId) {
    forall i :: 0 <= i < |ops| ==> ops[i].PatchProp? && ops[i].target == Some(el)
  }

  /** Prop calls on an existing element succeed, change only that element's
      attributes (and listeners), and leave its text and children alone. */
  lemma {:induction false} ApplyPropCalls(dom: Dom, el: HostId, ops: seq<HostOp>)
    requires el in dom && PropCallsOn(ops, el)
    ensures ApplyAll(dom, ops).Ok?
    ensures var d := ApplyAll(dom, ops).value;
            && el in d && d[el].attrs == FoldAttrs(dom[el].attrs, ops)
            && d[el].text == dom[el].text && d[el].kids == dom[el].kids
            && forall id :: id in dom && id != el ==> id in d && d[id] == dom[id]
    decreases |ops|
  {
    if |ops| > 0 {
      var n := dom[el];
      var n1 := ApplyEffect(n, DomPatchProp(ops[0].key, ops[0].next));
      var d1 := dom[el := n1];
      assert Apply(dom, ops[0]) == Ok(d1);
      assert n1.attrs == AttrStep(n.attrs, ops[0]);
      assert PropCallsOn(ops[1..], el) by {
        assert forall i :: 0 <= i < |ops[1..]| ==> ops[1..][i] == ops[i + 1];
      }
      ApplyPropCalls(d1, el, ops[1..]);
    }
  }

  /** The first loop of `pathProps`, key by key: a changed non-listener key
      ends with the attribute its new value leaves; other keys keep theirs. */
  lemma {:induction false} ChangedOpsAttrs(a: map<string, Value>, el: Target, oldP: Props, newP: Props, keys: seq<string>)
    requires NoDup(keys)
    ensures forall k :: At(FoldAttrs(a, ChangedOps(el, oldP, newP, keys)), k) ==
              if k in keys && !IsOnKey(k) && PropGet(oldP, k) != PropGet(newP, k) then Want(PropGet(newP, k)) else At(a, k)
    decreases |keys|
  {
    if |keys| > 0 {
      assert keys[0] !in keys[1..] && NoDup(keys[1..]) by {
        assert forall j :: 0 <= j < |keys[1..]| ==> keys[1..][j] == keys[j + 1];
      }
      var a0 := ChangedOpsStep(a, el, oldP, newP, keys);
      ChangedOpsAttrs(a0, el, oldP, newP, keys[1..]);
      ChangedKeysCombine(a, a0, FoldAttrs(a0, ChangedOps(el, oldP, newP, keys[1..])), oldP, newP, keys);
    }
  }

  /** The first key of the first loop: at most one call, for that key. */
  lemma ChangedOpsStep(a: map<string, Value>, el: Target, oldP: Props, newP: Props, keys: seq<string>) returns (a0: map<string, Value>)
    requires |keys| > 0
    ensures FoldAttrs(a, ChangedOps(el, oldP, newP, keys)) == FoldAttrs(a0, ChangedOps(el, oldP, newP, keys[1..]))
    ensures forall k :: At(a0, k) ==
              if k == keys[0] && !IsOnKey(k) && PropGet(oldP, k) != PropGet(newP, k) then Want(PropGet(newP, k)) else At(a, k)
  {
    var k0 := keys[0];
    var rest := ChangedOps(el, oldP, newP, keys[1..]);
    ChangedOpsUnfold(el, oldP, newP, keys);
    a0 := a;
    if PropGet(oldP, k0) != PropGet(newP, k0) {
      var op := PatchProp(el, k0, PropGet(oldP, k0), PropGet(newP, k0));
      FoldAttrsCons(a, op, rest);
      a0 := AttrStep(a, op);
    }
  }

  lemma ChangedOpsUnfold(el: Target, oldP: Props, newP: Props, keys: seq<string>)
    requires |keys| > 0
    ensures var k := keys[0];
            PropGet(oldP, k) != PropGet(newP, k) ==>
              ChangedOps(el, oldP, newP, keys) == [PatchProp(el, k, PropGet(oldP, k), PropGet(newP, k))] + ChangedOps(el, oldP, newP, keys[1..])
    ensures PropGet(oldP, keys[0]) == PropGet(newP, keys[0]) ==> ChangedOps(el, oldP, newP, keys) == ChangedOps(el, oldP, newP, keys[1..])
  {
  }

  lemma ChangedKeysCombine(a: map<string, Value>, a0: map<string, Value>, fin: map<string, Value>, oldP: Props, newP: Props, keys: seq<string>)
    requires |keys| > 0 && keys[0] !in keys[1..]
    requires forall k :: At(a0, k) ==
               if k == keys[0] && !IsOnKey(k) && PropGet(oldP, k) != PropGet(newP, k) then Want(PropGet(newP, k)) else At(a, k)
    requires forall k :: At(fin, k) ==
               if k in keys[1..] && !IsOnKey(k) && PropGet(oldP, k) != PropGet(newP, k) then Want(PropGet(newP, k)) else At(a0, k)
    ensures forall k :: At(fin, k) ==
              if k in keys && !IsOnKey(k) && PropGet(oldP, k) != PropGet(newP, k) then Want(PropGet(newP, k)) else At(a, k)
  {
    assert keys == [keys[0]] + keys[1..];
    forall k
      ensures At(fin, k) ==
                if k in keys && !IsOnKey(k) && PropGet(oldP, k) != PropGet(newP, k) then Want(PropGet(newP, k)) else At(a, k)
    {
      assert k in keys <==> k == keys[0] || k in keys[1..];
    }
  }

  /** The second loop of `pathProps`, key by key: an old non-listener key the
      new props lack loses its attribute; other keys keep theirs. */
  lemma {:induction false} RemovedOpsAttrs(a: map<string, Value>, el: Target, keys: seq<string>, newP: Props)
    ensures forall k :: At(FoldAttrs(a, RemovedOps(el, keys, newP)), k) ==
              if k in keys && k !in PropMap(newP) && !IsOnKey(k) then None else At(a, k)
    decreases |keys|
  {
    if |keys| > 0 {
      var a0 := RemovedOpsStep(a, el, keys, newP);
      RemovedOpsAttrs(a0, el, keys[1..], newP);
      RemovedKeysCombine(a, a0, FoldAttrs(a0, RemovedOps(el, keys[1..], newP)), keys, newP);
    }
  }

  /** The first key of the second loop: at most one call, for that key. */
  lemma RemovedOpsStep(a: map<string, Value>, el: Target, keys: seq<string>, newP: Props) returns (a0: map<string, Value>)
    requires |keys| > 0
    ensures FoldAttrs(a, RemovedOps(el, keys, newP)) == FoldAttrs(a0, RemovedOps(el, keys[1..], newP))
    ensures forall k :: At(a0, k) == if k == keys[0] && k !in PropMap(newP) && !IsOnKey(k) then None else At(a, k)
  {
    var rest := RemovedOps(el, keys[1..], newP);
    RemovedOpsUnfold(el, keys, newP);
    a0 := a;
    if keys[0] !in PropMap(newP) {
      var op := PatchProp(el, keys[0], Undefined, Undefined);
      FoldAttrsCons(a, op, rest);
      a0 := AttrStep(a, op);
    }
  }

  lemma RemovedOpsUnfold(el: Target, keys: seq<string>, newP: Props)
    requires |keys| > 0
    ensures keys[0] !in PropMap(newP) ==>
              RemovedOps(el, keys, newP) == [PatchProp(el, keys[0], Undefined, Undefined)] + RemovedOps(el, keys[1..], newP)
    ensures keys[0] in PropMap(newP) ==> RemovedOps(el, keys, newP) == RemovedOps(el, keys[1..], newP)
  {
  }

  lemma FoldAttrsCons(a: map<string, Value>, op: HostOp, rest: seq<HostOp>)
    ensures FoldAttrs(a, [op] + rest) == FoldAttrs(AttrStep(a, op), rest)
  {
    assert ([op] + rest)[0] == op && ([op] + rest)[1..] == rest;
  }

  lemma RemovedKeysCombine(a: map<string, Value>, a0: map<string, Value>, fin: map<string, Value>, keys: seq<string>, newP: Props)
    requires |keys| > 0
    requires forall k :: At(a0, k) == if k == keys[0] && k !in PropMap(newP) && !IsOnKey(k) then None else At(a, k)
    requires forall k :: At(fin, k) == if k in keys[1..] && k !in PropMap(newP) && !IsOnKey(k) then None else At(a0, k)
    ensures forall k :: At(fin, k) == if k in keys && k !in PropMap(newP) && !IsOnKey(k) then None else At(a, k)
  {
    assert keys == [keys[0]] + keys[1..];
    forall k
      ensures At(fin, k) == if k in keys && k !in PropMap(newP) && !IsOnKey(k) then None else At(a, k)
    {
      assert k in keys <==> k == keys[0] || k in keys[1..];
    }
  }

  /** `pathProps` keeps the element's attributes in step with its props: an
      element whose attributes are those of the old props ends with exactly
      those of the new props. Props objects compared by identity are
      assumed to have the content their identity stands for. */
  lemma PathPropsSyncsAttributes(el: Target, oldP: Props, newP: Props)
    requires PropsWellFormed(oldP) && PropsWellFormed(newP)
    requires !oldP.NoProps? && !newP.NoProps?
    requires SameObject(oldP, newP) ==> oldP == newP
    ensures FoldAttrs(AttrsOf(PropMap(oldP)), PathProps(el, oldP, newP)) == AttrsOf(PropMap(newP))
  {
    var a := AttrsOf(PropMap(oldP));
    var x := if !SameObject(oldP, newP) then ChangedOps(el, oldP, newP, PropKeys(newP)) else [];
    var y := if !oldP.EmptyObj? then RemovedOps(el, PropKeys(oldP), newP) else [];
    FoldAttrsConcat(a, x, y);
    var ax := FoldAttrs(a, x);
    if !SameObject(oldP, newP) {
      ChangedOpsAttrs(a, el, oldP, newP, PropKeys(newP));
    }
    if !oldP.EmptyObj? {
      RemovedOpsAttrs(ax, el, PropKeys(oldP), newP);
    }
    forall k ensures At(FoldAttrs(ax, y), k) == At(AttrsOf(PropMap(newP)), k) {
      AttrsOfAt(oldP, k);
      AttrsOfAt(newP, k);
      assert k in PropKeys(oldP) <==> k in PropMap(oldP);
      assert k in PropKeys(newP) <==> k in PropMap(newP);
    }
    AtExtensional(FoldAttrs(ax, y), AttrsOf(PropMap(newP)));
  }

  /** Patching props on the same object changes nothing. */
  lemma PathPropsSameObjectIsEmpty(el: Target, p: Props)
    requires PropsWellFormed(p)
    ensures PathProps(el, p, p) == []
  {
    if p.PropsObj? {
      RemovedOpsNone(el, p.keys, p);
    }
  }

  lemma {:induction false} RemovedOpsNone(el: Target, keys: seq<string>, newP: Props)
    requires forall k :: k in keys ==> k in PropMap(newP)
    ensures RemovedOps(el, keys, newP) == []
    decreases |keys|
  {
    if |keys| > 0 {
      assert keys[0] in keys;
      assert forall k :: k in keys[1..] ==> k in keys;
      RemovedOpsNone(el, keys[1..], newP);
    }
  }

  /** On the DOM: the props pass of `patchElement` on an element whose
      attributes came from the old props leaves exactly the new props'
      attributes, and touches neither its text nor its children. */
  lemma PatchPropsOnDom(dom: Dom, el: HostId, oldP: Props, newP: Props)
    requires el in dom && dom[el].attrs == AttrsOf(PropMap(oldP))
    requires PropsWellFormed(oldP) && PropsWellFormed(newP)
    requires !oldP.NoProps? && !newP.NoProps?
    requires SameObject(oldP, newP) ==> oldP == newP
    ensures ApplyAll(dom, PathProps(Some(el), oldP, newP)).Ok?
    ensures var d := ApplyAll(dom, PathProps(Some(el), oldP, newP)).value;
            && el in d && d[el].attrs == AttrsOf(PropMap(newP))
            && d[el].text == dom[el].text && d[el].kids == dom[el].kids
  {
    var ops := PathProps(Some(el), oldP, newP);
    PathPropsCallsOn(el, oldP, newP);
    ApplyPropCalls(dom, el, ops);
    PathPropsSyncsAttributes(Some(el), oldP, newP);
  }

  /** `pathProps` only patches props of the element it is given. */
  lemma PathPropsCallsOn(el: HostId, oldP: Props, newP: Props)
    ensures PropCallsOn(PathProps(Some(el), oldP, newP), el)
  {
    var x := if !SameObject(oldP, newP) then ChangedOps(Some(el), oldP, newP, PropKeys(newP)) else [];
    var y := if !oldP.EmptyObj? then RemovedOps(Some(el), PropKeys(oldP), newP) else [];
    PropCallsOnConcat(x, y, el);
  }

  lemma PropCallsOnConcat(x: seq<HostOp>, y: seq<HostOp>, el: HostId)
    requires PropCallsOn(x, el) && PropCallsOn(y, el)
    ensures PropCallsOn(x + y, el)
  {
    forall i | 0 <= i < |x + y| ensures (x + y)[i].PatchProp? && (x + y)[i].target == Some(el) {
      if i >= |x| {
        assert (x + y)[i] == y[i - |x|];
      }
    }
  }

  /** The prop calls of `mountElement`, key by key. */
  lemma {:induction false} MountPropOpsAttrs(a: map<string, Value>, el: Target, keys: seq<string>, p: Props)
    ensures forall k :: At(FoldAttrs(a, MountPropOps(el, keys, p)), k) ==
              if k in keys && !IsOnKey(k) then Want(PropGet(p, k)) else At(a, k)
    decreases |keys|
  {
    if |keys| > 0 {
      var k0 := keys[0];
      var tail := keys[1..];
      var head := [PatchProp(el, k0, Null, PropGet(p, k0))];
      assert MountPropOps(el, keys, p) == head + MountPropOps(el, tail, p);
      FoldAttrsConcat(a, head, MountPropOps(el, tail, p));
      assert FoldAttrs(a, head) == AttrStep(a, head[0]) by {
        assert head[1..] == [];
      }
      MountPropOpsAttrs(AttrStep(a, head[0]), el, tail, p);
      assert forall x :: x in keys <==> x == k0 || x in tail by {
        assert keys == [k0] + tail;
      }
    }
  }

  /** Mounting props onto a new element leaves exactly their attributes. */
  lemma MountPropsAttrs(el: Target, p: Props)
    requires PropsWellFormed(p)
    ensures FoldAttrs(map[], MountPropOps(el, PropKeys(p), p)) == AttrsOf(PropMap(p))
  {
    MountPropOpsAttrs(map[], el, PropKeys(p), p);
    forall k ensures At(FoldAttrs(map[], MountPropOps(el, PropKeys(p), p)), k) == At(AttrsOf(PropMap(p)), k) {
      AttrsOfAt(p, k);
      assert k in PropKeys(p) <==> k in PropMap(p);
    }
    AtExtensional(FoldAttrs(map[], MountPropOps(el, PropKeys(p), p)), AttrsOf(PropMap(p)));
  }

  /** `unmountChildren` hands vnodes to `hostRemove`, which finds no parent
      node on them: the DOM is left as it was. */
  lemma {:induction false} UnmountLeavesDom(dom: Dom, c: Children)
    ensures ApplyAll(dom, UnmountOps(c)) == Ok(dom)
  {
    var ops := UnmountOps(c);
    RemovesLeaveDom(dom, ops);
  }

  lemma {:induction false} RemovesLeaveDom(dom: Dom, ops: seq<HostOp>)
    requires forall i :: 0 <= i < |ops| ==> ops[i].Remove?
    ensures ApplyAll(dom, ops) == Ok(dom)
    decreases |ops|
  {
    if |ops| > 0 {
      assert forall i :: 0 <= i < |ops[1..]| ==> ops[1..][i] == ops[i + 1];
      RemovesLeaveDom(dom, ops[1..]);
    }
  }

  /** `patchChildren` to text children, on the DOM: the element ends with
      the new text; coming from array children it also has no children
      left. */
  lemma PatchToTextOnDom(dom: Dom, el: HostId, n1: VNode, n2: VNode)
    requires Built(n1) && Built(n2) && Has(n2.shapeFlag, TEXT_CHILDREN)
    requires el in dom
    requires Has(n1.shapeFlag, TEXT_CHILDREN) ==> dom[el].text == TextOf(n1.children)
    ensures var ops := (if Has(n1.shapeFlag, ARRAY_CHILDREN) then UnmountOps(n1.children) else [])
                       + (if n1.children != n2.children then [SetText(Some(el), TextOf(n2.children))] else []);
            && ApplyAll(dom, ops).Ok?
            && el in ApplyAll(dom, ops).value
            && ApplyAll(dom, ops).value[el].text == TextOf(n2.children)
            && (Has(n1.shapeFlag, ARRAY_CHILDREN) ==> ApplyAll(dom, ops).value[el].kids == [])
  {
    var removes := if Has(n1.shapeFlag, ARRAY_CHILDREN) then UnmountOps(n1.children) else [];
    var setText := if n1.children != n2.children then [SetText(Some(el), TextOf(n2.children))] else [];
    ApplyAllConcat(dom, removes, setText);
    if Has(n1.shapeFlag, ARRAY_CHILDREN) {
      UnmountLeavesDom(dom, n1.children);
    } else {
      assert ApplyAll(dom, removes) == Ok(dom);
    }
    if setText != [] {
      assert ApplyAll(dom, setText) == Apply(dom, setText[0]) by {
        assert setText[1..] == [];
      }
    }
  }

  // ---------------------------------------------------------------------
  // End to end
  // ---------------------------------------------------------------------

  /** `render` of an element with text children into a container: a new
      element holding the text and exactly the attributes of its props is
      appended to the container. */
  lemma RenderTextElementOnDom(fuel: nat, s: RState, n: VNode, c: HostId, view: RenderView, dom: Dom)
    requires Valid(s) && fuel > 0
    requires n.type_.Tag? && Built(n) && n.children.TextChildren? && PropsWellFormed(n.props)
    requires c in dom && s.nextHost !in dom
    ensures var r := Render(fuel, s, n, Some(c), view);
            && r.Done? && r.value.1.el == Some(s.nextHost)
            && var d := ApplyAll(dom, Delta(s, r.value.0));
            && d.Ok? && s.nextHost in d.value && c in d.value
            && d.value[s.nextHost].text == n.children.text
            && d.value[s.nextHost].kids == []
            && d.value[s.nextHost].attrs == AttrsOf(PropMap(n.props))
            && d.value[c].kids == dom[c].kids + [s.nextHost]
  {
    var el := s.nextHost;
    assert Has(n.shapeFlag, ELEMENT) && Has(n.shapeFlag, TEXT_CHILDREN);
    assert Render(fuel, s, n, Some(c), view) == MountElement(fuel - 1, s, n, Some(c), None, view);
    MountTextElement(fuel - 1, s, n, Some(c), None, view);
    TextElementOnDom(dom, el, c, n.type_, n.children.text, n.props);
  }

  /** The host calls that mount an element with text children, on the DOM:
      a new element holding the text and exactly the attributes of its props
      is appended to the container. */
  lemma TextElementOnDom(dom: Dom, el: HostId, c: HostId, tag: VType, text: string, p: Props)
    requires c in dom && el !in dom && PropsWellFormed(p)
    ensures var ops := [CreateElement(el, tag), SetText(Some(el), text)]
                       + MountPropOps(Some(el), PropKeys(p), p) + [Insert(el, Some(c))];
            var d := ApplyAll(dom, ops);
            && d.Ok? && el in d.value && c in d.value
            && d.value[el].text == text && d.value[el].kids == []
            && d.value[el].attrs == AttrsOf(PropMap(p))
            && d.value[c].kids == dom[c].kids + [el]
  {
    var head := [CreateElement(el, tag), SetText(Some(el), text)];
    var props := MountPropOps(Some(el), PropKeys(p), p);
    var tail := [Insert(el, Some(c))];
    ApplyAllConcat(dom, head + props, tail);
    ApplyAllConcat(dom, head, props);
    CreateWithTextOnDom(dom, el, tag, text);
    var d2 := dom[el := Node(text, [], map[], [])];
    assert PropCallsOn(props, el);
    ApplyPropCalls(d2, el, props);
    MountPropsAttrs(Some(el), p);
    var d3 := ApplyAll(d2, props).value;
    InsertOnDom(d3, el, c);
  }

  /** Creating an element and setting its text. */
  lemma CreateWithTextOnDom(dom: Dom, el: HostId, tag: VType, text: string)
    ensures ApplyAll(dom, [CreateElement(el, tag), SetText(Some(el), text)]) == Ok(dom[el := Node(text, [], map[], [])])
  {
    var head := [CreateElement(el, tag), SetText(Some(el), text)];
    var d1 := dom[el := Node("", [], map[], [])];
    var d2 := d1[el := Node(text, [], map[], [])];
    assert d2 == dom[el := Node(text, [], map[], [])];
    assert Apply(dom, head[0]) == Ok(d1);
    assert head[1..] == [SetText(Some(el), text)];
    assert Apply(d1, head[1]) == Ok(d2);
    assert head[1..][1..] == [];
    assert ApplyAll(d2, head[1..][1..]) == Ok(d2);
    assert ApplyAll(d1, head[1..]) == Ok(d2);
  }

  /** Inserting appends the node to the container's children. */
  lemma InsertOnDom(dom: Dom, el: HostId, c: HostId)
    requires c in dom
    ensures ApplyAll(dom, [Insert(el, Some(c))]) == Ok(dom[c := dom[c].(kids := dom[c].kids + [el])])
  {
    var tail := [Insert(el, Some(c))];
    assert tail[1..] == [];
  }

  // ---------------------------------------------------------------------
  // Mounting a list of text vnodes
  // ---------------------------------------------------------------------

  /** The texts of a list of vnodes, as `createTextNode` receives them. */
  function Texts(cs: seq<VNode>): (r: seq<string>)
    ensures |r| == |cs| && forall i :: 0 <= i < |cs| ==> r[i] == TextOf(cs[i].children)
  {
    seq(|cs|, i requires 0 <= i < |cs| => TextOf(cs[i].children))
  }

  /** `processText` for each text in turn, with host nodes numbered from `h`. */
  function TextNodesOps(h: HostId, texts: seq<string>, container: Target): (r: seq<HostOp>)
    ensures |r| == 2 * |texts|
    decreases |texts|
  {
    if |texts| == 0 then []
    else [CreateText(h, texts[0]), Insert(h, container)] + TextNodesOps(h + 1, texts[1..], container)
  }

  /** `mountChildren` of text vnodes creates and appends one text node per
      child, in order, and nothing else. */
  lemma {:induction false} MountTextChildren(fuel: nat, s: RState, cs: seq<VNode>, container: Target,
                                             parent: Option<Component.InstId>, view: RenderView)
    requires Valid(s) && (parent.Some? ==> parent.value < |s.rt.instances|) && fuel > 0
    requires forall i :: 0 <= i < |cs| ==> cs[i].type_.TextType?
    ensures var r := MountChildren(fuel, s, cs, container, parent, view);
            && r.Done? && r.value.0.nextHost == s.nextHost + |cs| && r.value.0.rt == s.rt
            && Delta(s, r.value.0) == TextNodesOps(s.nextHost, Texts(cs), container)
    decreases |cs|
  {
    if |cs| > 0 {
      TextPatchStep(fuel, s, cs[0], container, parent, view);
      var s1 := Patch(fuel, s, None, cs[0], container, parent, view).value.0;
      MountTextChildren(fuel, s1, cs[1..], container, parent, view);
      var s2 := MountChildren(fuel, s1, cs[1..], container, parent, view).value.0;
      TextMountCombine(s, s1, s2, cs, container);
    }
  }

  /** Patching one text vnode makes exactly its two calls. */
  lemma TextPatchStep(fuel: nat, s: RState, v: VNode, container: Target,
                      parent: Option<Component.InstId>, view: RenderView)
    requires Valid(s) && (parent.Some? ==> parent.value < |s.rt.instances|) && fuel > 0
    requires v.type_.TextType?
    ensures var p := Patch(fuel, s, None, v, container, parent, view);
            && p.Done? && p.value.0.rt == s.rt && p.value.0.nextHost == s.nextHost + 1
            && Delta(s, p.value.0) == [CreateText(s.nextHost, TextOf(v.children)), Insert(s.nextHost, container)]
  {
  }

  lemma TextMountCombine(s: RState, s1: RState, s2: RState, cs: seq<VNode>, container: Target)
    requires |cs| > 0 && s.trace <= s1.trace <= s2.trace
    requires Delta(s, s1) == [CreateText(s.nextHost, TextOf(cs[0].children)), Insert(s.nextHost, container)]
    requires s1.nextHost == s.nextHost + 1
    requires Delta(s1, s2) == TextNodesOps(s1.nextHost, Texts(cs[1..]), container)
    ensures Delta(s, s2) == TextNodesOps(s.nextHost, Texts(cs), container)
  {
    DeltaAppend(s, s1, s2);
    assert Texts(cs)[1..] == Texts(cs[1..]);
  }

  /** `[h, h+1, ..., h+n-1]`. */
  function Range(h: HostId, n: nat): (r: seq<HostId>)
    ensures |r| == n && forall i :: 0 <= i < n ==> r[i] == h + i
  {
    seq(n, i requires 0 <= i < n => h + i)
  }

  /** No node of `dom` has an id in [h, h+n). */
  predicate FreshFrom(dom: Dom, h: HostId, n: nat) {
    forall id :: id in dom ==> id < h || h + n <= id
  }

  /** On the DOM, the text-node calls succeed, give each new node its text,
      append the new nodes to the container in order, and change nothing
      else. */
  lemma {:induction false} TextNodesOnDom(dom: Dom, h: HostId, texts: seq<string>, c: HostId)
    requires c in dom && FreshFrom(dom, h, |texts|)
    ensures TextNodesOnDomFacts(dom, ApplyAll(dom, TextNodesOps(h, texts, Some(c))), h, texts, c)
    decreases |texts|
  {
    if |texts| > 0 {
      var d1 := AddTextNode(dom, h, texts[0], c);
      TextNodesFresh(dom, h, texts, c);
      TextNodesOnDom(d1, h + 1, texts[1..], c);
      TextNodesInduct(dom, h, texts, c);
    }
  }

  lemma TextNodesFresh(dom: Dom, h: HostId, texts: seq<string>, c: HostId)
    requires |texts| > 0 && c in dom && FreshFrom(dom, h, |texts|)
    ensures c in AddTextNode(dom, h, texts[0], c) && FreshFrom(AddTextNode(dom, h, texts[0], c), h + 1, |texts[1..]|)
  {
    AddTextNodeFresh(dom, h, |texts|, texts[0], c);
  }

  /** The step of the induction: facts for the rest give facts for all. */
  lemma TextNodesInduct(dom: Dom, h: HostId, texts: seq<string>, c: HostId)
    requires |texts| > 0 && c in dom && FreshFrom(dom, h, |texts|)
    requires var d1 := AddTextNode(dom, h, texts[0], c);
             c in d1 && TextNodesOnDomFacts(d1, ApplyAll(d1, TextNodesOps(h + 1, texts[1..], Some(c))), h + 1, texts[1..], c)
    ensures TextNodesOnDomFacts(dom, ApplyAll(dom, TextNodesOps(h, texts, Some(c))), h, texts, c)
  {
    TextNodesUnfold(dom, h, texts, c);
    var d1 := AddTextNode(dom, h, texts[0], c);
    TextNodesCombine(dom, d1, ApplyAll(dom, TextNodesOps(h, texts, Some(c))), h, texts, c);
  }

  /** The first text node's two calls, then the rest on a DOM that is still
      fresh above `h`. */
  lemma TextNodesUnfold(dom: Dom, h: HostId, texts: seq<string>, c: HostId)
    requires |texts| > 0 && c in dom && FreshFrom(dom, h, |texts|)
    ensures h !in dom && h != c
    ensures var d1 := AddTextNode(dom, h, texts[0], c);
            && c in d1 && FreshFrom(d1, h + 1, |texts| - 1)
            && ApplyAll(dom, TextNodesOps(h, texts, Some(c))) == ApplyAll(d1, TextNodesOps(h + 1, texts[1..], Some(c)))
  {
    var head := [CreateText(h, texts[0]), Insert(h, Some(c))];
    var rest := TextNodesOps(h + 1, texts[1..], Some(c));
    assert TextNodesOps(h, texts, Some(c)) == head + rest;
    ApplyAllConcat(dom, head, rest);
    assert h !in dom;
    TextNodeStep(dom, h, texts[0], c);
    AddTextNodeFresh(dom, h, |texts|, texts[0], c);
  }

  lemma AddTextNodeFresh(dom: Dom, h: HostId, n: nat, t: string, c: HostId)
    requires n > 0 && c in dom && FreshFrom(dom, h, n)
    ensures FreshFrom(AddTextNode(dom, h, t, c), h + 1, n - 1)
  {
    assert AddTextNode(dom, h, t, c).Keys == dom.Keys + {h};
  }

  /** What the text-node calls leave on the DOM. */
  predicate TextNodesOnDomFacts(dom: Dom, d: Result<Dom>, h: HostId, texts: seq<string>, c: HostId)
    requires c in dom
  {
    && d.Ok? && c in d.value
    && d.value[c].kids == dom[c].kids + Range(h, |texts|)
    && d.value[c].text == dom[c].text && d.value[c].attrs == dom[c].attrs
    && (forall id :: h <= id < h + |texts| ==> id in d.value && d.value[id] == Node(texts[id - h], [], map[], []))
    && (forall id :: id in dom && id != c ==> id in d.value && d.value[id] == dom[id])
  }

  /** The DOM after one text node `h` is created and appended to `c`. */
  function AddTextNode(dom: Dom, h: HostId, t: string, c: HostId): Dom
    requires c in dom
  {
    var d0 := dom[h := Node(t, [], map[], [])];
    d0[c := d0[c].(kids := d0[c].kids + [h])]
  }

  lemma TextNodeStep(dom: Dom, h: HostId, t: string, c: HostId)
    requires c in dom && h != c
    ensures ApplyAll(dom, [CreateText(h, t), Insert(h, Some(c))]) == Ok(AddTextNode(dom, h, t, c))
  {
    var head := [CreateText(h, t), Insert(h, Some(c))];
    var d0 := dom[h := Node(t, [], map[], [])];
    assert Apply(dom, head[0]) == Ok(d0);
    assert head[1..] == [Insert(h, Some(c))];
    InsertOnDom(d0, h, c);
  }

  lemma TextNodesCombine(dom: Dom, d1: Dom, d: Result<Dom>, h: HostId, texts: seq<string>, c: HostId)
    requires |texts| > 0 && c in dom && h !in dom
    requires d1 == AddTextNode(dom, h, texts[0], c)
    requires TextNodesOnDomFacts(d1, d, h + 1, texts[1..], c)
    ensures TextNodesOnDomFacts(dom, d, h, texts, c)
  {
    TextNodesCombineNodes(dom, d1, d.value, h, texts, c);
    assert Range(h, |texts|) == [h] + Range(h + 1, |texts[1..]|);
  }

  lemma TextNodesCombineNodes(dom: Dom, d1: Dom, e: Dom, h: HostId, texts: seq<string>, c: HostId)
    requires |texts| > 0 && c in dom && h !in dom
    requires d1 == AddTextNode(dom, h, texts[0], c)
    requires h in e && e[h] == d1[h]
    requires forall id :: h + 1 <= id < h + |texts| ==> id in e && e[id] == Node(texts[1..][id - (h + 1)], [], map[], [])
    ensures forall id :: h <= id < h + |texts| ==> id in e && e[id] == Node(texts[id - h], [], map[], [])
  {
    forall id | h <= id < h + |texts| ensures id in e && e[id] == Node(texts[id - h], [], map[], []) {
      if id == h {
        assert d1[h] == Node(texts[0], [], map[], []);
      } else {
        assert texts[1..][id - (h + 1)] == texts[id - h];
      }
    }
  }

  /** Rendering a Fragment whose children are text vnodes into container
      `c` appends one text node per child to `c`, in order, each holding its
      child's text. */
  lemma TextFragmentOnDom(fuel: nat, s: RState, n: VNode, c: HostId, view: RenderView, dom: Dom)
    requires Valid(s) && fuel > 1
    requires n.type_.FragmentType? && n.children.ArrayChildren?
    requires forall i :: 0 <= i < |n.children.nodes| ==> n.children.nodes[i].type_.TextType?
    requires c in dom && forall id :: id in dom ==> id < s.nextHost
    ensures var r := Render(fuel, s, n, Some(c), view);
            && r.Done? && TextsAppended(dom, ApplyAll(dom, Delta(s, r.value.0)), s.nextHost, n.children.nodes, c)
  {
    var cs := n.children.nodes;
    TextFragmentRender(fuel, s, n, c, view);
    assert FreshFrom(dom, s.nextHost, |Texts(cs)|);
    TextNodesOnDom(dom, s.nextHost, Texts(cs), c);
    TextNodesFactsTexts(dom, ApplyAll(dom, TextNodesOps(s.nextHost, Texts(cs), Some(c))), s.nextHost, cs, c);
  }

  /** The DOM `d` holds the nodes of `cs` as text nodes `h, h+1, ...`,
      appended in order to the children of `c`. */
  predicate TextsAppended(dom: Dom, d: Result<Dom>, h: HostId, cs: seq<VNode>, c: HostId)
    requires c in dom
  {
    && d.Ok? && c in d.value
    && d.value[c].kids == dom[c].kids + Range(h, |cs|)
    && forall i :: 0 <= i < |cs| ==> h + i in d.value && d.value[h + i].text == TextOf(cs[i].children)
  }

  /** A Fragment of text vnodes renders as exactly the text-node calls. */
  lemma TextFragmentRender(fuel: nat, s: RState, n: VNode, c: HostId, view: RenderView)
    requires Valid(s) && fuel > 1
    requires n.type_.FragmentType? && n.children.ArrayChildren?
    requires forall i :: 0 <= i < |n.children.nodes| ==> n.children.nodes[i].type_.TextType?
    ensures var r := Render(fuel, s, n, Some(c), view);
            && r.Done? && Delta(s, r.value.0) == TextNodesOps(s.nextHost, Texts(n.children.nodes), Some(c))
  {
    MountTextChildren(fuel - 1, s, n.children.nodes, Some(c), None, view);
  }

  /** The per-child reading of the text-node facts. */
  lemma TextNodesFactsTexts(dom: Dom, d: Result<Dom>, h: HostId, cs: seq<VNode>, c: HostId)
    requires c in dom && TextNodesOnDomFacts(dom, d, h, Texts(cs), c)
    ensures TextsAppended(dom, d, h, cs, c)
  {
    forall i | 0 <= i < |cs| ensures h + i in d.value && d.value[h + i].text == TextOf(cs[i].children) {
      var id := h + i;
      assert h <= id < h + |Texts(cs)|;
      assert id - h == i;
    }
  }

  // ---------------------------------------------------------------------
  // Array children made of text vnodes
  // ---------------------------------------------------------------------

  /** `patchChildren` from text to an array of text vnodes: the old text is
      cleared, then one text node per new child is created and appended to
      the element, in order. */
  lemma PatchTextToTextNodes(fuel: nat, s: RState, n1: VNode, n2: VNode, container: Target,
                             parent: Option<Component.InstId>, view: RenderView)
    requires Valid(s) && (parent.Some? ==> parent.value < |s.rt.instances|) && fuel > 0
    requires Has(n1.shapeFlag, TEXT_CHILDREN) && !Has(n2.shapeFlag, TEXT_CHILDREN) && n2.children.ArrayChildren?
    requires forall i :: 0 <= i < |n2.children.nodes| ==> n2.children.nodes[i].type_.TextType?
    ensures var r := PatchChildren(fuel, s, n1, n2, container, parent, view);
            && r.Done? && r.value.0.rt == s.rt && r.value.0.nextHost == s.nextHost + |n2.children.nodes|
            && Delta(s, r.value.0) == [SetText(container, "")] + TextNodesOps(s.nextHost, Texts(n2.children.nodes), container)
  {
    var cs := n2.children.nodes;
    var s1 := s.(trace := s.trace + [SetText(container, "")]);
    MountTextChildren(fuel, s1, cs, container, parent, view);
    var s2 := MountChildren(fuel, s1, cs, container, parent, view).value.0;
    DeltaAppend(s, s1, s2);
  }

  /** `mountElement` of an element whose children are text vnodes: create
      the element, append one text node per child to it in order, set its
      props, and insert it. */
  lemma MountElementTextNodes(fuel: nat, s: RState, n2: VNode, container: Target,
                              parent: Option<Component.InstId>, view: RenderView)
    requires Valid(s) && (parent.Some? ==> parent.value < |s.rt.instances|) && fuel > 0
    requires !Has(n2.shapeFlag, TEXT_CHILDREN) && Has(n2.shapeFlag, ARRAY_CHILDREN) && n2.children.ArrayChildren?
    requires forall i :: 0 <= i < |n2.children.nodes| ==> n2.children.nodes[i].type_.TextType?
    ensures var r := MountElement(fuel, s, n2, container, parent, view);
            var el := s.nextHost;
            && r.Done? && r.value.0.rt == s.rt && r.value.0.nextHost == el + 1 + |n2.children.nodes|
            && r.value.1.el == Some(el)
            && Delta(s, r.value.0) == ElementTextNodesOps(el, n2.type_, Texts(n2.children.nodes), n2.props, container)
  {
    var el := s.nextHost;
    var s1 := Created(s, n2);
    ElementChildrenTextNodes(fuel, s1, n2, el, parent, view);
    MountElementAfterChildren(fuel, s, n2, container, parent, view);
    var s2 := ElementChildren(fuel, s1, n2, el, parent, view).value.0;
    MountElementTrace(s, s1, s2, el, n2, container, Texts(n2.children.nodes));
  }

  /** The host calls that mount element `el` with text-node children. */
  function ElementTextNodesOps(el: HostId, tag: VType, texts: seq<string>, p: Props, container: Target): seq<HostOp> {
    [CreateElement(el, tag)] + TextNodesOps(el + 1, texts, Some(el)) + MountPropOps(Some(el), PropKeys(p), p) + [Insert(el, container)]
  }

  /** The state right after `mountElement` creates the element. */
  function Created(s: RState, n2: VNode): (r: RState)
    ensures r.rt == s.rt && r.nextHost == s.nextHost + 1 && r.trace == s.trace + [CreateElement(s.nextHost, n2.type_)]
  {
    s.(nextHost := s.nextHost + 1, trace := s.trace + [CreateElement(s.nextHost, n2.type_)])
  }

  lemma ElementChildrenTextNodes(fuel: nat, s: RState, n2: VNode, el: HostId,
                                 parent: Option<Component.InstId>, view: RenderView)
    requires Valid(s) && (parent.Some? ==> parent.value < |s.rt.instances|) && fuel > 0
    requires !Has(n2.shapeFlag, TEXT_CHILDREN) && Has(n2.shapeFlag, ARRAY_CHILDREN) && n2.children.ArrayChildren?
    requires forall i :: 0 <= i < |n2.children.nodes| ==> n2.children.nodes[i].type_.TextType?
    ensures var r := ElementChildren(fuel, s, n2, el, parent, view);
            && r.Done? && r.value.0.rt == s.rt && r.value.0.nextHost == s.nextHost + |n2.children.nodes|
            && Delta(s, r.value.0) == TextNodesOps(s.nextHost, Texts(n2.children.nodes), Some(el))
  {
    MountTextChildren(fuel, s, n2.children.nodes, Some(el), parent, view);
  }

  lemma MountElementAfterChildren(fuel: nat, s: RState, n2: VNode, container: Target,
                                  parent: Option<Component.InstId>, view: RenderView)
    requires Valid(s) && (parent.Some? ==> parent.value < |s.rt.instances|)
    requires ElementChildren(fuel, Created(s, n2), n2, s.nextHost, parent, view).Done?
    ensures var ch := ElementChildren(fuel, Created(s, n2), n2, s.nextHost, parent, view).value;
            var el := s.nextHost;
            MountElement(fuel, s, n2, container, parent, view) ==
              Done((ch.0.(trace := ch.0.trace + MountPropOps(Some(el), PropKeys(n2.props), n2.props) + [Insert(el, container)]),
                    n2.(el := Some(el), children := ch.1)))
  {
  }

  lemma MountElementTrace(s: RState, s1: RState, s2: RState, el: HostId, n2: VNode, container: Target, texts: seq<string>)
    requires s1.trace == s.trace + [CreateElement(el, n2.type_)] && s1.trace <= s2.trace
    requires Delta(s1, s2) == TextNodesOps(el + 1, texts, Some(el))
    ensures var t3 := s2.trace + MountPropOps(Some(el), PropKeys(n2.props), n2.props) + [Insert(el, container)];
            s.trace <= t3 && t3[|s.trace|..] == ElementTextNodesOps(el, n2.type_, texts, n2.props, container)
  {
    assert s2.trace == s.trace + [CreateElement(el, n2.type_)] + TextNodesOps(el + 1, texts, Some(el));
  }

  /** On the DOM, clearing an element's text and appending text nodes to it
      leaves it with no text and exactly the new nodes as children. */
  lemma TextToTextNodesOnDom(dom: Dom, el: HostId, h: HostId, texts: seq<string>)
    requires el in dom && FreshFrom(dom, h, |texts|)
    ensures var d := ApplyAll(dom, [SetText(Some(el), "")] + TextNodesOps(h, texts, Some(el)));
            && d.Ok? && el in d.value
            && d.value[el].text == "" && d.value[el].kids == Range(h, |texts|)
            && TextNodesOnDomFacts(dom[el := dom[el].(text := "", kids := [])], d, h, texts, el)
  {
    var d1 := dom[el := dom[el].(text := "", kids := [])];
    var ops := TextNodesOps(h, texts, Some(el));
    ApplyAllConcat(dom, [SetText(Some(el), "")], ops);
    assert ApplyAll(dom, [SetText(Some(el), "")]) == Ok(d1) by {
      assert [SetText(Some(el), "")][1..] == [];
    }
    assert d1.Keys == dom.Keys;
    TextNodesOnDom(d1, h, texts, el);
    assert [] + Range(h, |texts|) == Range(h, |texts|);
  }

  /** On the DOM, mounting an element with text-vnode children gives a new
      element with no text of its own, the new text nodes as its children,
      exactly the attributes of its props, appended to the container. */
  lemma TextNodesElementOnDom(dom: Dom, el: HostId, c: HostId, tag: VType, texts: seq<string>, p: Props)
    requires c in dom && el !in dom && FreshFrom(dom, el + 1, |texts|) && PropsWellFormed(p)
    ensures ElementWithTextNodes(dom, ApplyAll(dom, ElementTextNodesOps(el, tag, texts, p, Some(c))), el, c, texts, p)
  {
    var kids := [CreateElement(el, tag)] + TextNodesOps(el + 1, texts, Some(el));
    var rest := MountPropOps(Some(el), PropKeys(p), p) + [Insert(el, Some(c))];
    assert ElementTextNodesOps(el, tag, texts, p, Some(c)) == kids + rest;
    ApplyAllConcat(dom, kids, rest);
    CreateWithTextNodesOnDom(dom, el, c, tag, texts);
    var d2 := ApplyAll(dom, kids).value;
    PropsThenInsertOnDom(d2, el, c, p);
    MountPropsAttrs(Some(el), p);
    ElementWithTextNodesOf(dom, d2, ApplyAll(d2, rest), el, c, texts, p);
  }

  lemma ElementWithTextNodesOf(dom: Dom, d2: Dom, d: Result<Dom>, el: HostId, c: HostId, texts: seq<string>, p: Props)
    requires c in dom && el in d2 && c in d2 && el != c && d2[c] == dom[c] && FreshFrom(dom, el + 1, |texts|)
    requires d2[el].text == "" && d2[el].kids == Range(el + 1, |texts|) && TextNodesAt(d2, el + 1, texts)
    requires d.Ok? && el in d.value && c in d.value
    requires d.value[el].text == d2[el].text && d.value[el].kids == d2[el].kids
    requires d.value[el].attrs == AttrsOf(PropMap(p)) && d.value[c].kids == d2[c].kids + [el]
    requires forall id :: id in d2 && id != el && id != c ==> id in d.value && d.value[id] == d2[id]
    ensures ElementWithTextNodes(dom, d, el, c, texts, p)
  {
    forall id | el + 1 <= id < el + 1 + |texts| ensures id in d.value && d.value[id] == Node(texts[id - (el + 1)], [], map[], []) {
      assert id in d2 && id != el && id != c && d2[id] == Node(texts[id - (el + 1)], [], map[], []);
    }
  }

  /** `render` of an element whose children are text vnodes into a
      container: a new element is appended to the container, holding no text
      of its own, one text node per child in order, and exactly the
      attributes of its props. */
  lemma RenderTextListElementOnDom(fuel: nat, s: RState, n: VNode, c: HostId, view: RenderView, dom: Dom)
    requires Valid(s) && fuel > 1
    requires n.type_.Tag? && Built(n) && n.children.ArrayChildren? && PropsWellFormed(n.props)
    requires forall i :: 0 <= i < |n.children.nodes| ==> n.children.nodes[i].type_.TextType?
    requires c in dom && forall id :: id in dom ==> id < s.nextHost
    ensures var r := Render(fuel, s, n, Some(c), view);
            && r.Done? && r.value.1.el == Some(s.nextHost)
            && ElementWithTextNodes(dom, ApplyAll(dom, Delta(s, r.value.0)), s.nextHost, c, Texts(n.children.nodes), n.props)
  {
    var el := s.nextHost;
    assert Has(n.shapeFlag, ELEMENT) && Has(n.shapeFlag, ARRAY_CHILDREN) && !Has(n.shapeFlag, TEXT_CHILDREN);
    assert Render(fuel, s, n, Some(c), view) == MountElement(fuel - 1, s, n, Some(c), None, view);
    MountElementTextNodes(fuel - 1, s, n, Some(c), None, view);
    assert FreshFrom(dom, el + 1, |Texts(n.children.nodes)|);
    TextNodesElementOnDom(dom, el, c, n.type_, Texts(n.children.nodes), n.props);
  }

  /** `d` is `dom` with a new element `el` appended to `c`: it holds no text
      of its own, the text nodes `el+1, el+2, ...` as its children, and
      exactly the attributes of props `p`. */
  predicate ElementWithTextNodes(dom: Dom, d: Result<Dom>, el: HostId, c: HostId, texts: seq<string>, p: Props)
    requires c in dom
  {
    && d.Ok? && el in d.value && c in d.value
    && d.value[el].text == "" && d.value[el].kids == Range(el + 1, |texts|)
    && d.value[el].attrs == AttrsOf(PropMap(p))
    && d.value[c].kids == dom[c].kids + [el]
    && TextNodesAt(d.value, el + 1, texts)
  }

  /** Nodes `h, h+1, ...` are text nodes holding `texts`, in order. */
  predicate TextNodesAt(d: Dom, h: HostId, texts: seq<string>) {
    forall id :: h <= id < h + |texts| ==> id in d && d[id] == Node(texts[id - h], [], map[], [])
  }

  /** Creating the element and appending its text nodes to it. */
  lemma CreateWithTextNodesOnDom(dom: Dom, el: HostId, c: HostId, tag: VType, texts: seq<string>)
    requires c in dom && el !in dom && FreshFrom(dom, el + 1, |texts|)
    ensures var d := ApplyAll(dom, [CreateElement(el, tag)] + TextNodesOps(el + 1, texts, Some(el)));
            && d.Ok? && el in d.value && c in d.value && d.value[c] == dom[c]
            && d.value[el].text == "" && d.value[el].kids == Range(el + 1, |texts|) && d.value[el].attrs == map[]
            && TextNodesAt(d.value, el + 1, texts)
  {
    var kids := TextNodesOps(el + 1, texts, Some(el));
    ApplyAllConcat(dom, [CreateElement(el, tag)], kids);
    CreateOnDom(dom, el, tag, |texts|);
    var d1 := dom[el := Node("", [], map[], [])];
    TextNodesOnDom(d1, el + 1, texts, el);
    assert [] + Range(el + 1, |texts|) == Range(el + 1, |texts|);
  }

  lemma CreateOnDom(dom: Dom, el: HostId, tag: VType, n: nat)
    requires el !in dom && FreshFrom(dom, el + 1, n)
    ensures ApplyAll(dom, [CreateElement(el, tag)]) == Ok(dom[el := Node("", [], map[], [])])
    ensures FreshFrom(dom[el := Node("", [], map[], [])], el + 1, n)
  {
    assert [CreateElement(el, tag)][1..] == [];
    assert dom[el := Node("", [], map[], [])].Keys == dom.Keys + {el};
  }

  /** Setting the props of element `el`, then inserting it into `c`. */
  lemma PropsThenInsertOnDom(dom: Dom, el: HostId, c: HostId, p: Props)
    requires el in dom && c in dom && el != c
    ensures var d := ApplyAll(dom, MountPropOps(Some(el), PropKeys(p), p) + [Insert(el, Some(c))]);
            && d.Ok? && el in d.value && c in d.value
            && d.value[el].text == dom[el].text && d.value[el].kids == dom[el].kids
            && d.value[el].attrs == FoldAttrs(dom[el].attrs, MountPropOps(Some(el), PropKeys(p), p))
            && d.value[c].kids == dom[c].kids + [el]
            && forall id :: id in dom && id != el && id != c ==> id in d.value && d.value[id] == dom[id]
  {
    var props := MountPropOps(Some(el), PropKeys(p), p);
    ApplyAllConcat(dom, props, [Insert(el, Some(c))]);
    assert PropCallsOn(props, el);
    ApplyPropCalls(dom, el, props);
    InsertOnDom(ApplyAll(dom, props).value, el, c);
  }

  /** The render effect patches in place: the first run mounts a new
      element for the instance, and a second run with another element
      subtree reuses that element, touching only its text and props. */
  lemma RenderEffectPatchesInPlace(fuel: nat, s: RState, c: Component.InstId, container: Target, view: RenderView)
    requires Valid(s) && fuel > 0 && c < |s.rt.instances|
    requires s.rt.instances[c].hasRender && !s.rt.instances[c].isMounted && RenderCount(s, c) == 0
    requires view(c, 0).type_.Tag? && Built(view(c, 0)) && view(c, 0).children.TextChildren?
    requires view(c, 1).type_.Tag? && Built(view(c, 1)) && view(c, 1).children.TextChildren?
    ensures var r1 := RenderEffectRun(fuel, s, c, container, view);
            && r1.Done? && r1.value.rt.instances[c].el == Some(s.nextHost)
            && var r2 := RenderEffectRun(fuel, r1.value, c, container, view);
            && r2.Done? && r2.value.rt.instances[c].el == Some(s.nextHost)
            && Delta(r1.value, r2.value) ==
                 (if view(c, 0).children != view(c, 1).children
                  then [SetText(Some(s.nextHost), TextOf(view(c, 1).children))] else [])
                 + PathProps(Some(s.nextHost), OrEmpty(view(c, 0).props), OrEmpty(view(c, 1).props))
  {
    var v0 := view(c, 0);
    assert !Has(v0.shapeFlag, ARRAY_CHILDREN);
    var t := RenderFirstRun(fuel, s, c, container, view);
    RenderSecondRun(fuel, t, c, container, view, v0.(el := Some(s.nextHost)));
  }

  /** The first run of the render effect mounts the element subtree. */
  lemma RenderFirstRun(fuel: nat, s: RState, c: Component.InstId, container: Target, view: RenderView) returns (t: RState)
    requires Valid(s) && fuel > 0 && c < |s.rt.instances|
    requires s.rt.instances[c].hasRender && !s.rt.instances[c].isMounted && RenderCount(s, c) == 0
    requires view(c, 0).type_.Tag? && Built(view(c, 0)) && view(c, 0).children.TextChildren?
    ensures RenderEffectRun(fuel, s, c, container, view) == Done(t)
    ensures Valid(t) && c < |t.rt.instances| && RenderCount(t, c) == 1
    ensures var inst := t.rt.instances[c];
            && inst.hasRender && inst.isMounted && inst.el == Some(s.nextHost)
            && inst.subTree == Some(view(c, 0).(el := Some(s.nextHost)))
  {
    var v0 := view(c, 0);
    var s1 := s.(renders := s.renders[c := 1]);
    assert Has(v0.shapeFlag, ELEMENT) && Has(v0.shapeFlag, TEXT_CHILDREN);
    assert Patch(fuel, s1, None, v0, container, Some(c), view) == MountElement(fuel - 1, s1, v0, container, Some(c), view);
    MountTextElement(fuel - 1, s1, v0, container, Some(c), view);
    var m := MountElement(fuel - 1, s1, v0, container, Some(c), view).value;
    t := RunAfterPatch(fuel, s, c, container, view, m.0, m.1);
  }

  /** A first run whose patch is done stores the patched tree on the instance. */
  lemma RunAfterPatch(fuel: nat, s: RState, c: Component.InstId, container: Target, view: RenderView,
                      s2: RState, tree: VNode) returns (t: RState)
    requires Valid(s) && c < |s.rt.instances|
    requires s.rt.instances[c].hasRender && !s.rt.instances[c].isMounted && RenderCount(s, c) == 0
    requires Patch(fuel, s.(renders := s.renders[c := 1]), None, view(c, 0), container, Some(c), view) == Done((s2, tree))
    requires s2.rt == s.rt
    ensures RenderEffectRun(fuel, s, c, container, view) == Done(t)
    ensures Valid(t) && c < |t.rt.instances| && RenderCount(t, c) == 1
    ensures t.rt.instances[c] == s.rt.instances[c].(subTree := Some(tree), el := tree.el, isMounted := true)
  {
    t := RenderEffectRun(fuel, s, c, container, view).value;
  }

  /** A later run of the render effect patches the mounted element in
      place when the new subtree is again an element with text children. */
  lemma RenderSecondRun(fuel: nat, t: RState, c: Component.InstId, container: Target, view: RenderView, tree: VNode)
    requires Valid(t) && fuel > 0 && c < |t.rt.instances| && RenderCount(t, c) == 1
    requires t.rt.instances[c].hasRender && t.rt.instances[c].isMounted && t.rt.instances[c].subTree == Some(tree)
    requires !Has(tree.shapeFlag, ARRAY_CHILDREN)
    requires view(c, 1).type_.Tag? && Built(view(c, 1)) && view(c, 1).children.TextChildren?
    ensures var r2 := RenderEffectRun(fuel, t, c, container, view);
            && r2.Done? && r2.value.rt.instances[c].el == tree.el
            && r2.value.rt.instances[c].subTree == Some(view(c, 1).(el := tree.el))
            && Delta(t, r2.value) ==
                 (if tree.children != view(c, 1).children then [SetText(tree.el, TextOf(view(c, 1).children))] else [])
                 + PathProps(tree.el, OrEmpty(tree.props), OrEmpty(view(c, 1).props))
  {
    var v1 := view(c, 1);
    assert Has(v1.shapeFlag, ELEMENT) && Has(v1.shapeFlag, TEXT_CHILDREN);
    var t1 := t.(renders := t.renders[c := 2]);
    assert Patch(fuel, t1, Some(tree), v1, container, Some(c), view) == PatchElement(fuel - 1, t1, tree, v1, Some(c), view);
    var pe := PatchElement(fuel - 1, t1, tree, v1, Some(c), view);
    assert pe.Done? && pe.value.1.el == tree.el;
    assert pe.value.1 == v1.(el := tree.el);
    var r2 := RenderEffectRun(fuel, t, c, container, view);
    assert r2.Done? && r2.value.trace == pe.value.0.trace;
  }
}

=== FILE: shared.dfy ===
/** The value universe and the small helpers of src/shared/index.ts and of the
    bundle's shared section (lib/guide-mini-vue.cjs.js:3-24). */
module Shared {

  /** A JavaScript value. Numbers are integers (floating point, NaN and the
      signed zeros are not modelled); functions and objects are identified by
      an id, objects being entries of a heap defined by the reactivity model. */
  datatype Value =
    | Undefined
    | Null
    | Bool(b: bool)
    | Num(n: int)
    | Str(s: string)
    | Fn(fid: nat)
    | Obj(id: nat)

  /** JavaScript truthiness (`!!v`). */
  predicate Truthy(v: Value) {
    match v
    case Undefined => false
    case Null => false
    case Bool(b) => b
    case Num(n) => n != 0
    case Str(s) => s != ""
    case Fn(_) => true
    case Obj(_) => true
  }

  /** `isObject`: `typeof v === 'object'` and not `null`. Arrays, proxies and
      ref cells are heap objects; functions have `typeof` 'function'. */
  predicate IsObject(v: Value) {
    v.Obj?
  }

  /** `Object.is`, with the floating-point corner cases left out. */
  predicate SameValue(a: Value, b: Value) {
    a == b
  }

  /** `hasChanged(a, b)` is `!Object.is(a, b)`. */
  predicate HasChanged(a: Value, b: Value) {
    !SameValue(a, b)
  }

  /** Whether some map of `sources` at an index in [from, |sources|) has key `k`. */
  predicate InSomeFrom<K(!new), V>(sources: seq<map<K, V>>, k: K, from: nat) {
    exists i :: from <= i < |sources| && k in sources[i]
  }

  /** `extend` is `Object.assign(target, ...sources)`: every source's keys are
      copied onto the target in order, so the last source holding a key wins,
      and keys no source holds keep the target's value. */
  function Extend<K(!new), V>(target: map<K, V>, sources: seq<map<K, V>>): (r: map<K, V>)
    ensures forall k :: k in r <==> k in target || InSomeFrom(sources, k, 0)
    ensures forall k, i :: 0 <= i < |sources| && k in sources[i] && !InSomeFrom(sources, k, i + 1) ==>
              k in r && r[k] == sources[i][k]
    ensures forall k :: k in target && !InSomeFrom(sources, k, 0) ==> r[k] == target[k]
    decreases |sources|
  {
    if |sources| == 0 then target
    else
      var rest := Extend(target + sources[0], sources[1..]);
      assert forall k, j :: 0 <= j < |sources| - 1 ==> (k in sources[1..][j] <==> k in sources[j + 1]);
      rest
  }

  // ---------------------------------------------------------------------
  // Strings (ASCII case mapping; full Unicode case mapping is not modelled)
  // ---------------------------------------------------------------------

  /** The regular-expression class `\w`. */
  predicate IsWordChar(c: char) {
    ('a' <= c <= 'z') || ('A' <= c <= 'Z') || ('0' <= c <= '9') || c == '_'
  }

  predicate IsUpper(c: char) {
    'A' <= c <= 'Z'
  }

  function ToUpperChar(c: char): (r: char)
    ensures 'a' <= c <= 'z' ==> IsUpper(r)
    ensures !('a' <= c <= 'z') ==> r == c
  {
    if 'a' <= c <= 'z' then (c as int - 32) as char else c
  }

  function ToLowerChar(c: char): (r: char)
    ensures IsUpper(c) ==> 'a' <= r <= 'z'
    ensures !IsUpper(c) ==> r == c
  {
    if IsUpper(c) then (c as int + 32) as char else c
  }

  /** `String.prototype.toLowerCase`, on ASCII letters. */
  function ToLower(s: string): (r: string)
    ensures |r| == |s|
    ensures forall i :: 0 <= i < |s| ==> r[i] == ToLowerChar(s[i])
  {
    if |s| == 0 then "" else [ToLowerChar(s[0])] + ToLower(s[1..])
  }

  /** `camelize`: `str.replace(/-(\w)/g, (_, c) => c.toUpperCase())`. The global
      replacement scans left to right and never overlaps matches. */
  function Camelize(s: string): (r: string)
    ensures (|s| + 1) / 2 <= |r| <= |s|
    decreases |s|
  {
    if |s| >= 2 && s[0] == '-' && IsWordChar(s[1]) then [ToUpperChar(s[1])] + Camelize(s[2..])
    else if |s| == 0 then ""
    else [s[0]] + Camelize(s[1..])
  }

  /** A string with no '-' is left unchanged by `camelize`. */
  lemma {:induction false} CamelizeWithoutDash(s: string)
    requires '-' !in s
    ensures Camelize(s) == s
    decreases |s|
  {
    if |s| > 0 {
      assert s[0] != '-';
      assert '-' !in s[1..];
      CamelizeWithoutDash(s[1..]);
    }
  }

  /** Every `-x` with `x` a word character shortens the string by one. */
  lemma {:induction false} CamelizeJoin(a: string, c: char, b: string)
    requires '-' !in a && IsWordChar(c)
    ensures Camelize(a + ['-', c] + b) == a + [ToUpperChar(c)] + Camelize(b)
    decreases |a|
  {
    if |a| == 0 {
      assert a + ['-', c] + b == ['-', c] + b;
      assert (['-', c] + b)[2..] == b;
    } else {
      var s := a + ['-', c] + b;
      assert s[0] == a[0] && a[0] != '-';
      assert s[1..] == a[1..] + ['-', c] + b;
      assert '-' !in a[1..];
      CamelizeJoin(a[1..], c, b);
      assert a == [a[0]] + a[1..];
    }
  }

  /** `capitalize`: upper-cases only the first character. */
  function Capitalize(s: string): (r: string)
    ensures |r| == |s|
    ensures |s| > 0 ==> r[0] == ToUpperChar(s[0]) && r[1..] == s[1..]
  {
    if |s| == 0 then "" else [ToUpperChar(s[0])] + s[1..]
  }

  /** `toHandlerKey`: the props key under which a handler for an event lives. */
  function ToHandlerKey(event: string): (r: string)
    ensures |r| == |event| + 2
    ensures r[..2] == "on"
    ensures |event| > 0 ==> r[2] == ToUpperChar(event[0])
    ensures forall i :: 3 <= i < |r| ==> r[i] == event[i - 2]
    ensures |event| > 0 && 'a' <= event[0] <= 'z' ==> IsOnKey(r)
  {
    "on" + Capitalize(event)
  }

  /** The DOM adapter's listener test `/^on[A-Z]/`. */
  predicate IsOnKey(key: string) {
    |key| >= 3 && key[0] == 'o' && key[1] == 'n' && IsUpper(key[2])
  }

  /** The event name a listener key binds: `key.slice(2).toLowerCase()`. */
  function EventName(key: string): (r: string)
    requires IsOnKey(key)
    ensures |r| == |key| - 2
    ensures forall i :: 0 <= i < |r| ==> r[i] == ToLowerChar(key[i + 2])
    ensures forall i :: 0 <= i < |r| ==> !IsUpper(r[i])
  {
    ToLower(key[2..])
  }

  /** Emitting a lower-case event name looks up a key that the DOM adapter
      binds as a listener for that very event: the two naming conventions
      round-trip. */
  lemma HandlerKeyRoundTrip(event: string)
    requires |event| > 0 && forall i :: 0 <= i < |event| ==> 'a' <= event[i] <= 'z'
    ensures IsOnKey(ToHandlerKey(event))
    ensures EventName(ToHandlerKey(event)) == event
  {
    var key := ToHandlerKey(event);
    assert key[2..] == Capitalize(event);
    var r := EventName(key);
    assert forall i :: 0 <= i < |event| ==> r[i] == event[i] by {
      forall i | 0 <= i < |event|
        ensures r[i] == event[i]
      {
        if i == 0 {
          assert key[2] == ToUpperChar(event[0]);
        } else {
          assert key[2 + i] == event[i];
        }
      }
    }
  }
}

=== FILE: vnode.dfy ===
/** Virtual nodes, their shape flags, and slot normalisation
    (src/runtime-core/vnode.ts; bundle lib/guide-mini-vue.cjs.js:26-74, 252-266). */
module Vnode {
  import opened Wrappers
  import opened Shared

  /** A host node created by the renderer. */
  type HostId = nat

  // ShapeFlags: one bit per fact about a vnode.
  const ELEMENT: bv8 := 1
  const STATEFUL_COMPONENT: bv8 := 2
  const TEXT_CHILDREN: bv8 := 4
  const ARRAY_CHILDREN: bv8 := 8
  const SLOT_CHILDREN: bv8 := 16

  predicate Has(flags: bv8, bit: bv8) {
    flags & bit != 0
  }

  /** What `setup` does with the runtime, in order. */
  datatype SetupOp =
    | ProvideOp(key: string, value: Value)
      /** `inject(key, default)`; `callResult` is what `default()` returns
          when the default is a function. */
    | InjectOp(key: string, default: Value, callResult: Value)
    | GetInstanceOp
      /** A write into the `props` argument of `setup`. */
    | WritePropOp(key: string, value: Value)
    | EmitOp(event: string, args: seq<Value>)

  /** The value `setup` returns: an object (its own keys), `null`, or
      anything whose `typeof` is not 'object'. */
  datatype SetupResult = ResultObject(fields: map<string, Value>) | ResultNull | ResultOther

  datatype SetupScript = SetupScript(ops: seq<SetupOp>, result: SetupResult)

  /** A component definition: an object with an optional `setup` and an
      optional `render`. The render function itself is abstract; the
      renderer receives its output as an input. */
  datatype ComponentDef = ComponentDef(id: nat, setup: Option<SetupScript>, hasRender: bool)

  /** The `type` of a vnode. */
  datatype VType =
    | Tag(name: string)
    | Comp(def: ComponentDef)
    | FragmentType
    | TextType
      /** Any other value (a number, `null`, a function). */
    | OtherType

  /** A props argument: absent (`undefined`/`null`), the shared `EMPTY_OBJ`,
      or an object with an identity, its keys in enumeration order and their
      values. */
  datatype Props =
    | NoProps
    | EmptyObj
    | PropsObj(id: nat, keys: seq<string>, vals: map<string, Value>)

  /** The keys of a props object are its enumeration order without repeats. */
  ghost predicate PropsWellFormed(p: Props) {
    p.PropsObj? ==> NoDup(p.keys) && p.vals.Keys == set k | k in p.keys
  }

  /** The own enumerable keys and values of a props argument. */
  function PropMap(p: Props): map<string, Value> {
    if p.PropsObj? then p.vals else map[]
  }

  function PropKeys(p: Props): seq<string> {
    if p.PropsObj? then p.keys else []
  }

  /** What a slot function returns: one vnode or an array of them. The slot
      props are not modelled: the output is fixed. */
  datatype SlotOut = One(node: VNode) | Many(nodes: seq<VNode>)

  /** A slot as `initSlots` stores it: the wrapper
      `props => normalizeSlotValue(value(props))`. `SlotFunction(out)` wraps a
      function whose output is `out`; `NotCallable` wraps a value that is not a
      function, so calling the wrapper throws a `TypeError`. */
  datatype SlotEntry = SlotFunction(out: SlotOut) | NotCallable

  datatype Children =
    | NoChildren
    | TextChildren(text: string)
    | ArrayChildren(nodes: seq<VNode>)
      /** A plain object of named slots. */
    | SlotObject(slots: map<string, SlotEntry>)

  datatype VNode = VNode(type_: VType, props: Props, children: Children, shapeFlag: bv8, el: Option<HostId>)

  /** `isObject(children)`: arrays and plain objects. */
  predicate ChildrenIsObject(c: Children) {
    c.ArrayChildren? || c.SlotObject?
  }

  /** `getShapeFlag`: `undefined` for types that are neither strings nor
      objects, which the later `|=` and `&` treat as 0. */
  function GetShapeFlag(t: VType): (r: bv8)
    ensures Has(r, ELEMENT) <==> t.Tag?
    ensures Has(r, STATEFUL_COMPONENT) <==> t.Comp?
    ensures !(Has(r, ELEMENT) && Has(r, STATEFUL_COMPONENT))
    ensures r & 0xFC == 0
  {
    match t
    case Tag(_) => ELEMENT
    case Comp(_) => STATEFUL_COMPONENT
    case _ => 0
  }

  /** `createVnode(type, props, children)`. */
  function CreateVnode(t: VType, props: Props, children: Children): (r: VNode)
    ensures r.type_ == t && r.props == props && r.children == children && r.el == None
    ensures Has(r.shapeFlag, ELEMENT) <==> t.Tag?
    ensures Has(r.shapeFlag, STATEFUL_COMPONENT) <==> t.Comp?
    ensures Has(r.shapeFlag, TEXT_CHILDREN) <==> children.TextChildren?
    ensures Has(r.shapeFlag, ARRAY_CHILDREN) <==> children.ArrayChildren?
    ensures Has(r.shapeFlag, SLOT_CHILDREN) <==> t.Comp? && ChildrenIsObject(children)
    ensures r.shapeFlag & 0xE0 == 0
  {
    var base := GetShapeFlag(t);
    var withChildren :=
      if children.TextChildren? then base | TEXT_CHILDREN
      else if children.ArrayChildren? then base | ARRAY_CHILDREN
      else base;
    var flags :=
      if Has(withChildren, STATEFUL_COMPONENT) && ChildrenIsObject(children)
      then withChildren | SLOT_CHILDREN
      else withChildren;
    VNode(t, props, children, flags, None)
  }

  /** `createTextVnode(text)`; `propsId` is the identity of the new `{}`. */
  function CreateTextVnode(text: string, propsId: nat): (r: VNode)
    ensures r.type_ == TextType && r.children == TextChildren(text) && r.el == None
    ensures r.props == PropsObj(propsId, [], map[]) && PropsWellFormed(r.props)
    ensures r.shapeFlag == TEXT_CHILDREN
  {
    CreateVnode(TextType, PropsObj(propsId, [], map[]), TextChildren(text))
  }

  /** A vnode built by `createVnode`: its flags are the ones computed from its
      type and children. */
  predicate Built(n: VNode) {
    n.shapeFlag == CreateVnode(n.type_, n.props, n.children).shapeFlag
  }

  /** The shape-flag facts the renderer relies on: never both an element and a
      component, never both text and array children, and slot children only
      on components. */
  lemma FlagsExclusive(n: VNode)
    requires Built(n)
    ensures !(Has(n.shapeFlag, ELEMENT) && Has(n.shapeFlag, STATEFUL_COMPONENT))
    ensures !(Has(n.shapeFlag, TEXT_CHILDREN) && Has(n.shapeFlag, ARRAY_CHILDREN))
    ensures Has(n.shapeFlag, SLOT_CHILDREN) ==> Has(n.shapeFlag, STATEFUL_COMPONENT)
    ensures Has(n.shapeFlag, STATEFUL_COMPONENT) && n.children.ArrayChildren? ==>
              Has(n.shapeFlag, ARRAY_CHILDREN) && Has(n.shapeFlag, SLOT_CHILDREN)
  {
  }

  /** `normalizeSlotValue`: arrays are kept, anything else is wrapped in a
      one-element array. */
  function NormalizeSlotValue(out: SlotOut): (r: seq<VNode>)
    ensures out.Many? ==> r == out.nodes
    ensures out.One? ==> |r| == 1 && r[0] == out.node
  {
    match out
    case One(v) => [v]
    case Many(vs) => vs
  }

  /** `renderSlots(slots, name)`: `undefined` for a missing slot, otherwise a
      Fragment (with a new `{}` as props) holding the normalised slot
      output. Every stored slot is a wrapper function, so the `typeof` test
      passes; a wrapper around a non-function throws when it is called. */
  function RenderSlots(slots: map<string, SlotEntry>, name: string, propsId: nat): (r: Result<Option<VNode>>)
    ensures name !in slots ==> r == Ok(None)
    ensures name in slots && slots[name].NotCallable? ==> r.Err?
    ensures name in slots && slots[name].SlotFunction? ==>
              && r.Ok? && r.value.Some?
              && r.value.value.type_ == FragmentType
              && r.value.value.children == ArrayChildren(NormalizeSlotValue(slots[name].out))
              && r.value.value.shapeFlag == ARRAY_CHILDREN
  {
    if name !in slots then Ok(None)
    else match slots[name]
      case SlotFunction(out) =>
        Ok(Some(CreateVnode(FragmentType, PropsObj(propsId, [], map[]), ArrayChildren(NormalizeSlotValue(out)))))
      case NotCallable => Err(TypeError)
  }
}

=== FILE: wrappers.dfy ===
/** Option and Result, the failure-carrying datatypes the rest of the model uses.
    `Err` stands for a JavaScript exception escaping the operation. */
module Wrappers {

  datatype Option<+T> = None | Some(value: T) {
    function GetOr(default: T): T {
      match this
      case Some(v) => v
      case None => default
    }
  }

  /** The only exception the modelled code can raise: a property read on
      `null` or `undefined`, or a call of a non-function. */
  datatype JsError = TypeError

  datatype Result<+T> = Ok(value: T) | Err(error: JsError) {
    predicate IsFailure() {
      Err?
    }

    function PropagateFailure<U>(): Result<U>
      requires Err?
    {
      Err(error)
    }

    function Extract(): T
      requires Ok?
    {
      value
    }
  }

  /** Sequences without repeated elements: the model of a JavaScript `Set`
      together with its insertion order. */
  predicate NoDup<T(==,!new)>(s: seq<T>) {
    forall i, j :: 0 <= i < j < |s| ==> s[i] != s[j]
  }

  /** `Set.prototype.add`: appends only when absent. */
  function SetAdd<T(==,!new)>(s: seq<T>, x: T): (r: seq<T>)
    ensures NoDup(s) ==> NoDup(r)
    ensures x in r
    ensures forall y :: y in r <==> y in s || y == x
    ensures x in s ==> r == s
  {
    if x in s then s else s + [x]
  }

  /** `Set.prototype.delete`: removes the element, keeping the order of the rest. */
  function SetDelete<T(==,!new)>(s: seq<T>, x: T): (r: seq<T>)
    ensures x !in r
    ensures forall y :: y in r <==> y in s && y != x
    ensures NoDup(s) ==> NoDup(r)
    ensures |r| <= |s|
  {
    if |s| == 0 then []
    else if s[0] == x then SetDelete(s[1..], x)
    else
      var rest := SetDelete(s[1..], x);
      var r := [s[0]] + rest;
      assert forall i :: 0 < i < |r| ==> r[i] == rest[i - 1];
      assert NoDup(s) ==> s[0] !in s[1..] by {
        assert forall j :: 0 <= j < |s[1..]| ==> s[1..][j] == s[j + 1];
      }
      r
  }
}
